=== FILE: README.md ===
# otf_tools core, modelled in Dafny

This project models the core of `otf_tools`, a small Python library that
reads an OpenType font, looks characters up through its `cmap` table, runs
the `GSUB` glyph substitutions, and writes the font back out. The model
has five parts:

- `struct2.py`, the `struct_be` record codec. A record is a list of
  big-endian fields. The codec decodes it from a blob (`parse_blob`), reads
  it from a stream that may return short reads (`parse`), packs it, and
  builds it from keyword arguments.
- `adv_typo.py`, the GSUB loader and engine:
  - Coverage tables in format 1 (a glyph list) and format 2 (glyph ranges).
  - Single substitution in formats 1 and 2.
  - Ligature substitution.
  - The lookup list, the feature list and the script list with their
    language systems.
  - `make_subber`, and the `_Subber.sub` cursor loop.
- `cmap.py`:
  - Decoding the Windows Unicode BMP (3, 1) format 4 subtable into a dense
    map of 65536 entries.
  - `cmap[ch]` and `cmap[ch] = gid`.
  - `pack`, which writes the map back as one format 4 subtable.
- `font.py`:
  - The offset table and the table directory.
  - `parse`, which sorts the records by offset and slices out each table.
  - `get`, which upgrades the first table with a tag in place, exactly once.
  - `get_glyphs`.
  - The table checksum, read in 16 KiB chunks.
  - `save`, which pads every table to four bytes, sorts the directory and
    patches `checkSumAdjustment` so that the file sums to 0xB1B0AFBA.

The model is purely functional:
- Every exception the code can raise becomes a `Fail` value of a `Result`:
  `RuntimeError`, `struct.error`, `IndexError`, `KeyError`, an
  `AttributeError` on a missing `pack`, and a `ValueError` from `log2(0)`.
- Every in-place mutation becomes a new value that is returned:
  - the table list after `get`;
  - the glyph list after a substitution;
  - the map after `cmap[ch] = gid`.
- Bytes are integers from 0 to 255.
- A four-byte tag is its big-endian value, which orders tags as byte
  strings do.
- Python's clamping slices and negative indices are modelled exactly
  (`Seqs.Slice`, `Seqs.Drop`, `Seqs.PyIndex`).

Files:
- `wrappers.dfy`: `Result` and `Option`.
- `bytes.dfy`: the big-endian codec and powers of two.
- `seqs.dfy`: list and dictionary behaviour of Python.
- `struct2.dfy`: the record codec.
- `checksum.dfy`: the table checksum.
- `coverage.dfy`: Coverage tables.
- `gsub.dfy`: the substitution engine.
- `gsub_parse.dfy`: the GSUB loader.
- `gsub_example.dfy`: a small GSUB table loaded and applied.
- `cmap.dfy`: the cmap decoder.
- `cmap_pack.dfy`: `OtfCmapTable.pack`.
- `head.dfy`: the `head` table.
- `font.dfy`: the container, `parse`, `get` and `get_glyphs`.
- `font_save.dfy`: `save`.

The module-level helpers `parse(fin, fmt)` and `parse_array(fin, fmt,
count)` are imported by `adv_typo.py` but are not defined in `struct2.py`.
They are not part of this model's source. `Struct2.ParseTuple` and
`Struct2.ParseArray` model them from their call sites:
- `parse` reads one fixed tuple.
- `parse_array` reads `count` elements and fails on a negative count.

The model assumes that `parse_array` returns a list. The ligature test at
otf_tools/adv_typo.py:191 compares a list slice of the glyph ids with the
components that `parse_array` returned. Python never finds a list equal to
a tuple, so with a tuple no ligature could ever apply. `Gsub.LigaMatches`
compares the two as sequences.

## Model

| member | source | states |
|---|---|---|
| Struct2.FieldLayout | otf_tools/struct2.py:9-26 | Field `i` of a record is decoded from the bytes at the sum of the widths of the fields before it. |
| Struct2.DecodeOfEncode | otf_tools/struct2.py:55-56 | Unpacking what `struct.pack` wrote gives back the values, field by field. |
| Struct2.EncodeOfDecodeFields | otf_tools/struct2.py:28-34 | Packing what was unpacked gives back exactly the bytes. |
| Struct2.ParseBlob | otf_tools/struct2.py:28-34 | Succeeds exactly when the blob holds at least `size` bytes; otherwise it fails as truncated. Every decoded value fits its format. |
| Struct2.ParseBlobIgnoresTail | otf_tools/struct2.py:28-34 | Bytes past the record never change what `parse_blob` returns. |
| Struct2.Values | otf_tools/struct2.py:55-56 | `pack` succeeds exactly when every field is set and fits its format. A set field that does not fit is a range error. |
| Struct2.PackOfParseBlob | otf_tools/struct2.py:28-56 | `pack(parse_blob(b))` is the first `size` bytes of `b`. |
| Struct2.ParseBlobOfPack | otf_tools/struct2.py:28-56 | `parse_blob(pack(r))` gives back the values that were set in `r`. |
| Struct2.Construct | otf_tools/struct2.py:60-70 | The keyword constructor fails exactly when a keyword is not a field name. Each field takes its keyword's value, and a field with no keyword is unset. |
| Struct2.ConstructThenPack | otf_tools/struct2.py:55-70 | A record given a fitting value for every field packs. One with an omitted field does not. |
| Struct2.ReadSome | otf_tools/struct2.py:41 | One `fin.read(k)` returns at most `k` bytes, which are a prefix of the pending data. It returns nothing only at end of file. |
| Struct2.ReadExact | otf_tools/struct2.py:38-45 | The short-read loop fails exactly when the stream ends early. Otherwise it returns exactly the next `n` bytes and leaves the rest pending. |
| Struct2.Parse | otf_tools/struct2.py:36-51 | Reading a record from a stream gives what `parse_blob` gives on the pending data, and consumes exactly `size` bytes. |
| Struct2.ParseTuple | otf_tools/adv_typo.py:99 | `parse(fin, fmt)` on a blob fails exactly when the tuple runs past the end, and advances the cursor by the tuple's size. |
| Struct2.ParseArray | otf_tools/adv_typo.py:100 | `parse_array` with a negative count is refused. Otherwise it reads `count` fields of the format into a list of `count` values. |
| Struct2.BatchedArray | otf_tools/cmap.py:32-42 | Reading an array as two batches gives the same values as reading it whole, so the 8 K-element batches of `_load_array` change nothing. |
| Struct2.ArrayElement | otf_tools/adv_typo.py:122 | Element `k` of an array read at a cursor is the value stored `k` element widths past it. |
| Struct2.Word | otf_tools/adv_typo.py:119 | `parse(fin, '>H')` returns the stored word and advances two bytes. It fails exactly at the end of the data. |
| Struct2.Words | otf_tools/adv_typo.py:175 | `parse_array(fin, '>H', n)` fails exactly when the `n` words run past the end. Word `k` is the one stored at `2k`. |
| Struct2.WordsAreArray | otf_tools/adv_typo.py:175 | Reading `n` words one at a time agrees with the generic array reader, in both outcome and value. |
| Struct2.TagOffset | otf_tools/adv_typo.py:11-21 | An `OTF_tag_offset` record is its tag and the word after it, six bytes in all. |
| Bytes.FloorLog2 | otf_tools/font.py:149 | The exponent `e` satisfies `2^e <= n < 2^(e+1)`, which is `floor(log2(n))`. |
| Bytes.ToSigned16 | otf_tools/adv_typo.py:147 | The `h` format reads a word as the two's-complement value in [-32768, 32768) congruent to it. |
| Bytes.FromSigned16 | otf_tools/adv_typo.py:147 | Every signed 16-bit value has a word that reads back as it. |
| Seqs.IndexOf | otf_tools/adv_typo.py:125 | `list.index` finds the first position holding the value, and `None` exactly when the value is absent. |
| Seqs.SortBy | otf_tools/font.py:117 | `list.sort(key=...)` returns a rearrangement of the list, sorted by the key. The sort is stable: for every key, the elements with that key are in the order they had. |
| Seqs.AssignLast | otf_tools/adv_typo.py:89-90 | Assigning keys in order leaves each key with the value of its last occurrence. |
| Seqs.PyIndex | otf_tools/cmap.py:75 | Python indexing succeeds exactly for `-len <= k < len`, and counts negative indices from the end. |
| Checksum.Align4 | otf_tools/font.py:49-50 | `_align4(v)` is a multiple of four in `[v, v + 4)`. |
| Checksum.Align4Least | otf_tools/font.py:49-50 | No multiple of four at or above `v` is smaller than `_align4(v)`. |
| Checksum.Pad4 | otf_tools/font.py:52-53 | `_pad4(v)` is fewer than four zero bytes, and they bring `v` to a multiple of four. |
| Checksum.PaddingKeepsChecksum | otf_tools/font.py:94 | Zero-padding a table does not change its checksum. |
| Checksum.ChecksumAppend | otf_tools/font.py:98-102 | The checksum of an aligned prefix followed by the rest is the sum of the two checksums modulo 2^32. |
| Checksum.SumOfWords | otf_tools/font.py:99-101 | Summing the `>{n}I` unpack of an aligned chunk is the word sum of its bytes. |
| Checksum.ChunkedChecksum | otf_tools/font.py:89-104 | The 16 KiB chunk loop computes the sum of all big-endian words modulo 2^32, with the last partial word zero-padded. |
| Coverage.GlyphListLookup | otf_tools/adv_typo.py:123-127 | Format 1 answers with the first position of the glyph in the list, and `None` exactly when the glyph is absent. |
| Coverage.GlyphRangesLookup | otf_tools/adv_typo.py:133-138 | Format 2 answers from the first range holding the glyph (`startCovIdx + gid - startGid`), and `None` exactly when no range holds it. |
| Coverage.RangesAgreeWithList | otf_tools/adv_typo.py:117-139 | Ranges that number their glyphs consecutively give the same index as the explicit glyph list they stand for. |
| Coverage.ParseRanges | otf_tools/adv_typo.py:132 | The range records are read six bytes apart, and the read fails exactly when they run past the end. |
| Coverage.GlyphArray | otf_tools/adv_typo.py:121-122 | The format 1 glyph list is the words stored from byte 4 on. |
| Coverage.ParseCoverage | otf_tools/adv_typo.py:117-141 | A short table is truncated and a format other than 1 or 2 is refused. A format 1 or 2 table loads exactly when its glyph list or its range records fit, and otherwise fails as truncated. Format 1 gives the stored glyph list and format 2 the stored ranges. |
| Gsub.FirstMatch | otf_tools/adv_typo.py:190-193 | Finds the first ligature of a set whose components follow the cursor, and `None` exactly when none does. |
| Gsub.Ligate | otf_tools/adv_typo.py:192 | The glyph at the cursor and the matched components are replaced by the target. Everything before and after is kept. |
| Gsub.Apply | otf_tools/adv_typo.py:149-193 | One procedure call keeps the glyphs before the cursor and never asks for a jump. A single substitution keeps the length. Only an out-of-range coverage index into a substitute or ligature-set list raises. |
| Gsub.SingleDeltaEffect | otf_tools/adv_typo.py:149-151 | A covered glyph becomes `gid + delta`, unwrapped, and an uncovered list is unchanged. |
| Gsub.SingleListEffect | otf_tools/adv_typo.py:157-160 | A covered glyph becomes the substitute at its coverage index, and an uncovered list is unchanged. |
| Gsub.LigatureUncovered | otf_tools/adv_typo.py:186-190 | An uncovered glyph is left alone. A covered one raises exactly when its coverage index has no ligature set. |
| Gsub.LigatureNoMatch | otf_tools/adv_typo.py:190-193 | When no ligature of the set matches, the list is unchanged. |
| Gsub.LigatureMatch | otf_tools/adv_typo.py:190-193 | The first matching ligature of the set replaces the glyph and its components. |
| Gsub.FirstMatchIsFirst | otf_tools/adv_typo.py:190-193 | A matching ligature with no matching one before it is the one chosen. |
| Gsub.DeltaLeavesGlyphRange | otf_tools/adv_typo.py:151 | The unwrapped sum takes 0xFFFF + 1 to 0x10000 and 3 − 5 to −2, where a 16-bit sum gives 0 and 0xFFFE. |
| Gsub.AddDelta | otf_tools/adv_typo.py:151 | The corrected sum is a 16-bit glyph id congruent to `gid + delta` modulo 65536. |
| Gsub.AddDeltaAgrees | otf_tools/adv_typo.py:151 | The corrected and the unwrapped sums agree whenever the unwrapped one is a glyph id. |
| Gsub.ApplyAll | otf_tools/adv_typo.py:238-244 | Running every lookup at one position keeps the glyphs before the cursor and the cursor in range. |
| Gsub.ApplyAllAppend | otf_tools/adv_typo.py:238-244 | Running the procedures of `a + b` at one position is running those of `a` and then those of `b`. |
| Gsub.SubFrom | otf_tools/adv_typo.py:236-244 | The cursor loop never lengthens the list. |
| Gsub.Sub | otf_tools/adv_typo.py:233-246 | The `while` loop of `_Subber.sub`, with its list copy and cursor, computes the reference definition `Substitute`. |
| Gsub.NoProceduresIsIdentity | otf_tools/adv_typo.py:233-246 | With no lookups the output equals the input. |
| Gsub.UncoveredIsIdentity | otf_tools/adv_typo.py:233-246 | When no lookup covers any glyph of the list, the output equals the input. |
| Gsub.SinglesKeepLength | otf_tools/adv_typo.py:233-246 | With only single substitutions the output has the input's length. |
| Gsub.MakeSubber | otf_tools/adv_typo.py:262-269 | An unknown script or language system raises. Otherwise the lookups are those of the enabled features of that language system, in feature order. |
| Gsub.EnabledProcsIsFlatten | otf_tools/adv_typo.py:263-267 | The lookups gathered are the concatenation of the enabled features' lookup lists. |
| Gsub.NothingEnabled | otf_tools/font.py:144-146 | With every feature disabled the subber has no lookups and returns its input. |
| Gsub.LigatureExample | otf_tools/adv_typo.py:186-193 | The ligature A B C → D applies to [A, B, C] and not to [A, B, X]. |
| Gsub.SingleDeltaExample | otf_tools/adv_typo.py:149-151 | A delta moves only a covered glyph, and a later lookup sees the earlier one's output at the same position. |
| GsubParse.Each | otf_tools/adv_typo.py:107 | A list comprehension over parsers succeeds exactly when every element does, and raises the first failure. |
| GsubParse.TagList | otf_tools/adv_typo.py:23-25 | `load_taglist` reads a count and that many (tag, offset) records. It fails exactly when they run past the end. |
| GsubParse.ParseSingle | otf_tools/adv_typo.py:143-164 | Format 1 gives a signed delta and format 2 gives the stored substitute list, each with the coverage at its offset. Any other format is refused. The subtable loads exactly when its header fits, its coverage loads, and for format 2 the substitute array fits. |
| GsubParse.ParseLiga | otf_tools/adv_typo.py:166-170 | A ligature is its target and `componentCount - 1` components. A zero count is corrupt. |
| GsubParse.ParseLigaSet | otf_tools/adv_typo.py:172-176 | A ligature set loads exactly when its offsets fit and every ligature they point at loads. It is then the ligatures at its stored offsets. |
| GsubParse.CountedWords | otf_tools/adv_typo.py:174-175 | A count followed by that many words is read whole or fails as truncated. |
| GsubParse.ParseLigatureSubtable | otf_tools/adv_typo.py:178-184 | Only format 1 is accepted. The subtable loads exactly when its header fits, its coverage loads, its set offsets fit and every ligature set loads. A coverage failure is raised before the offsets are read. The procedure holds the coverage and the ligature sets at the stored offsets. |
| GsubParse.LookupBody | otf_tools/adv_typo.py:208-216 | An unknown lookup type is refused. Types 3 and 6 give no procedures. Types 1 and 4 load exactly when every subtable loads, and give one procedure per subtable offset. |
| GsubParse.LookupHeader | otf_tools/adv_typo.py:202-206 | The type, flag, count, offsets and mark-filtering word must all be present before the body is parsed. |
| GsubParse.LookupSpec | otf_tools/adv_typo.py:202-216 | The outcomes of `parse_lookup` on a header that was read whole. A missing mark-filtering word or an unknown type fails, and types 3 and 6 give no procedures. Types 1 and 4 load exactly when every subtable at the stored offsets loads, one procedure per offset. |
| GsubParse.ParseLookupList | otf_tools/adv_typo.py:218-227 | The lookup list loads exactly when its offsets fit and every lookup they point at loads. Lookup `i` is then the lookup parsed at the `i`-th stored offset. |
| GsubParse.ConcatLookups | otf_tools/adv_typo.py:102 | A feature's procedures are the concatenation of its indexed lookups. An index past the list raises. |
| GsubParse.FeatureSpec | otf_tools/adv_typo.py:97-102 | A feature keeps its tag and the procedures of its stored lookup indices. |
| GsubParse.ParseFeatureList | otf_tools/adv_typo.py:104-107 | The feature list loads exactly when its tag list fits and every feature it points at loads. Feature `i` is then parsed at the `i`-th record's offset under its tag. |
| GsubParse.SelectedAreIndexed | otf_tools/adv_typo.py:77 | The features of a language system are those its stored indices name. |
| GsubParse.SelectFeaturesOk | otf_tools/adv_typo.py:77 | Selecting the features succeeds exactly when every index is stored and names a feature of the list. |
| GsubParse.ParseLangSys | otf_tools/adv_typo.py:74-78 | A language system loads exactly when its header and feature indices fit and every index names a feature. It keeps its lookup order, its required feature index and the features it selects. |
| GsubParse.DefaultLangSys | otf_tools/adv_typo.py:86-87 | A zero offset gives no default language system. A non-zero offset adds the key `None` and succeeds exactly when the language system at that offset loads. |
| GsubParse.Languages | otf_tools/adv_typo.py:85-90 | A script's language systems load exactly when the default one (if its offset is non-zero) and every listed one load. |
| GsubParse.LanguagesKeys | otf_tools/adv_typo.py:85-90 | A script's language systems are keyed by the default one and by every listed tag. |
| GsubParse.LanguagesLast | otf_tools/adv_typo.py:89-90 | A language tag maps to the system at its last record's offset. |
| GsubParse.ParseScript | otf_tools/adv_typo.py:80-91 | A script loads exactly when its offset word and tag list fit and each of its language systems loads. It keeps its default offset and its language systems. |
| GsubParse.Scripts | otf_tools/adv_typo.py:95 | The script dictionary loads exactly when every listed script loads. |
| GsubParse.ParseScriptList | otf_tools/adv_typo.py:93-95 | The script list loads exactly when its tag list fits and every script it points at loads. It is read from its tag list. |
| GsubParse.ScriptsKeys | otf_tools/adv_typo.py:95 | The script dictionary maps exactly the listed tags. |
| GsubParse.ScriptsLast | otf_tools/adv_typo.py:95 | A script tag maps to the script at its last record's offset. |
| GsubParse.ParseGsub | otf_tools/adv_typo.py:249-260 | Only version 1.0 is accepted. The table loads exactly when its header fits and the lookup list, then the feature list, then the script list load at their stored offsets. |
| GsubExample.CovLoads | otf_tools/adv_typo.py:117-125 | A format 1 coverage table listing glyph 5 loads as that glyph list. |
| GsubExample.SingleLoads | otf_tools/adv_typo.py:143-151 | A format 1 single substitution with delta 1 loads as "glyph 5 moves by 1". |
| GsubExample.LookupLoads | otf_tools/adv_typo.py:202-216 | A type 1 lookup with one subtable loads as its one procedure. |
| GsubExample.LookupListLoads | otf_tools/adv_typo.py:218-227 | A lookup list of that lookup loads as one lookup. |
| GsubExample.FeatureLoads | otf_tools/adv_typo.py:97-102 | A feature naming lookup 0 gets that lookup's procedures. |
| GsubExample.FeatureListLoads | otf_tools/adv_typo.py:104-107 | A feature list with one `liga` record loads as that feature. |
| GsubExample.LangSysLoads | otf_tools/adv_typo.py:74-78 | A language system naming feature 0 selects that feature. |
| GsubExample.ScriptLoads | otf_tools/adv_typo.py:80-91 | A script with only a default language system maps `None` to it. |
| GsubExample.ScriptListTags | otf_tools/adv_typo.py:23-25 | The tag list of the example script list holds its one `latn` record. |
| GsubExample.ScriptListLoads | otf_tools/adv_typo.py:93-95 | The script list maps `latn` to that script. |
| GsubExample.GsubLoads | otf_tools/adv_typo.py:249-260 | A complete 70-byte GSUB table loads, with every level as its bytes say. |
| GsubExample.SubberFromLoaded | otf_tools/adv_typo.py:262-269 | `make_subber` on the loaded table gives the `liga` procedure exactly when `liga` is enabled. An unknown language system or script raises. |
| GsubExample.LoadedSubberApplies | otf_tools/adv_typo.py:229-246 | The loaded procedure turns glyphs [5, 7] into [6, 7]. |
| Cmap.Zeros | otf_tools/cmap.py:66 | The initial map has 65536 zero entries. |
| Cmap.GlyphOf | otf_tools/cmap.py:69-78 | A delta-only segment gives `(c + delta) mod 65536`. Otherwise the glyph comes from the array, with the delta added to a non-zero one, and is `None` when the index falls outside the array. |
| Cmap.PaintSegment | otf_tools/cmap.py:68-78 | A segment writes each of its codes' glyphs and keeps every other entry. It raises exactly when one of its codes has no glyph. |
| Cmap.LastCovering | otf_tools/cmap.py:68 | Finds the last segment covering a code, or `None` when none does. |
| Cmap.PaintIsLastCovering | otf_tools/cmap.py:68-78 | Every code's decoded glyph is the one the last covering segment gives, or 0 when no segment covers it. |
| Cmap.LoadArray | otf_tools/cmap.py:32-42 | `_load_array` reads `n` words from the position, and fails exactly when they run past the end. |
| Cmap.LoadArrayIsWords | otf_tools/cmap.py:32-42 | `_load_array` agrees with the generic word reader. |
| Cmap.ReadArrays | otf_tools/cmap.py:58-64 | The four segment arrays sit after the reserved word, and the glyph-id array follows them. |
| Cmap.ReadFormat4 | otf_tools/cmap.py:44-64 | The subtable is clipped to its `length` word, and its arrays hold 16-bit words. A missing `length` word or a header shorter than 14 bytes is truncated input. A `length` that leaves a negative or odd number of bytes for the glyph ids is a corrupted subtable. |
| Cmap.ReadFormat4Layout | otf_tools/cmap.py:50-56 | The segment count is half the fourth header word. The length accounts exactly for the header, the arrays and an even glyph-id array. |
| Cmap.Format4Decoded | otf_tools/cmap.py:44-80 | The decoded map gives every code the glyph of its last covering segment, or 0. |
| Cmap.EncodingRecords | otf_tools/cmap.py:96 | The encoding records are read eight bytes apart, and the read fails exactly when they run past the end. |
| Cmap.ParseCmap | otf_tools/cmap.py:86-110 | A short table is truncated, a version other than 0 is refused, and a decoded map has 65536 entries. |
| Cmap.ParseCmapSpec | otf_tools/cmap.py:96-110 | The first (3, 1) record's subtable is decoded. With no such record the table has no map, and a format other than 4 there is refused. |
| Cmap.Get | otf_tools/cmap.py:155-156 | `cmap[ch]` is the map's entry for `ord(ch)`. It raises when there is no map, and `IndexError` when the code is past 0xFFFF. |
| Cmap.Set | otf_tools/cmap.py:158-159 | `cmap[ch] = gid` raises when there is no map. On a dense map it succeeds exactly for codes below 0x10000, and otherwise raises `IndexError`. The new map is the old one with only that entry replaced. |
| Cmap.GetAfterSet | otf_tools/cmap.py:155-159 | Reading an entry after writing it gives the written glyph, and every other character keeps its glyph. |
| CmapPack.TablesStayValid | otf_tools/cmap.py:86-159 | Parsing gives a table with a dense map or none, and writing an entry keeps it so. |
| CmapPack.ScanSegments | otf_tools/cmap.py:117-127 | The `enumerate` loop ends in ordered runs of the map that cover every code below 0xFFFF with a glyph. |
| CmapPack.RunsSegmentation | otf_tools/cmap.py:113-129 | A code below 0xFFFF lies in a written run exactly when its glyph is non-zero, and each run follows the map. |
| CmapPack.SearchRange | otf_tools/cmap.py:143-144 | `searchRange` is the largest power of two times 2 that is at most `2·segCount`. |
| CmapPack.Delta | otf_tools/cmap.py:135 | `(gid - cid) & 0xffff` is the delta reduced modulo 2^16. |
| CmapPack.SegmentOf | otf_tools/cmap.py:131-136 | A run is written as a delta-only segment that covers exactly the run's codes. |
| CmapPack.SubheaderFields | otf_tools/cmap.py:143-151 | The subheader is format 4 with the length, language 0 and `2·n`. `searchRange = 2·2^entrySelector`, `searchRange <= 2n < 2·searchRange`, and `rangeShift = 2n − searchRange >= 0`. |
| CmapPack.SubheaderFits | otf_tools/cmap.py:146-151 | The subheader fits its 16-bit fields exactly when `16 + 8n` does. |
| CmapPack.HeaderBytesRead | otf_tools/cmap.py:140-141 | The header reads back as version 0 and one record (3, 1) pointing at byte 12. |
| CmapPack.SubtableLayout | otf_tools/cmap.py:131-151 | The subtable is written exactly when its length fits 16 bits. It is the subheader followed by the segment arrays. |
| CmapPack.PackTable | otf_tools/cmap.py:112-153 | A table without a map cannot be written. |
| CmapPack.PackOutcome | otf_tools/cmap.py:112-153 | `pack` succeeds exactly when there is a map and the subtable's length fits 16 bits. Otherwise it is a range error. |
| CmapPack.PaintRuns | otf_tools/cmap.py:113-136 | Decoding the written segments reproduces the map with glyphs taken modulo 65536 and 0xFFFF unmapped. |
| CmapPack.PackRoundTrip | otf_tools/cmap.py:112-153 | Parsing what `pack` wrote gives back the map, each glyph below 0xFFFF reduced modulo 65536 and code 0xFFFF mapped to 0. |
| Head.Layout | otf_tools/font.py:26-47 | The head record is 54 bytes, with the 32-bit `checkSumAdjustment` at byte 8. |
| Head.ParseHead | otf_tools/font.py:74-77 | The head record is read exactly when the table holds 54 bytes, and its values fit their fields. |
| Head.HeadSplit | otf_tools/font.py:79-81 | Packing a head with any 32-bit adjustment writes the adjustment at byte 8 and the record's other fields around it. |
| Head.PackHeadOk | otf_tools/font.py:79-81 | A head whose values fit packs to 54 bytes with any 32-bit adjustment. |
| Head.OnlyAdjustmentDiffers | otf_tools/font.py:79-81 | Two packings of one head differ only in the adjustment word. |
| Head.HeadRoundTrip | otf_tools/font.py:74-81 | A head packed with its stored adjustment gives back the bytes it was read from. |
| Font.Sizes | otf_tools/font.py:7-24 | The offset table is 12 bytes and a table record 16. |
| Font.Upgrade | otf_tools/font.py:83-87 | `head`, `cmap` and `GSUB` go to their parsers, which succeed exactly when those parsers do. Every other tag becomes an opaque table with the same bytes. |
| Font.GetSpec | otf_tools/font.py:123-134 | With no table of the tag, `get` returns nothing and the font is unchanged. Otherwise the first such table is upgraded once, stored at its place, and every other table is kept. |
| Font.GetTwice | otf_tools/font.py:123-134 | Asking again returns the same table and leaves the font as the first call did. |
| Font.GetKeepsValid | otf_tools/font.py:123-134 | `get` keeps a well-formed font well formed. |
| Font.PackTable | otf_tools/font.py:55-81 | Raw and opaque tables pack to their own bytes and a head to its 54-byte record. A GSUB table has no `pack`. |
| Font.UnknownTagKeepsBytes | otf_tools/font.py:66-72 | A table of any other tag packs to the bytes it was read from. |
| Font.RecordAtParses | otf_tools/font.py:17-24 | A table record read at an offset is `_OTF_TABLE_RECORD.parse` of the bytes there: tag, checksum, offset and length. |
| Font.TableRecordAt | otf_tools/font.py:116 | Directory record `k` is the one stored at `12 + 16k`. |
| Font.Directory | otf_tools/font.py:115-116 | The directory holds `numTables` records, and reading fails exactly when they run past the end. |
| Font.MakeFontSpec | otf_tools/font.py:107-109 | The constructor fails exactly when the first head is too short. Otherwise that table alone is parsed and the rest stay raw. |
| Font.ParseSpec | otf_tools/font.py:111-121 | `parse` gives one table per record. The records are in ascending offset order, records with equal offsets keep their directory order, and each table is the clamped slice its record points at. |
| Font.Lookups | otf_tools/font.py:142 | The lookups succeed exactly when every character's lookup does, and then give its cmap entry, one per character. |
| Font.CharGlyphs | otf_tools/font.py:141-142 | No characters give no glyphs even without a cmap. Otherwise a missing cmap raises. |
| Font.GetGlyphsIsCmap | otf_tools/font.py:140-146 | With every feature disabled, `get_glyphs` returns exactly the cmap entry of each character. |
| FontSave.Adjustment | otf_tools/font.py:183 | The adjustment is a 32-bit word that brings the file's sum to 0xB1B0AFBA modulo 2^32. |
| FontSave.AdjustmentSums | otf_tools/font.py:183 | The constant as written, 0x1b1b0afba, gives the same word modulo 2^32. |
| FontSave.OffsetTableValues | otf_tools/font.py:149-156 | `searchRange = 16·2^entrySelector`, `searchRange <= 16n < 2·searchRange`, and `rangeShift = 16n − searchRange`. |
| FontSave.PackOffsetTable | otf_tools/font.py:151-156 | The offset table packs exactly when its fields fit 16 bits, and it records `numTables`. |
| FontSave.PackRecord | otf_tools/font.py:170 | A table record packs exactly when its values fit 32 bits, and it reads back as itself. |
| FontSave.PlaceRecords | otf_tools/font.py:165-173 | Each table is placed where the previous one ends, rounded up to four bytes. Its record carries its tag, checksum and unpadded length. |
| FontSave.PlaceAligned | otf_tools/font.py:165-173 | With an aligned start every table offset is a multiple of four. |
| FontSave.PlaceLength | otf_tools/font.py:165-173 | The padded tables take exactly `Σ _align4(len)` bytes. |
| FontSave.PlaceBody | otf_tools/font.py:165-173 | Each table's bytes sit at its record's offset. |
| FontSave.PackAll | otf_tools/font.py:158 | Every table is packed, and the first table that cannot be packed raises. |
| FontSave.PackRecords | otf_tools/font.py:170 | The directory entries are the packed records paired with their tags. |
| FontSave.LaySorts | otf_tools/font.py:175 | The directory is the packed entries sorted by their bytes, which starts with the tag. |
| FontSave.DraftShape | otf_tools/font.py:165-180 | The image before the patch is exactly `12 + 16n + Σ _align4(len_i)` bytes and records `n` tables. |
| FontSave.DraftTable | otf_tools/font.py:165-180 | Table `i` sits, aligned and after the directory, at the offset its record gives. |
| FontSave.SavedDirectory | otf_tools/font.py:148-180 | The directory read back holds one record per table, in ascending tag order, and is a rearrangement of the records written. |
| FontSave.SavedTable | otf_tools/font.py:148-180 | Each table's packed bytes sit at the offset of a record with its tag, checksum and length. |
| FontSave.HeadPatch | otf_tools/font.py:183-185 | Writing the head over the image keeps its length and changes at most the adjustment word. |
| FontSave.PatchChecksum | otf_tools/font.py:177-185 | Patching a head packed with a zero adjustment makes the whole file sum to 0xB1B0AFBA. |
| FontSave.SaveSpec | otf_tools/font.py:148-185 | `save` fails on no tables, on a table that cannot be packed, and on a font without a head. Otherwise the result is the image with the first head written at the last head's offset. |
| FontSave.SaveIsPatch | otf_tools/font.py:163-185 | `save` of any font with a head is the image patched at the last head's offset with the first head's values. When every head packs alike, the last head's bytes are the first head's. |
| FontSave.SaveChecksum | otf_tools/font.py:148-185 | The saved file differs from the image only in the head's adjustment word, and sums to 0xB1B0AFBA. |

## Left out

- I/O: `OpenTypeFont.parse` takes the whole file as bytes instead of a file object, and `grope.wrap_io`/`BlobIO` become clamping slices and cursors. `Struct2.ReadExact` models the short-read loop over a stream given as its chunks.
- `rope` is lazy concatenation. It is modelled as concatenation of sequences.
- `inv_glyphs` (otf_tools/font.py:136-138) calls `cmap.inv`, which `cmap.py` does not define, so it always raises. It is not modelled.
- `__repr__` methods and `struct_le` are not modelled: only big-endian records are used.
- Cmap.Get: a Dafny `char` is a Unicode scalar value, so the surrogate codes 0xD800–0xDFFF that `ord(key)` accepts cannot be passed (otf_tools/cmap.py:155-156).
- Cmap.Set: the same surrogate gap as `Cmap.Get` (otf_tools/cmap.py:158-159).
- Font.GetGlyphs: the same surrogate gap, for the characters looked up.
- Head.PackHead: pure. `OtfHeadTable.pack` also stores the adjustment in `_data.checkSumAdjustment` (otf_tools/font.py:79-81). Every later `pack` overwrites that field, so only a direct read of `_data` could see it.
- FontSave.SaveChecksum: requires `HeadsAgree`, that every `head` table packs to the same bytes. The first head is packed at the last head's offset, so with two differing heads the source's file does not sum to 0xB1B0AFBA.
- Gsub.MakeSubber: the default arguments `script=b'DFLT'` and `langsys=None` are explicit parameters. `Font.GetGlyphs` passes them.
- Bytes.FloorLog2: exact integer `floor(log2(n))` in place of floating-point `math.log2`. The two agree for every table and segment count that the 16-bit fields can hold.
- Struct2.BatchedArray: the 8 K-element batches of `_load_array` are not a loop in the model. `Cmap.LoadArray` reads the array whole, and this lemma proves that batches give the same values.
- Struct2.ParseArray: `parse_array` is read in one call. The batching above is the only difference.
- Lookup flags and the mark-filtering-set word are read but ignored, as in the source. Lookup types 3 and 6 are accepted and give no procedures. The `assert` on the lookup type becomes a failure, as when assertions are enabled.
- `Gsub.Apply` returns a new cursor position that is always `None`, as every closure of the source returns `None`. The `new_i` branch of `_Subber.sub` therefore never runs and is not modelled beyond that.
- The `checkSumAdjustment` field: the code zeroes it before the whole-file sum, because `tab.pack()` uses the default `checksum=0` (otf_tools/font.py:79-81, 158). The model follows the code.
- `table_hdrs.sort()` sorts `(tag, packed record)` tuples. The packed record starts with the tag, so the model sorts by the big-endian value of the packed bytes (`FontSave.HdrKey`), which orders the tuples the same way.
- The readers of fixed-size records in a list comprehension (`Coverage.ParseRanges`, `GsubParse.TagRecords`, `Cmap.EncodingRecords`) read record `k` at `pos + size·k`, instead of stepping one cursor record by record. This is the same reading order and gives the same values.
- A font whose `GSUB` table was upgraded cannot be saved, because `OtfGsubTable` has no `pack`. This is modelled as a `NotPackable` failure, not left out.
- `transform.py`, the command-line driver, is not part of this model.

## Findings

| source | as written | input that shows it | evidently intended | confidence | as-written member | corrected member |
|---|---|---|---|---|---|---|
| otf_tools/adv_typo.py:151 | `gids[idx] += delta_glyph_id` adds the signed delta with no reduction | A covered glyph 0xFFFF with delta 1 becomes 0x10000. A covered glyph 3 with delta −5 becomes −2. Neither is a glyph id. | The sum modulo 65536, as section "Single Substitution Format 1" of the OpenType GSUB table specification prescribes | medium, not executed | Gsub.DeltaLeavesGlyphRange | Gsub.AddDeltaAgrees |

=== FILE: bytes.dfy ===
/** Bytes and big-endian integers: the primitive layer under every OpenType
    structure (all multi-byte fields of the format are big-endian). */
module Bytes {

  type byte = b: int | 0 <= b < 256

  function Pow256(n: nat): (p: nat)
    ensures p >= 1
  {
    if n == 0 then 1 else 256 * Pow256(n - 1)
  }

  function Pow2(n: nat): (p: nat)
    ensures p >= 1
  {
    if n == 0 then 1 else 2 * Pow2(n - 1)
  }

  /** `int(math.floor(math.log2(n)))`, exactly. */
  function FloorLog2(n: nat): (e: nat)
    requires n >= 1
    ensures Pow2(e) <= n < 2 * Pow2(e)
  {
    if n < 2 then 0 else 1 + FloorLog2(n / 2)
  }

  /** Every exponent is below its power of two. */
  lemma {:induction false} PowAbove(e: nat)
    ensures e < Pow2(e)
  {
    if e > 0 {
      PowAbove(e - 1);
    }
  }

  /** The unsigned value of a big-endian byte string. */
  function BeDecode(bs: seq<byte>): (v: nat)
    ensures v < Pow256(|bs|)
  {
    if |bs| == 0 then 0
    else
      var hi := BeDecode(bs[..|bs| - 1]);
      assert hi * 256 + bs[|bs| - 1] < Pow256(|bs|) by {
        assert hi <= Pow256(|bs| - 1) - 1;
        assert hi * 256 <= (Pow256(|bs| - 1) - 1) * 256;
      }
      hi * 256 + bs[|bs| - 1]
  }

  /** The `n`-byte big-endian representation of `v`. */
  function BeEncode(v: nat, n: nat): (r: seq<byte>)
    requires v < Pow256(n)
    ensures |r| == n
    ensures BeDecode(r) == v
  {
    if n == 0 then []
    else
      assert v / 256 < Pow256(n - 1);
      var r := BeEncode(v / 256, n - 1) + [v % 256];
      assert r[..n - 1] == BeEncode(v / 256, n - 1);
      r
  }

  /** Decoding is injective on strings of one length: encoding the decoded
      value gives the bytes back. */
  lemma {:induction false} EncodeOfDecode(bs: seq<byte>)
    ensures BeEncode(BeDecode(bs), |bs|) == bs
  {
    if |bs| > 0 {
      var n := |bs|;
      var hi := BeDecode(bs[..n - 1]);
      EncodeOfDecode(bs[..n - 1]);
      assert BeDecode(bs) / 256 == hi;
      assert BeDecode(bs) % 256 == bs[n - 1];
      assert bs == bs[..n - 1] + [bs[n - 1]];
    }
  }

  /** A big-endian value splits at any byte boundary. */
  lemma {:induction false} DecodeAppend(a: seq<byte>, b: seq<byte>)
    ensures BeDecode(a + b) == BeDecode(a) * Pow256(|b|) + BeDecode(b)
    decreases |b|
  {
    if |b| == 0 {
      assert a + b == a;
    } else {
      var n := |b|;
      assert (a + b)[..|a + b| - 1] == a + b[..n - 1];
      DecodeAppend(a, b[..n - 1]);
      Regroup(BeDecode(a + b), BeDecode(a + b[..n - 1]), BeDecode(b), BeDecode(a), Pow256(n - 1),
              BeDecode(b[..n - 1]), b[n - 1], Pow256(n));
    }
  }

  lemma Regroup(whole: int, front: int, tail: int, x: int, p: int, y: int, last: int, q: int)
    requires whole == front * 256 + last && front == x * p + y
    requires tail == y * 256 + last && q == p * 256
    ensures whole == x * q + tail
  {
  }

  /** Two's-complement reading of a 16-bit word (struct format `h`). */
  function ToSigned16(u: nat): (s: int)
    requires u < 0x1_0000
    ensures -0x8000 <= s < 0x8000
    ensures (s + 0x1_0000) % 0x1_0000 == u
  {
    if u < 0x8000 then u else u - 0x1_0000
  }

  /** The 16-bit word that stores the signed value `s`. */
  function FromSigned16(s: int): (u: nat)
    requires -0x8000 <= s < 0x8000
    ensures u < 0x1_0000
    ensures ToSigned16(u) == s
  {
    if s < 0 then s + 0x1_0000 else s
  }
}

=== FILE: checksum.dfy ===
/** The sfnt table checksum ("Calculating Checksums" in the OpenType
    font-file chapter): the sum, modulo 2^32, of a byte string read as
    big-endian 32-bit words, its last partial word padded with zeros; and
    the four-byte alignment the font writer pads tables to. */
module Checksum {
  import opened Bytes
  import opened Struct2

  const Modulus: nat := 0x1_0000_0000

  /** The checksum reads at most this many bytes per step. */
  const ChunkSize: nat := 16 * 1024

  /** `_align4(v)`, `(v + 3) & ~3`: `v + 3` with its two low bits cleared. */
  function Align4(v: nat): (a: nat)
    ensures a % 4 == 0 && v <= a < v + 4
  {
    (v + 3) - (v + 3) % 4
  }

  /** No multiple of four at or above `v` is below `Align4(v)`. */
  lemma Align4Least(v: nat, k: nat)
    requires k % 4 == 0 && v <= k
    ensures Align4(v) <= k
  {
  }

  /** `_pad4(v)`: the zero bytes that take a length `v` to `Align4(v)`. */
  function Pad4(v: nat): (p: seq<byte>)
    ensures |p| == Align4(v) - v && |p| < 4 && (v + |p|) % 4 == 0
    ensures forall i :: 0 <= i < |p| ==> p[i] == 0
  {
    seq(Align4(v) - v, _ => 0)
  }

  /** The sum of the big-endian words of `b`, the last one padded with
      zeros, without the modulus: the reference the chunked loop is
      measured against. */
  function WordSum(b: seq<byte>): nat
  {
    if |b| == 0 then 0
    else if |b| < 4 then BeDecode(b + Pad4(|b|))
    else BeDecode(b[..4]) + WordSum(b[4..])
  }

  /** The table checksum, a 32-bit value. */
  function TableChecksum(b: seq<byte>): (r: nat)
    ensures r < Modulus
  {
    WordSum(b) % Modulus
  }

  /** A four-byte-aligned prefix contributes its own words. */
  lemma {:induction false} WordSumAppend(a: seq<byte>, b: seq<byte>)
    requires |a| % 4 == 0
    ensures WordSum(a + b) == WordSum(a) + WordSum(b)
  {
    if |a| == 0 {
      assert a + b == b;
    } else {
      assert (a + b)[..4] == a[..4];
      assert (a + b)[4..] == a[4..] + b;
      WordSumAppend(a[4..], b);
    }
  }

  /** The checksum of an aligned prefix and the rest adds up modulo 2^32. */
  lemma {:induction false} ChecksumAppend(a: seq<byte>, b: seq<byte>)
    requires |a| % 4 == 0
    ensures TableChecksum(a + b) == (TableChecksum(a) + TableChecksum(b)) % Modulus
  {
    WordSumAppend(a, b);
    ModAdd(WordSum(a), WordSum(b));
  }

  /** Reducing the addends first does not change a sum modulo 2^32. */
  lemma ModAdd(x: nat, y: nat)
    ensures (x + y) % Modulus == (x % Modulus + y % Modulus) % Modulus
  {
    var q := x / Modulus + y / Modulus;
    assert x + y == q * Modulus + (x % Modulus + y % Modulus);
    ModMultiple(q, x % Modulus + y % Modulus);
  }

  /** Congruent sums stay congruent when the same amount is added. */
  lemma AddCongruent(a: nat, b: nat, x: nat)
    requires a % Modulus == b % Modulus
    ensures (a + x) % Modulus == (b + x) % Modulus
  {
    ModAdd(a, x);
    ModAdd(b, x);
  }

  lemma {:induction false} ModMultiple(q: nat, r: nat)
    ensures (q * Modulus + r) % Modulus == r % Modulus
  {
    if q > 0 {
      ModMultiple(q - 1, r);
      assert q * Modulus + r == ((q - 1) * Modulus + r) + Modulus;
    }
  }

  /** A single word adds its big-endian value. */
  lemma {:induction false} WordSumOfWord(w: seq<byte>)
    requires |w| == 4
    ensures WordSum(w) == U32At(w, 0)
  {
    assert w[..4] == w && w[0..4] == w;
    assert WordSum(w[4..]) == 0;
  }

  /** Zero bytes add nothing. */
  lemma {:induction false} WordSumOfZeros(z: seq<byte>)
    requires forall i :: 0 <= i < |z| ==> z[i] == 0
    ensures WordSum(z) == 0
  {
    if 0 < |z| < 4 {
      var p := z + Pad4(|z|);
      assert forall i :: 0 <= i < |p| ==> p[i] == 0;
      BeDecodeZeros(p);
    } else if |z| >= 4 {
      BeDecodeZeros(z[..4]);
      WordSumOfZeros(z[4..]);
    }
  }

  lemma {:induction false} BeDecodeZeros(z: seq<byte>)
    requires forall i :: 0 <= i < |z| ==> z[i] == 0
    ensures BeDecode(z) == 0
  {
    if |z| > 0 {
      BeDecodeZeros(z[..|z| - 1]);
    }
  }

  /** Padding a table to four bytes does not change its checksum. */
  lemma {:induction false} PaddingKeepsChecksum(b: seq<byte>)
    ensures TableChecksum(b + Pad4(|b|)) == TableChecksum(b)
  {
    PaddingKeepsSum(b);
  }

  lemma {:induction false} PaddingKeepsSum(b: seq<byte>)
    ensures WordSum(b + Pad4(|b|)) == WordSum(b)
  {
    var k := 4 * (|b| / 4);
    var a, t := b[..k], b[k..];
    var pad := Pad4(|b|);
    assert b == a + t;
    assert b + pad == a + (t + pad);
    WordSumAppend(a, t);
    WordSumAppend(a, t + pad);
    SamePad(|t|, |b|);
    PaddedLastWord(t, pad);
  }

  /** Zero-padding a last partial word does not change its value. */
  lemma PaddedLastWord(t: seq<byte>, pad: seq<byte>)
    requires |t| < 4 && pad == Pad4(|t|)
    ensures WordSum(t + pad) == WordSum(t)
  {
    if |t| > 0 {
      var w := t + pad;
      assert |w| == 4 && w[..4] == w && w[4..] == [];
    }
  }

  /** The padding depends only on the length modulo four. */
  lemma SamePad(u: nat, v: nat)
    requires u == v - 4 * (v / 4)
    ensures Pad4(u) == Pad4(v)
  {
    assert Align4(u) - u == Align4(v) - v;
  }

  /** `struct.unpack('>{}I')` of a whole number of words. */
  function Words32(chunk: seq<byte>): (ws: seq<nat>)
    requires |chunk| % 4 == 0
    ensures |ws| == |chunk| / 4
    ensures forall k :: 0 <= k < |ws| ==> ws[k] == U32At(chunk, 4 * k)
  {
    seq(|chunk| / 4, k requires 0 <= k < |chunk| / 4 => U32At(chunk, 4 * k))
  }

  function Sum(ws: seq<nat>): nat
  {
    if |ws| == 0 then 0 else ws[0] + Sum(ws[1..])
  }

  /** Summing the unpacked words of an aligned chunk is the reference sum. */
  lemma {:induction false} SumOfWords(chunk: seq<byte>)
    requires |chunk| % 4 == 0
    ensures Sum(Words32(chunk)) == WordSum(chunk)
  {
    if |chunk| > 0 {
      var ws := Words32(chunk);
      var rest := chunk[4..];
      SumOfWords(rest);
      assert ws[1..] == Words32(rest) by {
        forall k | 0 <= k < |ws| - 1
          ensures ws[1..][k] == Words32(rest)[k]
        {
          assert chunk[4 * (k + 1)..4 * (k + 1) + 4] == rest[4 * k..4 * k + 4];
        }
      }
      assert ws[0] == BeDecode(chunk[..4]) by {
        assert chunk[0..4] == chunk[..4];
      }
    }
  }

  /** The loop's invariant: `rest` is what follows the first `done` bytes,
      a whole number of words, whose sum `acc` holds modulo 2^32. */
  ghost predicate Progress(b: seq<byte>, done: nat, rest: seq<byte>, acc: nat)
  {
    done + |rest| == |b| && done % 4 == 0 && rest == b[done..] &&
    acc % Modulus == WordSum(b[..done]) % Modulus
  }

  /** One chunk of whole words moves the running sum along the bytes. */
  lemma {:induction false} ChunkStep(b: seq<byte>, done: nat, rest: seq<byte>, acc: nat, len: nat)
    requires Progress(b, done, rest, acc)
    requires 4 <= len <= |rest| && len % 4 == 0
    ensures Progress(b, done + len, rest[len..], (acc + Sum(Words32(rest[..len]))) % Modulus)
  {
    var chunk := rest[..len];
    assert chunk == b[done..done + len];
    SumOfWords(chunk);
    WordSumAppend(b[..done], chunk);
    assert b[..done] + chunk == b[..done + len];
    AddCongruent(acc, WordSum(b[..done]), WordSum(chunk));
  }

  /** The padded tail, shorter than a word, completes the sum. */
  lemma {:induction false} TailStep(b: seq<byte>, done: nat, rest: seq<byte>, acc: nat)
    requires Progress(b, done, rest, acc) && 0 < |rest| < 4
    ensures (acc + BeDecode(rest + Pad4(|rest|))) % Modulus == TableChecksum(b)
  {
    WordSumAppend(b[..done], rest);
    assert b[..done] + rest == b;
    AddCongruent(acc, WordSum(b[..done]), WordSum(rest));
  }

  /** Once no bytes are left, the running sum is the checksum. */
  lemma Finished(b: seq<byte>, done: nat, acc: nat)
    requires Progress(b, done, [], acc)
    ensures acc % Modulus == TableChecksum(b)
  {
    assert b[..done] == b;
  }

  /** `n & ~3`: `n` rounded down to whole words. */
  function WholeWords(n: nat): (m: nat)
    ensures m % 4 == 0 && m <= n < m + 4
  {
    n - n % 4
  }

  /** `_otf_table_checksum`: the bytes in chunks of at most 16 KiB, each cut
      to whole words and summed modulo 2^32; a tail shorter than a word is
      padded and added last.  The chunking does not change the result. */
  method ChunkedChecksum(b: seq<byte>) returns (r: nat)
    ensures r == TableChecksum(b)
  {
    var acc: nat := 0;
    var rest := b;
    ghost var done := 0;
    while |rest| > 0
      invariant Progress(b, done, rest, acc)
      decreases |rest|
    {
      var chunkLen := if |rest| < ChunkSize then |rest| else ChunkSize;
      if chunkLen < 4 {
        var item := BeDecode(rest + Pad4(|rest|));
        TailStep(b, done, rest, acc);
        r := (acc + item) % Modulus;
        return;
      }
      chunkLen := WholeWords(chunkLen);
      var items := Words32(rest[..chunkLen]);
      ChunkStep(b, done, rest, acc, chunkLen);
      acc := (acc + Sum(items)) % Modulus;
      rest := rest[chunkLen..];
      done := done + chunkLen;
    }
    Finished(b, done, acc);
    r := acc % Modulus;
  }
}

=== FILE: cmap.dfy ===
/** The `cmap` table (`OtfCmapTable`): decoding the Windows Unicode BMP
    subtable (platform 3, encoding 1) in format 4 into a dense map from
    every 16-bit character code to a glyph id, and reading or writing one
    entry of that map.

    The map is a list of 65536 integers; entries written by the caller are
    kept as given, so they need not be 16-bit values. */
module Cmap {
  import opened Wrappers
  import opened Bytes
  import opened Seqs
  import opened Struct2

  const CodeCount: nat := 0x1_0000

  /** A dense character map: one entry per 16-bit code. */
  predicate IsCodeMap(m: seq<int>)
  {
    |m| == CodeCount
  }

  /** `[0] * 0x10000`. */
  function Zeros(): (m: seq<int>)
    ensures IsCodeMap(m) && forall c :: 0 <= c < CodeCount ==> m[c] == 0
  {
    seq(CodeCount, _ => 0)
  }

  /** The table keeps the map of its first (3, 1) subtable, or nothing when
      the font has none. */
  datatype CmapTable = CmapTable(codeMap: Option<seq<int>>)

  /** One segment of a format 4 subtable, as its four parallel arrays
      store it. */
  datatype Segment = Segment(start: nat, end: nat, delta: nat, rangeOffset: nat)

  predicate Covers(s: Segment, c: int)
  {
    s.start <= c <= s.end
  }

  predicate WordSegment(s: Segment)
  {
    s.start < CodeCount && s.end < CodeCount && s.delta < CodeCount && s.rangeOffset < CodeCount
  }

  // ---------------------------------------------------------------------------
  // Painting the segments (`_parse_format4`, the loop over `sid`).

  /** The glyph of code `c` in segment `sid`: the code plus the delta when
      the range offset is zero, otherwise the glyph-id array entry the
      offset points at (Python indexing, so a negative position counts from
      the end), plus the delta when that entry is not zero. `None` is the
      IndexError of a position outside the array. */
  function GlyphOf(s: Segment, sid: nat, segCount: nat, glyphIds: seq<nat>, c: int): (r: Option<int>)
    ensures r.Some? ==> 0 <= r.value < CodeCount
    ensures s.rangeOffset == 0 ==> r == Some((c + s.delta) % CodeCount)
  {
    if s.rangeOffset == 0 then Some((c + s.delta) % CodeCount)
    else
      var adj := s.start + segCount - sid - s.rangeOffset / 2;
      match PyIndex(glyphIds, c - adj)
      case None => None
      case Some(g) => Some((if g != 0 then g + s.delta else g) % CodeCount)
  }

  /** Writes the glyphs of one segment's codes over the map; a code whose
      glyph-id position is out of range raises. */
  function PaintSegment(m: seq<int>, s: Segment, sid: nat, segCount: nat, glyphIds: seq<nat>): (r: Result<seq<int>>)
    requires IsCodeMap(m)
    ensures r.Ok? <==> forall c :: s.start <= c <= s.end ==> GlyphOf(s, sid, segCount, glyphIds, c).Some?
    ensures r.Fail? ==> r.error == IndexOutOfRange
    ensures r.Ok? ==> IsCodeMap(r.value) && forall c :: 0 <= c < CodeCount ==>
      r.value[c] == if Covers(s, c) then GlyphOf(s, sid, segCount, glyphIds, c).value else m[c]
  {
    if forall c :: s.start <= c <= s.end ==> GlyphOf(s, sid, segCount, glyphIds, c).Some? then
      Ok(seq(CodeCount, c requires 0 <= c < CodeCount =>
        if Covers(s, c) then GlyphOf(s, sid, segCount, glyphIds, c).value else m[c]))
    else
      Fail(IndexOutOfRange)
  }

  /** The map after painting the first `k` segments, in segment order, over
      an all-zero map. */
  function Paint(segs: seq<Segment>, glyphIds: seq<nat>, k: nat): (r: Result<seq<int>>)
    requires k <= |segs|
    ensures r.Ok? ==> IsCodeMap(r.value)
    ensures r.Fail? ==> r.error == IndexOutOfRange
  {
    if k == 0 then Ok(Zeros())
    else
      match Paint(segs, glyphIds, k - 1)
      case Fail(e) => Fail(e)
      case Ok(m) => PaintSegment(m, segs[k - 1], k - 1, |segs|, glyphIds)
  }

  /** The index of the last of the segments that covers `c`. */
  function LastCovering(segs: seq<Segment>, c: int): (r: Option<nat>)
    ensures r.Some? ==> r.value < |segs| && Covers(segs[r.value], c)
    ensures r.Some? ==> forall j :: r.value < j < |segs| ==> !Covers(segs[j], c)
    ensures r.None? ==> forall j :: 0 <= j < |segs| ==> !Covers(segs[j], c)
  {
    if |segs| == 0 then None
    else if Covers(segs[|segs| - 1], c) then Some(|segs| - 1)
    else LastCovering(segs[..|segs| - 1], c)
  }

  /** The decoded glyph of every code is given by the last segment that
      covers it, and is 0 when none does: later segments overwrite earlier
      ones. */
  lemma {:induction false} PaintIsLastCovering(segs: seq<Segment>, glyphIds: seq<nat>, k: nat, c: nat)
    requires k <= |segs| && c < CodeCount
    requires Paint(segs, glyphIds, k).Ok?
    ensures var i := LastCovering(segs[..k], c);
      i.Some? ==> GlyphOf(segs[i.value], i.value, |segs|, glyphIds, c).Some?
    ensures var i := LastCovering(segs[..k], c);
      Paint(segs, glyphIds, k).value[c] ==
        if i.None? then 0 else GlyphOf(segs[i.value], i.value, |segs|, glyphIds, c).value
  {
    if k > 0 {
      PaintIsLastCovering(segs, glyphIds, k - 1, c);
      assert segs[..k][..k - 1] == segs[..k - 1];
      assert segs[..k][k - 1] == segs[k - 1];
    }
  }

  // ---------------------------------------------------------------------------
  // Decoding the format 4 subtable.

  /** The segments of four parallel arrays. */
  function Zip4(ends: seq<nat>, starts: seq<nat>, deltas: seq<nat>, offsets: seq<nat>): (r: seq<Segment>)
    requires |starts| == |ends| && |deltas| == |ends| && |offsets| == |ends|
    ensures |r| == |ends| && forall i :: 0 <= i < |ends| ==> r[i] == Segment(starts[i], ends[i], deltas[i], offsets[i])
  {
    seq(|ends|, i requires 0 <= i < |ends| => Segment(starts[i], ends[i], deltas[i], offsets[i]))
  }

  /** The two-byte word at `[off, off + 2)` of a clamping slice, as
      `struct.unpack('>H', bytes(blob[off:off+2]))` reads it: fewer than two
      bytes raise. */
  function WordOfSlice(blob: seq<byte>, off: nat): (r: Result<nat>)
    ensures r.Ok? <==> off + 2 <= |blob|
    ensures r.Ok? ==> r.value == U16At(blob, off)
    ensures r.Fail? ==> r.error == TruncatedInput
  {
    if off + 2 <= |blob| then Ok(U16At(blob, off)) else Fail(TruncatedInput)
  }

  /** The header fields and arrays of a format 4 subtable, before painting. */
  datatype Format4 = Format4(length: nat, segs: seq<Segment>, glyphIds: seq<nat>)

  /** `_load_array(fin, n, 'H')` with the stream at byte `pos`: `n`
      big-endian words, read in chunks; any chunk that runs past the end of
      the subtable raises, so the array must fit whole. */
  function LoadArray(sub: seq<byte>, pos: nat, n: nat): (r: Result<seq<nat>>)
    ensures r.Ok? <==> n == 0 || pos + 2 * n <= |sub|
    ensures r.Fail? ==> r.error == TruncatedInput
    ensures r.Ok? ==> |r.value| == n && forall k :: 0 <= k < n ==> r.value[k] == U16At(sub, pos + 2 * k)
  {
    if n == 0 || pos + 2 * n <= |sub| then Ok(seq(n, k requires 0 <= k < n => U16At(sub, pos + 2 * k)))
    else Fail(TruncatedInput)
  }

  /** The array is the one the record codec reads word by word from the
      same place. */
  lemma LoadArrayIsWords(sub: seq<byte>, pos: nat, n: nat)
    ensures LoadArray(sub, pos, n).Ok? <==> Words(Cursor(sub, pos), n).Ok?
    ensures LoadArray(sub, pos, n).Ok? ==> LoadArray(sub, pos, n).value == Words(Cursor(sub, pos), n).value.0
  {
    if LoadArray(sub, pos, n).Ok? {
      assert LoadArray(sub, pos, n).value == Words(Cursor(sub, pos), n).value.0;
    }
  }

  /** The five arrays after the fourteen-byte header: `n` end codes, the
      reserved word, then `n` start codes, deltas and range offsets, then
      `count` glyph ids, each starting where the previous one ends. */
  function ReadArrays(sub: seq<byte>, n: nat, count: nat): (r: Result<(seq<Segment>, seq<nat>)>)
    ensures r.Ok? <==> (n > 0 ==> 16 + 8 * n <= |sub|) && (count > 0 ==> 16 + 8 * n + 2 * count <= |sub|)
    ensures r.Ok? ==> |r.value.0| == n && |r.value.1| == count
    ensures r.Ok? ==> forall i :: 0 <= i < n ==> WordSegment(r.value.0[i])
  {
    var ends :- LoadArray(sub, 14, n);
    var starts :- LoadArray(sub, 14 + 2 * n + 2, n);
    var deltas :- LoadArray(sub, 16 + 4 * n, n);
    var offsets :- LoadArray(sub, 16 + 6 * n, n);
    var glyphIds :- LoadArray(sub, 16 + 8 * n, count);
    Ok((Zip4(ends, starts, deltas, offsets), glyphIds))
  }

  /** Where the arrays sit in the subtable. */
  lemma ReadArraysAt(sub: seq<byte>, n: nat, count: nat)
    requires ReadArrays(sub, n, count).Ok?
    ensures forall i :: 0 <= i < n ==>
      ReadArrays(sub, n, count).value.0[i] ==
        Segment(U16At(sub, 16 + 2 * n + 2 * i), U16At(sub, 14 + 2 * i),
                U16At(sub, 16 + 4 * n + 2 * i), U16At(sub, 16 + 6 * n + 2 * i))
    ensures forall k :: 0 <= k < count ==>
      ReadArrays(sub, n, count).value.1[k] == U16At(sub, 16 + 8 * n + 2 * k)
  {
  }

  /** `_parse_format4` up to the painting: the `length` word, the subtable
      clipped to `length` bytes, the fourteen-byte header (whose fourth word
      is twice the segment count), the size check on the glyph-id array,
      then the arrays. */
  function ReadFormat4(blob: seq<byte>, offs: nat): (r: Result<Format4>)
    ensures r.Ok? ==> forall i :: 0 <= i < |r.value.segs| ==> WordSegment(r.value.segs[i])
    ensures r.Ok? ==> offs + 4 <= |blob| && r.value.length == U16At(blob, offs + 2)
    ensures offs + 4 > |blob| ==> r == Fail(TruncatedInput)
    ensures offs + 4 <= |blob| && |Format4Bytes(blob, offs)| < 14 ==> r == Fail(TruncatedInput)
    ensures offs + 4 <= |blob| && |Format4Bytes(blob, offs)| >= 14 ==>
      var spare := U16At(blob, offs + 2) - (14 + U16At(Format4Bytes(blob, offs), 6) / 2 * 8 + 2);
      (spare < 0 || spare % 2 != 0 ==> r == Fail(CorruptSubtable))
  {
    var length :- WordOfSlice(blob, offs + 2);
    var sub := Slice(blob, offs, offs + length);
    if |sub| < 14 then Fail(TruncatedInput)
    else
      var segCount := U16At(sub, 6) / 2;
      var spare := length - (14 + segCount * 8 + 2);
      if spare < 0 || spare % 2 != 0 then Fail(CorruptSubtable)
      else
        var (segs, glyphIds) :- ReadArrays(sub, segCount, spare / 2);
        Ok(Format4(length, segs, glyphIds))
  }

  /** The subtable at `offs`, clipped to its `length` field. */
  function Format4Bytes(blob: seq<byte>, offs: nat): seq<byte>
  {
    if offs + 4 <= |blob| then Slice(blob, offs, offs + U16At(blob, offs + 2)) else []
  }

  /** What the header says about the arrays: the segment count is half the
      fourth header word, `length` accounts for the header, the arrays and
      the reserved word exactly, and the arrays are the ones `ReadArrays`
      finds in the clipped subtable. */
  lemma ReadFormat4Layout(blob: seq<byte>, offs: nat)
    requires ReadFormat4(blob, offs).Ok?
    ensures var f := ReadFormat4(blob, offs).value;
      var sub := Format4Bytes(blob, offs);
      |sub| >= 14 && |f.segs| == U16At(sub, 6) / 2 &&
      f.length == 16 + 8 * |f.segs| + 2 * |f.glyphIds| &&
      ReadArrays(sub, |f.segs|, |f.glyphIds|) == Ok((f.segs, f.glyphIds))
  {
  }

  /** `_parse_format4`: read the subtable, then paint its segments over an
      all-zero map. */
  function ParseFormat4(blob: seq<byte>, offs: nat): (r: Result<seq<int>>)
    ensures r.Ok? ==> IsCodeMap(r.value)
  {
    var f :- ReadFormat4(blob, offs);
    Paint(f.segs, f.glyphIds, |f.segs|)
  }

  /** The decoded map: every code takes the glyph of the last segment that
      covers it, or 0. */
  lemma Format4Decoded(blob: seq<byte>, offs: nat, c: nat)
    requires ParseFormat4(blob, offs).Ok? && c < CodeCount
    ensures var f := ReadFormat4(blob, offs).value;
      var i := LastCovering(f.segs, c);
      i.Some? ==> GlyphOf(f.segs[i.value], i.value, |f.segs|, f.glyphIds, c).Some?
    ensures var f := ReadFormat4(blob, offs).value;
      var i := LastCovering(f.segs, c);
      ParseFormat4(blob, offs).value[c] ==
        if i.None? then 0 else GlyphOf(f.segs[i.value], i.value, |f.segs|, f.glyphIds, c).value
  {
    var f := ReadFormat4(blob, offs).value;
    assert ParseFormat4(blob, offs) == Paint(f.segs, f.glyphIds, |f.segs|);
    PaintIsLastCovering(f.segs, f.glyphIds, |f.segs|, c);
    assert f.segs[..|f.segs|] == f.segs;
  }

  // ---------------------------------------------------------------------------
  // The table header and the encoding records.

  /** One encoding record: platform, encoding, subtable offset. */
  datatype EncodingRecord = EncodingRecord(platform: nat, encoding: nat, offset: nat)

  /** `count` encoding records of eight bytes each, read one after
      another; reading stops with an error when the bytes run out. */
  function EncodingRecords(c: Cursor, count: nat): (r: Result<seq<EncodingRecord>>)
    ensures r.Ok? <==> count == 0 || c.pos + 8 * count <= |c.data|
    ensures r.Fail? ==> r.error == TruncatedInput
    ensures r.Ok? ==> |r.value| == count && forall k :: 0 <= k < count ==>
      c.pos + 8 * k + 8 <= |c.data| && r.value[k] == RecordAt(c.data, c.pos + 8 * k)
  {
    if count > 0 && c.pos + 8 * count > |c.data| then Fail(TruncatedInput)
    else Ok(seq(count, k requires 0 <= k < count => RecordAt(c.data, c.pos + 8 * k)))
  }

  /** The encoding record stored at byte `pos`. */
  function RecordAt(data: seq<byte>, pos: nat): (e: EncodingRecord)
    requires pos + 8 <= |data|
    ensures e.platform == U16At(data, pos) && e.encoding == U16At(data, pos + 2) && e.offset == U32At(data, pos + 4)
  {
    EncodingRecord(U16At(data, pos), U16At(data, pos + 2), U32At(data, pos + 4))
  }

  predicate IsWindowsBmp(e: EncodingRecord)
  {
    e.platform == 3 && e.encoding == 1
  }

  /** `OtfCmapTable.__init__`: the header (version 0 only), the encoding
      records, then the format 4 subtable of the first Windows Unicode BMP
      record; without such a record the table has no map. */
  function ParseCmap(blob: seq<byte>): (r: Result<CmapTable>)
    ensures |blob| < 4 ==> r == Fail(TruncatedInput)
    ensures |blob| >= 4 && U16At(blob, 0) != 0 ==> r == Fail(UnsupportedVersion)
    ensures r.Ok? && r.value.codeMap.Some? ==> IsCodeMap(r.value.codeMap.value)
  {
    var (version, c1) :- Word(Cursor(blob, 0));
    var (count, c2) :- Word(c1);
    if version != 0 then Fail(UnsupportedVersion)
    else
      var records :- EncodingRecords(c2, count);
      match FirstWhere(records, IsWindowsBmp)
      case None => Ok(CmapTable(None))
      case Some(i) =>
        var offs := records[i].offset;
        var format :- WordOfSlice(blob, offs);
        if format != 4 then Fail(UnsupportedFormat)
        else
          var m :- ParseFormat4(blob, offs);
          Ok(CmapTable(Some(m)))
  }

  /** Which subtable is decoded: the first Windows Unicode BMP record's; a
      table without one decodes to no map, and any other format at that
      offset is refused. */
  lemma ParseCmapSpec(blob: seq<byte>)
    requires |blob| >= 4 && U16At(blob, 0) == 0
    requires EncodingRecords(Cursor(blob, 4), U16At(blob, 2)).Ok?
    ensures var recs := EncodingRecords(Cursor(blob, 4), U16At(blob, 2)).value;
      var i := FirstWhere(recs, IsWindowsBmp);
      (i.None? ==> ParseCmap(blob) == Ok(CmapTable(None))) &&
      (i.Some? && recs[i.value].offset + 2 <= |blob| && U16At(blob, recs[i.value].offset) != 4 ==>
        ParseCmap(blob) == Fail(UnsupportedFormat)) &&
      (i.Some? && recs[i.value].offset + 2 <= |blob| && U16At(blob, recs[i.value].offset) == 4 ==>
        ParseCmap(blob) == match ParseFormat4(blob, recs[i.value].offset)
                           case Ok(m) => Ok(CmapTable(Some(m)))
                           case Fail(e) => Fail(e))
  {
  }

  // ---------------------------------------------------------------------------
  // Reading and writing one entry (`__getitem__`, `__setitem__`).

  /** `cmap[ch]`: the glyph of a character; a table without a map, or a
      character beyond the 16-bit range, raises. */
  function Get(t: CmapTable, ch: char): (r: Result<int>)
    ensures t.codeMap.None? ==> r == Fail(NoMapping)
    ensures t.codeMap.Some? && IsCodeMap(t.codeMap.value) ==>
      (r.Ok? <==> (ch as int) < CodeCount) &&
      (r.Fail? ==> r.error == IndexOutOfRange) &&
      (r.Ok? ==> r.value == t.codeMap.value[ch as int])
  {
    match t.codeMap
    case None => Fail(NoMapping)
    case Some(m) => if (ch as int) < |m| then Ok(m[ch as int]) else Fail(IndexOutOfRange)
  }

  /** `cmap[ch] = gid`: replaces one entry; the same errors as `Get`. */
  function Set(t: CmapTable, ch: char, gid: int): (r: Result<CmapTable>)
    ensures t.codeMap.None? ==> r == Fail(NoMapping)
    ensures r.Ok? ==> (t.codeMap.Some? && r.value.codeMap.Some? &&
                       |r.value.codeMap.value| == |t.codeMap.value|)
    ensures t.codeMap.Some? && IsCodeMap(t.codeMap.value) ==>
      (r.Ok? <==> (ch as int) < CodeCount) &&
      (r.Fail? ==> r.error == IndexOutOfRange) &&
      (r.Ok? ==> r.value.codeMap.value == t.codeMap.value[ch as int := gid])
  {
    match t.codeMap
    case None => Fail(NoMapping)
    case Some(m) => if (ch as int) < |m| then Ok(CmapTable(Some(m[ch as int := gid]))) else Fail(IndexOutOfRange)
  }

  /** Reading an entry after writing it gives the written glyph, and every
      other character keeps its glyph. */
  lemma GetAfterSet(t: CmapTable, ch: char, gid: int, other: char)
    requires Set(t, ch, gid).Ok?
    ensures Get(Set(t, ch, gid).value, ch) == Ok(gid)
    ensures other != ch ==> Get(Set(t, ch, gid).value, other) == Get(t, other)
  {
  }
}

=== FILE: cmap_pack.dfy ===
/** `OtfCmapTable.pack`: writing the character map back as a `cmap` table
    with a single Windows Unicode BMP subtable in format 4.

    The map is scanned once, in code order, for runs of consecutive codes
    whose glyphs count up by one; every run becomes a segment with a zero
    range offset and a delta, followed by the `0xFFFF` sentinel segment. */
module CmapPack {
  import opened Wrappers
  import opened Bytes
  import opened Seqs
  import opened Struct2
  import opened Cmap

  // ---------------------------------------------------------------------------
  // The records written.

  const CmapHeader: Schema := [Field(U16, "version"), Field(U16, "numTables")]

  const EncodingRecordSchema: Schema :=
    [Field(U16, "platformID"), Field(U16, "encodingID"), Field(U32, "offset")]

  const Format4Header: Schema :=
    [Field(U16, "format"), Field(U16, "length"), Field(U16, "language"), Field(U16, "segCountX2"),
     Field(U16, "searchRange"), Field(U16, "entrySelector"), Field(U16, "rangeShift")]

  /** A table as the parser leaves it and `Set` keeps it: a map, when
      present, has an entry for every 16-bit code. */
  predicate ValidTable(t: CmapTable)
  {
    t.codeMap.Some? ==> IsCodeMap(t.codeMap.value)
  }

  /** Parsing gives a valid table, and writing an entry keeps it valid. */
  lemma TablesStayValid(blob: seq<byte>, t: CmapTable, ch: char, gid: int)
    ensures ParseCmap(blob).Ok? ==> ValidTable(ParseCmap(blob).value)
    ensures ValidTable(t) && Set(t, ch, gid).Ok? ==> ValidTable(Set(t, ch, gid).value)
  {
  }

  // ---------------------------------------------------------------------------
  // The scan for runs.

  /** `(seg_cid, seg_gid, length)`: `length` codes from `cid` whose glyphs
      count up from `gid`. */
  datatype Run = Run(cid: int, gid: int, length: int)

  function End(r: Run): int
  {
    r.cid + r.length
  }

  predicate InRun(r: Run, c: int)
  {
    r.cid <= c < End(r)
  }

  predicate Covered(runs: seq<Run>, c: int)
  {
    exists j :: 0 <= j < |runs| && InRun(runs[j], c)
  }

  /** A run of the map: inside the codes below `0xFFFF`, not empty (except
      for the one that can open at `0xFFFF` itself), and every code in it
      has a non-zero glyph that is the run's first glyph plus the code's
      distance from the run's start. */
  predicate RunOf(m: seq<int>, r: Run)
    requires IsCodeMap(m)
  {
    0 <= r.cid && 0 <= r.length && End(r) <= 0xFFFF && (r.length >= 1 || r.cid == 0xFFFF) &&
    forall c :: r.cid <= c < End(r) ==> m[c] != 0 && m[c] == r.gid + (c - r.cid)
  }

  /** Runs in ascending code order, none overlapping the next. */
  predicate Ordered(runs: seq<Run>)
  {
    forall i, j :: 0 <= i < j < |runs| ==> End(runs[i]) <= runs[j].cid
  }

  /** What the scan produces: runs of the map, in order, covering every code
      below `0xFFFF` that has a glyph. */
  predicate Segmentation(m: seq<int>, runs: seq<Run>)
    requires IsCodeMap(m)
  {
    (forall j :: 0 <= j < |runs| ==> RunOf(m, runs[j])) &&
    Ordered(runs) &&
    (forall c :: 0 <= c < 0xFFFF && m[c] != 0 ==> Covered(runs, c))
  }

  /** The loop body over `enumerate(self._map)` from code `cid` on, with
      `open` the pending `(seg_cid, seg_gid)` and `acc` the runs so far: a
      pending run closes at a zero glyph or a glyph off its progression, and
      a new one opens at any non-zero glyph when none is pending.  After the
      last code, a pending run is flushed with length `0xFFFF - seg_cid`,
      `cid` being `0xFFFF` there, so it never includes `0xFFFF`. */
  function Scan(m: seq<int>, cid: nat, open: Option<(nat, int)>, acc: seq<Run>): seq<Run>
    requires IsCodeMap(m) && cid <= CodeCount
    decreases CodeCount - cid
  {
    if cid == CodeCount then
      if open.Some? then acc + [Run(open.value.0, open.value.1, 0xFFFF - open.value.0)] else acc
    else
      var gid := m[cid];
      var closes := open.Some? && (gid == 0 || cid - open.value.0 + open.value.1 != gid);
      var acc' := if closes then acc + [Run(open.value.0, open.value.1, cid - open.value.0)] else acc;
      var pending := if closes then None else open;
      var open' := if pending.None? && gid != 0 then Some((cid, gid)) else pending;
      Scan(m, cid + 1, open', acc')
  }

  /** The pending run so far: its codes below `cid` all follow its
      progression. */
  predicate OpenRun(m: seq<int>, cid: nat, sc: nat, sg: int)
    requires IsCodeMap(m) && cid <= CodeCount
  {
    sc < cid && forall c :: sc <= c < cid ==> m[c] != 0 && m[c] == sg + (c - sc)
  }

  /** The scan's loop invariant at code `cid`. */
  predicate ScanInvariant(m: seq<int>, cid: nat, open: Option<(nat, int)>, acc: seq<Run>)
    requires IsCodeMap(m) && cid <= CodeCount
  {
    (forall j :: 0 <= j < |acc| ==> RunOf(m, acc[j])) &&
    Ordered(acc) &&
    (forall j :: 0 <= j < |acc| ==> End(acc[j]) <= if open.Some? then open.value.0 else cid) &&
    (open.Some? ==> OpenRun(m, cid, open.value.0, open.value.1)) &&
    (forall c :: 0 <= c < cid && c < 0xFFFF && m[c] != 0 ==>
       Covered(acc, c) || (open.Some? && open.value.0 <= c))
  }

  /** Appending a run that starts after every earlier one ends keeps the
      runs ordered and everything they covered covered. */
  lemma AppendRun(acc: seq<Run>, r: Run, c: int)
    requires Ordered(acc) && forall j :: 0 <= j < |acc| ==> End(acc[j]) <= r.cid
    ensures Ordered(acc + [r])
    ensures Covered(acc, c) || InRun(r, c) ==> Covered(acc + [r], c)
  {
    if Covered(acc, c) {
      var j :| 0 <= j < |acc| && InRun(acc[j], c);
      assert (acc + [r])[j] == acc[j];
    } else if InRun(r, c) {
      assert (acc + [r])[|acc|] == r;
    }
  }

  /** One step of the loop keeps the invariant. */
  lemma ScanStep(m: seq<int>, cid: nat, open: Option<(nat, int)>, acc: seq<Run>)
    requires IsCodeMap(m) && cid < CodeCount
    requires ScanInvariant(m, cid, open, acc)
    ensures var gid := m[cid];
      var closes := open.Some? && (gid == 0 || cid - open.value.0 + open.value.1 != gid);
      var acc' := if closes then acc + [Run(open.value.0, open.value.1, cid - open.value.0)] else acc;
      var pending := if closes then None else open;
      var open' := if pending.None? && gid != 0 then Some((cid, gid)) else pending;
      ScanInvariant(m, cid + 1, open', acc')
  {
    var gid := m[cid];
    var closes := open.Some? && (gid == 0 || cid - open.value.0 + open.value.1 != gid);
    if closes {
      var r := Run(open.value.0, open.value.1, cid - open.value.0);
      var acc' := acc + [r];
      assert RunOf(m, r);
      forall c | 0 <= c < cid + 1 && c < 0xFFFF && m[c] != 0
        ensures Covered(acc', c) || (gid != 0 && cid <= c)
      {
        AppendRun(acc, r, c);
      }
      AppendRun(acc, r, 0);
      assert forall j :: 0 <= j < |acc'| ==> acc'[j] == r || acc'[j] == acc[j];
    }
  }

  /** The scan ends in a segmentation of the map. */
  lemma {:induction false} ScanSegments(m: seq<int>, cid: nat, open: Option<(nat, int)>, acc: seq<Run>)
    requires IsCodeMap(m) && cid <= CodeCount
    requires ScanInvariant(m, cid, open, acc)
    ensures Segmentation(m, Scan(m, cid, open, acc))
    decreases CodeCount - cid
  {
    if cid == CodeCount {
      if open.Some? {
        var r := Run(open.value.0, open.value.1, 0xFFFF - open.value.0);
        assert RunOf(m, r);
        forall c | 0 <= c < 0xFFFF && m[c] != 0
          ensures Covered(acc + [r], c)
        {
          AppendRun(acc, r, c);
        }
        AppendRun(acc, r, 0);
        assert forall j :: 0 <= j < |acc + [r]| ==> (acc + [r])[j] == r || (acc + [r])[j] == acc[j];
      }
    } else {
      ScanStep(m, cid, open, acc);
      var gid := m[cid];
      var closes := open.Some? && (gid == 0 || cid - open.value.0 + open.value.1 != gid);
      var acc' := if closes then acc + [Run(open.value.0, open.value.1, cid - open.value.0)] else acc;
      var pending := if closes then None else open;
      var open' := if pending.None? && gid != 0 then Some((cid, gid)) else pending;
      ScanSegments(m, cid + 1, open', acc');
    }
  }

  /** The `(0xffff, 0, 1)` segment every format 4 subtable ends with. */
  const Sentinel: Run := Run(0xFFFF, 0, 1)

  /** `segments` in `pack`: the runs of the scan, then the sentinel. */
  function Runs(m: seq<int>): (runs: seq<Run>)
    requires IsCodeMap(m)
    ensures |runs| >= 1 && runs[|runs| - 1] == Sentinel
  {
    Scan(m, 0, None, []) + [Sentinel]
  }

  /** The segments written: every run before the sentinel lies below
      `0xFFFF`, follows the map, and they come in order; every code below
      `0xFFFF` lies in one of them exactly when its glyph is non-zero. */
  lemma RunsSegmentation(m: seq<int>)
    requires IsCodeMap(m)
    ensures var runs := Runs(m);
      Segmentation(m, runs[..|runs| - 1]) &&
      forall c :: 0 <= c < 0xFFFF ==> (Covered(runs[..|runs| - 1], c) <==> m[c] != 0)
  {
    ScanSegments(m, 0, None, []);
    var runs := Runs(m);
    assert runs[..|runs| - 1] == Scan(m, 0, None, []);
    forall c | 0 <= c < 0xFFFF && Covered(runs[..|runs| - 1], c)
      ensures m[c] != 0
    {
      var j :| 0 <= j < |runs| - 1 && InRun(runs[..|runs| - 1][j], c);
      assert RunOf(m, runs[..|runs| - 1][j]);
    }
  }

  // ---------------------------------------------------------------------------
  // Header arithmetic.

  /** `searchRange`: twice the largest power of two not above `n`. */
  function SearchRange(n: nat): (sr: nat)
    requires n >= 1
    ensures sr <= 2 * n < 2 * sr
  {
    2 * Pow2(FloorLog2(n))
  }

  // ---------------------------------------------------------------------------
  // The segment arrays.

  /** The last code of a run: `cid + length - 1`. */
  function EndCode(r: Run): int
  {
    r.cid + r.length - 1
  }

  /** `(gid - cid) & 0xffff`: the delta modulo 2^16 (Python's `&` on a
      negative integer works on its infinite two's complement). */
  function Delta(r: Run): (d: nat)
    ensures d < CodeCount && (d - (r.gid - r.cid)) % CodeCount == 0
  {
    (r.gid - r.cid) % CodeCount
  }

  /** A run whose start and end codes are 16-bit words. */
  predicate WordRun(r: Run)
  {
    0 <= r.cid < CodeCount && 0 <= EndCode(r) < CodeCount
  }

  /** `seg_words`: the end codes, the reserved zero, the start codes, the
      deltas and the (all zero) range offsets. */
  function SegWords(runs: seq<Run>): (ws: seq<int>)
    ensures |ws| == 4 * |runs| + 1
  {
    seq(|runs|, j requires 0 <= j < |runs| => EndCode(runs[j])) + [0] +
    seq(|runs|, j requires 0 <= j < |runs| => runs[j].cid) +
    seq(|runs|, j requires 0 <= j < |runs| => Delta(runs[j])) +
    seq(|runs|, _ => 0)
  }

  /** The segments a reader finds for the runs. */
  function SegmentsOf(runs: seq<Run>): (segs: seq<Segment>)
    ensures |segs| == |runs| && forall j :: 0 <= j < |runs| ==> segs[j] == SegmentOf(runs[j])
  {
    seq(|runs|, j requires 0 <= j < |runs| => SegmentOf(runs[j]))
  }

  /** The segment a reader finds for one run: for a run of 16-bit codes,
      its first and last code, its delta, and a zero range offset. */
  function SegmentOf(r: Run): (s: Segment)
    ensures s.rangeOffset == 0 && s.delta == Delta(r)
    ensures WordRun(r) ==> WordSegment(s) && s.start == r.cid && s.end == EndCode(r)
    ensures WordRun(r) ==> forall c :: Covers(s, c) <==> InRun(r, c)
  {
    Segment(Clamp(r.cid), Clamp(EndCode(r)), Delta(r), 0)
  }

  /** A code as the unsigned field holds it; only reached with codes that
      are already non-negative. */
  function Clamp(x: int): (n: nat)
    ensures x >= 0 ==> n == x
  {
    if x < 0 then 0 else x
  }

  /** Every segment written fits the 16-bit arrays. */
  lemma RunsAreWords(m: seq<int>)
    requires IsCodeMap(m)
    ensures forall j :: 0 <= j < |Runs(m)| ==> WordRun(Runs(m)[j])
  {
    RunsSegmentation(m);
    var runs := Runs(m);
    forall j | 0 <= j < |runs|
      ensures WordRun(runs[j])
    {
      if j < |runs| - 1 {
        assert runs[j] == runs[..|runs| - 1][j];
        assert RunOf(m, runs[j]);
      }
    }
  }

  // ---------------------------------------------------------------------------
  // Packing.

  /** The words of a record made of `n` unsigned 16-bit fields. */
  function PackWords(ws: seq<int>): (bs: seq<byte>)
    requires forall k :: 0 <= k < |ws| ==> 0 <= ws[k] < CodeCount
    ensures |bs| == 2 * |ws|
  {
    assert AllFit(Repeat(U16, |ws|), ws) by {
      assert Pow256(2) == CodeCount;
    }
    SizeOfRepeat(U16, |ws|);
    EncodeFields(Repeat(U16, |ws|), ws)
  }

  /** Segments with 16-bit codes give 16-bit words. */
  lemma SegWordsFit(runs: seq<Run>)
    requires forall j :: 0 <= j < |runs| ==> WordRun(runs[j])
    ensures forall k :: 0 <= k < |SegWords(runs)| ==> 0 <= SegWords(runs)[k] < CodeCount
  {
  }

  /** The table header and the one encoding record, which points just
      past itself. */
  function HeaderBytes(): Result<seq<byte>>
  {
    var hdr :- Pack(CmapHeader, Present([0, 1]));
    var record :- Pack(EncodingRecordSchema, Present([3, 1, Size(CmapHeader) + Size(EncodingRecordSchema)]));
    Ok(hdr + record)
  }

  /** The format 4 subtable for the segment list (sentinel included): the
      subheader, whose `length` counts the header and the arrays, then the
      arrays. */
  function SubtableBytes(runs: seq<Run>): Result<seq<byte>>
    requires |runs| >= 1 && forall j :: 0 <= j < |runs| ==> WordRun(runs[j])
  {
    SegWordsFit(runs);
    Subtable(|runs|, PackWords(SegWords(runs)))
  }

  /** The subheader for `n` segments in front of the packed arrays;
      `struct.pack` raises when a header word does not fit. */
  function Subtable(n: nat, segSpec: seq<byte>): Result<seq<byte>>
    requires n >= 1
  {
    var sub :- Pack(Format4Header, Present(SubheaderFields(n, |segSpec| + Size(Format4Header))));
    Ok(sub + segSpec)
  }

  /** The bytes `pack` writes for its segment list. */
  function EncodeRuns(runs: seq<Run>): Result<seq<byte>>
    requires |runs| >= 1 && forall j :: 0 <= j < |runs| ==> WordRun(runs[j])
  {
    var head :- HeaderBytes();
    var sub :- SubtableBytes(runs);
    Ok(head + sub)
  }

  /** `OtfCmapTable.pack`: a table without a map cannot be written (the
      loop over `None` raises). */
  function PackTable(t: CmapTable): (r: Result<seq<byte>>)
    requires ValidTable(t)
    ensures t.codeMap.None? ==> r == Fail(NoMapping)
  {
    if t.codeMap.None? then Fail(NoMapping)
    else
      RunsAreWords(t.codeMap.value);
      EncodeRuns(Runs(t.codeMap.value))
  }

  // ---------------------------------------------------------------------------
  // Reading the packed bytes back.

  /** Word `k` of packed words is the `k`-th value. */
  lemma PackedWord(ws: seq<int>, k: nat)
    requires forall i :: 0 <= i < |ws| ==> 0 <= ws[i] < CodeCount
    requires k < |ws|
    ensures 2 * k + 2 <= |PackWords(ws)| && U16At(PackWords(ws), 2 * k) == ws[k]
  {
    var bs := PackWords(ws);
    assert Pow256(2) == CodeCount;
    DecodeOfEncode(Repeat(U16, |ws|), ws);
    RepeatElement(U16, |ws|, bs, k);
  }

  /** `pack` of a record whose fields are all `H` writes its words in order. */
  lemma PackAllWords(schema: Schema, vs: seq<int>)
    requires Formats(schema) == Repeat(U16, |vs|)
    requires forall i :: 0 <= i < |vs| ==> 0 <= vs[i] < CodeCount
    ensures Pack(schema, Present(vs)) == Ok(PackWords(vs))
  {
    assert Pow256(2) == CodeCount;
    var r := Values(Formats(schema), Present(vs));
    assert r.Ok?;
    assert r.value == vs by {
      forall i | 0 <= i < |vs|
        ensures r.value[i] == vs[i]
      {
        assert Present(vs)[i] == Some(r.value[i]);
      }
    }
  }

  /** The eight bytes of the encoding record. */
  lemma RecordBytes(platform: nat, encoding: nat, offset: nat)
    requires platform < CodeCount && encoding < CodeCount && offset < 0x1_0000_0000
    ensures Pack(EncodingRecordSchema, Present([platform, encoding, offset])).Ok?
    ensures var bs := Pack(EncodingRecordSchema, Present([platform, encoding, offset])).value;
      |bs| == 8 && U16At(bs, 0) == platform && U16At(bs, 2) == encoding && U32At(bs, 4) == offset
  {
    var fs := Formats(EncodingRecordSchema);
    var vs := [platform, encoding, offset];
    RecordLayout();
    assert AllFit(fs, vs) by {
      assert Pow256(2) == CodeCount && Pow256(4) == 0x1_0000_0000;
    }
    PackPresent(EncodingRecordSchema, vs);
    var bs := EncodeFields(fs, vs);
    DecodeOfEncode(fs, vs);
    FieldLayout(fs, bs, 0);
    FieldLayout(fs, bs, 1);
    FieldLayout(fs, bs, 2);
  }

  /** The encoding record is two words and a long, at offsets 0, 2 and 4. */
  lemma RecordLayout()
    ensures var fs := Formats(EncodingRecordSchema);
      fs == [U16, U16, U32] && OffsetOf(fs, 0) == 0 && OffsetOf(fs, 1) == 2 && OffsetOf(fs, 2) == 4
  {
    var fs := Formats(EncodingRecordSchema);
    assert fs == [U16, U16, U32];
    assert fs[..0] == [];
    assert fs[..1] == [U16];
    assert fs[..2] == [U16, U16] && fs[..2][1..] == [U16];
  }

  lemma U16AtLeft(a: seq<byte>, b: seq<byte>, off: nat)
    requires off + 2 <= |a|
    ensures U16At(a + b, off) == U16At(a, off)
  {
    assert (a + b)[off..off + 2] == a[off..off + 2];
  }

  lemma U16AtRight(a: seq<byte>, b: seq<byte>, off: nat)
    requires off + 2 <= |b|
    ensures U16At(a + b, |a| + off) == U16At(b, off)
  {
    assert (a + b)[|a| + off..|a| + off + 2] == b[off..off + 2];
  }

  lemma U32AtLeft(a: seq<byte>, b: seq<byte>, off: nat)
    requires off + 4 <= |a|
    ensures U32At(a + b, off) == U32At(a, off)
  {
    assert (a + b)[off..off + 4] == a[off..off + 4];
  }

  lemma U32AtRight(a: seq<byte>, b: seq<byte>, off: nat)
    requires off + 4 <= |b|
    ensures U32At(a + b, |a| + off) == U32At(b, off)
  {
    assert (a + b)[|a| + off..|a| + off + 4] == b[off..off + 4];
  }

  /** The format-4 subheader of `n` segments: format 4, the length,
      language 0, `segCountX2`, then the binary-search fields, where
      `searchRange` is twice the largest power of two not above `n`,
      `entrySelector` its exponent, and `rangeShift` the rest of
      `segCountX2`. */
  function SubheaderFields(n: nat, length: int): (ws: seq<int>)
    requires n >= 1
    ensures |ws| == 7 && ws[0] == 4 && ws[1] == length && ws[2] == 0 && ws[3] == 2 * n
    ensures ws[5] >= 0 && ws[4] == 2 * Pow2(ws[5])
    ensures ws[4] <= 2 * n < 2 * ws[4]
    ensures ws[6] == 2 * n - ws[4] >= 0
  {
    var es := FloorLog2(n);
    var sr := SearchRange(n);
    [4, length, 0, n * 2, sr, es, n * 2 - sr]
  }

  /** The subheader words `pack` writes for `n` segments: `length` counts
      the fourteen header bytes and the four arrays of `n` words plus the pad. */
  function SubheaderWords(n: nat): (ws: seq<int>)
    requires n >= 1
    ensures |ws| == 7
  {
    SubheaderFields(n, 2 * (4 * n + 1) + 14)
  }

  /** The subheader fits its 16-bit fields exactly when `length` does. */
  lemma SubheaderFits(n: nat)
    requires n >= 1
    ensures (forall i :: 0 <= i < 7 ==> 0 <= SubheaderWords(n)[i] < CodeCount) <==> 8 * n + 16 < CodeCount
  {
    var ws := SubheaderWords(n);
    var es := FloorLog2(n);
    assert es < n by {
      PowAbove(es);
    }
    if 8 * n + 16 < CodeCount {
      forall i | 0 <= i < 7
        ensures 0 <= ws[i] < CodeCount
      {
        assert i == 0 || i == 1 || i == 2 || i == 3 || i == 4 || i == 5 || i == 6;
      }
    } else {
      assert !(0 <= ws[1] < CodeCount);
    }
  }

  /** The header words of the packed subtable as a reader sees them. */
  lemma ReadPackedHeader(runs: seq<Run>)
    requires |runs| >= 1 && forall j :: 0 <= j < |runs| ==> WordRun(runs[j])
    requires forall i :: 0 <= i < 7 ==> 0 <= SubheaderWords(|runs|)[i] < CodeCount
    ensures forall k :: 0 <= k < |SegWords(runs)| ==> 0 <= SegWords(runs)[k] < CodeCount
    ensures var s := PackWords(SubheaderWords(|runs|)) + PackWords(SegWords(runs));
      |s| == 8 * |runs| + 16 && U16At(s, 0) == 4 && U16At(s, 2) == |s| && U16At(s, 6) == 2 * |runs|
  {
    var n := |runs|;
    SegWordsFit(runs);
    var h := PackWords(SubheaderWords(n));
    var spec := PackWords(SegWords(runs));
    SubheaderRead(n);
    U16AtLeft(h, spec, 0);
    U16AtLeft(h, spec, 2);
    U16AtLeft(h, spec, 6);
  }

  /** The packed subheader reads back as format 4, its `length` and
      `segCountX2`. */
  lemma SubheaderRead(n: nat)
    requires n >= 1 && forall i :: 0 <= i < 7 ==> 0 <= SubheaderWords(n)[i] < CodeCount
    ensures var h := PackWords(SubheaderWords(n));
      |h| == 14 && U16At(h, 0) == 4 && U16At(h, 2) == 8 * n + 16 && U16At(h, 6) == 2 * n
  {
    var ws := SubheaderWords(n);
    assert ws[0] == 4 && ws[1] == 8 * n + 16 && ws[3] == 2 * n;
    PackedWord(ws, 0);
    PackedWord(ws, 1);
    PackedWord(ws, 3);
  }

  /** Segment `i` read back from the packed arrays. */
  lemma ReadPackedSegment(runs: seq<Run>, h: seq<byte>, i: nat)
    requires |h| == 14 && i < |runs| && forall j :: 0 <= j < |runs| ==> WordRun(runs[j])
    requires forall k :: 0 <= k < |SegWords(runs)| ==> 0 <= SegWords(runs)[k] < CodeCount
    ensures var s := h + PackWords(SegWords(runs));
      var n := |runs|;
      16 + 8 * n <= |s| &&
      Segment(U16At(s, 16 + 2 * n + 2 * i), U16At(s, 14 + 2 * i),
              U16At(s, 16 + 4 * n + 2 * i), U16At(s, 16 + 6 * n + 2 * i)) == SegmentsOf(runs)[i]
  {
    var n := |runs|;
    var ws := SegWords(runs);
    var spec := PackWords(ws);
    PackedWord(ws, i);
    PackedWord(ws, n + 1 + i);
    PackedWord(ws, 2 * n + 1 + i);
    PackedWord(ws, 3 * n + 1 + i);
    U16AtRight(h, spec, 2 * i);
    U16AtRight(h, spec, 2 * (n + 1 + i));
    U16AtRight(h, spec, 2 * (2 * n + 1 + i));
    U16AtRight(h, spec, 2 * (3 * n + 1 + i));
  }

  /** The arrays of the packed subtable are the segments of the runs, with
      no glyph-id array. */
  lemma ReadPackedArrays(runs: seq<Run>, h: seq<byte>)
    requires |h| == 14 && |runs| >= 1 && forall j :: 0 <= j < |runs| ==> WordRun(runs[j])
    requires forall k :: 0 <= k < |SegWords(runs)| ==> 0 <= SegWords(runs)[k] < CodeCount
    ensures ReadArrays(h + PackWords(SegWords(runs)), |runs|, 0) == Ok((SegmentsOf(runs), []))
  {
    var n := |runs|;
    var s := h + PackWords(SegWords(runs));
    assert ReadArrays(s, n, 0).Ok?;
    ReadArraysAt(s, n, 0);
    var segs := ReadArrays(s, n, 0).value.0;
    forall i | 0 <= i < n
      ensures segs[i] == SegmentsOf(runs)[i]
    {
      ReadPackedSegment(runs, h, i);
    }
    assert segs == SegmentsOf(runs);
    assert ReadArrays(s, n, 0).value.1 == [];
  }

  // ---------------------------------------------------------------------------
  // The round trip.

  /** What decoding a packed map gives: every glyph below `0xFFFF` reduced
      to 16 bits, and glyph 0 for `0xFFFF`, which only the sentinel covers. */
  function Normalize(m: seq<int>): (r: seq<int>)
    requires IsCodeMap(m)
    ensures IsCodeMap(r)
  {
    seq(CodeCount, c requires 0 <= c < CodeCount => if c < 0xFFFF then m[c] % CodeCount else 0)
  }

  /** Segments that all use the delta alone always paint. */
  lemma {:induction false} PaintDirectOk(segs: seq<Segment>, glyphIds: seq<nat>, k: nat)
    requires k <= |segs| && forall j :: 0 <= j < |segs| ==> segs[j].rangeOffset == 0
    ensures Paint(segs, glyphIds, k).Ok?
  {
    if k > 0 {
      PaintDirectOk(segs, glyphIds, k - 1);
    }
  }

  /** Adding the delta modulo 2^16 gives the glyph modulo 2^16. */
  lemma DeltaGlyph(c: int, r: Run)
    ensures (c + Delta(r)) % CodeCount == (r.gid + (c - r.cid)) % CodeCount
  {
  }

  /** Segments that stand for runs: each covers exactly its run's codes and
      adds its run's delta. */
  ghost predicate SegmentsFor(segs: seq<Segment>, runs: seq<Run>)
  {
    |segs| == |runs| &&
    forall j :: 0 <= j < |runs| ==>
      segs[j].rangeOffset == 0 && segs[j].delta == Delta(runs[j]) &&
      forall c :: Covers(segs[j], c) <==> InRun(runs[j], c)
  }

  /** The segments of word runs stand for them. */
  lemma SegmentsOfFor(runs: seq<Run>)
    requires forall j :: 0 <= j < |runs| ==> WordRun(runs[j])
    ensures SegmentsFor(SegmentsOf(runs), runs)
  {
  }

  /** The run that last covers a code gives it its normalized glyph: the
      sentinel gives `0xFFFF` glyph 0, any other run the code's glyph modulo
      2^16. */
  lemma {:induction false} LastRunGlyph(m: seq<int>, runs: seq<Run>, c: nat, j: nat)
    requires IsCodeMap(m) && c < CodeCount
    requires |runs| >= 1 && runs[|runs| - 1] == Sentinel
    requires Segmentation(m, runs[..|runs| - 1])
    requires j < |runs| && InRun(runs[j], c)
    requires forall k :: j < k < |runs| ==> !InRun(runs[k], c)
    ensures (c + Delta(runs[j])) % CodeCount == Normalize(m)[c]
  {
    var n := |runs|;
    if c == 0xFFFF {
      assert InRun(runs[n - 1], c);
      assert j == n - 1;
    } else {
      assert !InRun(runs[n - 1], c);
      assert runs[..n - 1][j] == runs[j];
      assert RunOf(m, runs[..n - 1][j]);
      DeltaGlyph(c, runs[j]);
    }
  }

  /** A code no run covers is zero in the normalized map. */
  lemma {:induction false} UncoveredZero(m: seq<int>, runs: seq<Run>, c: nat)
    requires IsCodeMap(m) && c < CodeCount
    requires |runs| >= 1 && runs[|runs| - 1] == Sentinel
    requires forall d :: 0 <= d < 0xFFFF ==> (Covered(runs[..|runs| - 1], d) <==> m[d] != 0)
    requires forall k :: 0 <= k < |runs| ==> !InRun(runs[k], c)
    ensures Normalize(m)[c] == 0
  {
    var n := |runs|;
    var pre := runs[..n - 1];
    assert !InRun(runs[n - 1], c);
    forall k | 0 <= k < |pre|
      ensures !InRun(pre[k], c)
    {
      assert pre[k] == runs[k];
    }
    assert !Covered(pre, c);
  }

  /** One code of painted runs ending in the sentinel: each code gets what
      the last run covering it gives, and a code outside every run keeps the
      zero it started with. */
  lemma {:induction false} PaintRunsAt(m: seq<int>, runs: seq<Run>, segs: seq<Segment>, c: nat)
    requires IsCodeMap(m) && c < CodeCount
    requires |runs| >= 1 && runs[|runs| - 1] == Sentinel
    requires Segmentation(m, runs[..|runs| - 1])
    requires forall d :: 0 <= d < 0xFFFF ==> (Covered(runs[..|runs| - 1], d) <==> m[d] != 0)
    requires SegmentsFor(segs, runs)
    requires Paint(segs, [], |segs|).Ok?
    ensures Paint(segs, [], |segs|).value[c] == Normalize(m)[c]
  {
    var n := |runs|;
    PaintIsLastCovering(segs, [], n, c);
    assert segs[..n] == segs;
    var i := LastCovering(segs, c);
    if i.Some? {
      var j := i.value;
      assert Covers(segs[j], c) <==> InRun(runs[j], c);
      forall k | j < k < n
        ensures !InRun(runs[k], c)
      {
        assert Covers(segs[k], c) <==> InRun(runs[k], c);
      }
      LastRunGlyph(m, runs, c, j);
    } else {
      forall k | 0 <= k < n
        ensures !InRun(runs[k], c)
      {
        assert Covers(segs[k], c) <==> InRun(runs[k], c);
      }
      UncoveredZero(m, runs, c);
    }
  }

  /** Painting the segments of the runs gives back the normalized map. */
  lemma {:induction false} PaintRuns(m: seq<int>)
    requires IsCodeMap(m)
    ensures Paint(SegmentsOf(Runs(m)), [], |Runs(m)|) == Ok(Normalize(m))
  {
    RunsAreWords(m);
    RunsSegmentation(m);
    var runs := Runs(m);
    var segs := SegmentsOf(runs);
    SegmentsOfFor(runs);
    PaintDirectOk(segs, [], |segs|);
    var painted := Paint(segs, [], |segs|).value;
    forall c | 0 <= c < CodeCount
      ensures painted[c] == Normalize(m)[c]
    {
      PaintRunsAt(m, runs, segs, c);
    }
    assert |painted| == CodeCount;
    assert painted == Normalize(m);
  }

  lemma HeaderSizes()
    ensures Size(CmapHeader) + Size(EncodingRecordSchema) == 12
  {
    assert Formats(CmapHeader) == [U16, U16];
    assert Formats(EncodingRecordSchema) == [U16, U16, U32];
    assert SizeOf([U16, U16]) == 4 by {
      assert [U16, U16][1..] == [U16];
    }
    assert SizeOf([U16, U16, U32]) == 8 by {
      assert [U16, U16, U32][1..] == [U16, U32] && [U16, U32][1..] == [U32];
    }
  }

  /** The header is the packed words `[0, 1]` followed by the record for the
      Windows BMP subtable at offset 12. */
  lemma HeaderBytesParts()
    ensures Pack(EncodingRecordSchema, Present([3, 1, 12])).Ok?
    ensures HeaderBytes() == Ok(PackWords([0, 1]) + Pack(EncodingRecordSchema, Present([3, 1, 12])).value)
  {
    HeaderSizes();
    assert Formats(CmapHeader) == Repeat(U16, 2);
    PackAllWords(CmapHeader, [0, 1]);
    RecordBytes(3, 1, 12);
  }

  /** Reading the fields of a header made of its two parts. */
  lemma HeaderFields(hdr: seq<byte>, record: seq<byte>)
    requires |hdr| == 4 && |record| == 8
    ensures var h := hdr + record;
      |h| == 12 && U16At(h, 0) == U16At(hdr, 0) && U16At(h, 2) == U16At(hdr, 2) &&
      U16At(h, 4) == U16At(record, 0) && U16At(h, 6) == U16At(record, 2) && U32At(h, 8) == U32At(record, 4)
  {
    U16AtLeft(hdr, record, 0);
    U16AtLeft(hdr, record, 2);
    U16AtRight(hdr, record, 0);
    U16AtRight(hdr, record, 2);
    U32AtRight(hdr, record, 4);
  }

  /** The two parts of a header read back as its fields. */
  lemma HeaderPartsRead(version: nat, count: nat, platform: nat, encoding: nat, offset: nat)
    requires version < CodeCount && count < CodeCount
    requires platform < CodeCount && encoding < CodeCount && offset < 0x1_0000_0000
    ensures Pack(EncodingRecordSchema, Present([platform, encoding, offset])).Ok?
    ensures var h := PackWords([version, count]) + Pack(EncodingRecordSchema, Present([platform, encoding, offset])).value;
      |h| == 12 && U16At(h, 0) == version && U16At(h, 2) == count &&
      U16At(h, 4) == platform && U16At(h, 6) == encoding && U32At(h, 8) == offset
  {
    RecordBytes(platform, encoding, offset);
    PackedWord([version, count], 0);
    PackedWord([version, count], 1);
    HeaderFields(PackWords([version, count]), Pack(EncodingRecordSchema, Present([platform, encoding, offset])).value);
  }

  /** The twelve header bytes read back as version 0, one table, and the
      record (3, 1, 12). */
  lemma HeaderBytesRead()
    ensures HeaderBytes().Ok?
    ensures var h := HeaderBytes().value;
      |h| == 12 && U16At(h, 0) == 0 && U16At(h, 2) == 1 &&
      U16At(h, 4) == 3 && U16At(h, 6) == 1 && U32At(h, 8) == 12
  {
    HeaderBytesParts();
    HeaderPartsRead(0, 1, 3, 1, 12);
  }

  /** The subheader is seven `H` fields, fourteen bytes. */
  lemma SubheaderSize()
    ensures Formats(Format4Header) == Repeat(U16, 7)
    ensures Size(Format4Header) == 14
  {
    assert Formats(Format4Header) == Repeat(U16, 7);
    SizeOfRepeat(U16, 7);
  }

  /** The subheader packs exactly when its words fit, and fails on a value
      out of range otherwise. */
  lemma SubheaderPack(ws: seq<int>)
    requires |ws| == 7
    ensures (forall i :: 0 <= i < 7 ==> 0 <= ws[i] < CodeCount) ==>
      Pack(Format4Header, Present(ws)) == Ok(PackWords(ws))
    ensures !(forall i :: 0 <= i < 7 ==> 0 <= ws[i] < CodeCount) ==>
      Pack(Format4Header, Present(ws)) == Fail(ValueOutOfRange)
  {
    assert Pow256(2) == CodeCount;
    SubheaderSize();
    if forall i :: 0 <= i < 7 ==> 0 <= ws[i] < CodeCount {
      PackAllWords(Format4Header, ws);
    }
  }

  /** The subtable is the packed subheader words followed by the arrays,
      when the subheader packs. */
  lemma SubtableParts(n: nat, segSpec: seq<byte>)
    requires n >= 1 && |segSpec| == 2 * (4 * n + 1)
    ensures var sub := Pack(Format4Header, Present(SubheaderWords(n)));
      Subtable(n, segSpec) == if sub.Ok? then Ok(sub.value + segSpec) else Fail(sub.error)
  {
    SubheaderSize();
    assert SubheaderFields(n, |segSpec| + Size(Format4Header)) == SubheaderWords(n);
  }

  /** The subtable is written exactly when its `length` fits 16 bits, and is
      then the subheader's words followed by the arrays. */
  lemma {:induction false} SubtableLayout(runs: seq<Run>)
    requires |runs| >= 1 && forall j :: 0 <= j < |runs| ==> WordRun(runs[j])
    ensures SubtableBytes(runs).Ok? <==> 8 * |runs| + 16 < CodeCount
    ensures SubtableBytes(runs).Fail? ==> SubtableBytes(runs).error == ValueOutOfRange
    ensures forall k :: 0 <= k < |SegWords(runs)| ==> 0 <= SegWords(runs)[k] < CodeCount
    ensures SubtableBytes(runs).Ok? ==>
      (forall i :: 0 <= i < 7 ==> 0 <= SubheaderWords(|runs|)[i] < CodeCount) &&
      SubtableBytes(runs).value == PackWords(SubheaderWords(|runs|)) + PackWords(SegWords(runs))
  {
    SegWordsFit(runs);
    SubtableParts(|runs|, PackWords(SegWords(runs)));
    SubheaderPack(SubheaderWords(|runs|));
    SubheaderFits(|runs|);
  }

  /** `pack` succeeds exactly when there is a map and the subtable's
      `length` fits 16 bits; otherwise the error says which. */
  lemma PackOutcome(t: CmapTable)
    requires ValidTable(t)
    ensures t.codeMap.Some? ==> (PackTable(t).Ok? <==> 8 * |Runs(t.codeMap.value)| + 16 < CodeCount)
    ensures t.codeMap.Some? && PackTable(t).Fail? ==> PackTable(t).error == ValueOutOfRange
  {
    if t.codeMap.Some? {
      RunsAreWords(t.codeMap.value);
      HeaderBytesRead();
      SubtableLayout(Runs(t.codeMap.value));
    }
  }

  /** A blob made of the packed header and a format 4 subtable parses as
      that subtable: the one record names the Windows BMP subtable at
      offset 12. */
  lemma {:induction false} ParsePackedHeader(head: seq<byte>, sub: seq<byte>)
    requires |head| == 12 && U16At(head, 0) == 0 && U16At(head, 2) == 1
    requires U16At(head, 4) == 3 && U16At(head, 6) == 1 && U32At(head, 8) == 12
    requires |sub| >= 2 && U16At(sub, 0) == 4
    ensures ParseCmap(head + sub) == match ParseFormat4(head + sub, 12)
                                     case Ok(m) => Ok(CmapTable(Some(m)))
                                     case Fail(e) => Fail(e)
  {
    var blob := head + sub;
    U16AtLeft(head, sub, 0);
    U16AtLeft(head, sub, 2);
    U16AtLeft(head, sub, 4);
    U16AtLeft(head, sub, 6);
    U32AtLeft(head, sub, 8);
    U16AtRight(head, sub, 0);
    var recs := EncodingRecords(Cursor(blob, 4), 1);
    assert recs.Ok? && recs.value == [EncodingRecord(3, 1, 12)];
    assert FirstWhere(recs.value, IsWindowsBmp) == Some(0);
    ParseCmapSpec(blob);
  }

  /** The packed subtable behind a twelve-byte header reads back as its
      `length`, the segments of the runs, and no glyph ids. */
  lemma {:induction false} ReadPackedFormat4(head: seq<byte>, runs: seq<Run>)
    requires |head| == 12 && |runs| >= 1 && forall j :: 0 <= j < |runs| ==> WordRun(runs[j])
    requires forall i :: 0 <= i < 7 ==> 0 <= SubheaderWords(|runs|)[i] < CodeCount
    requires forall k :: 0 <= k < |SegWords(runs)| ==> 0 <= SegWords(runs)[k] < CodeCount
    ensures var sub := PackWords(SubheaderWords(|runs|)) + PackWords(SegWords(runs));
      ReadFormat4(head + sub, 12) == Ok(Format4(|sub|, SegmentsOf(runs), []))
  {
    var n := |runs|;
    var h := PackWords(SubheaderWords(n));
    ReadPackedHeader(runs);
    ReadPackedArrays(runs, h);
    ReadFormat4Behind(head, h + PackWords(SegWords(runs)), n, SegmentsOf(runs));
  }

  /** A subtable whose `length` is its size and whose arrays hold `n`
      segments and no glyph ids reads back behind a twelve-byte header. */
  lemma {:induction false} ReadFormat4Behind(head: seq<byte>, sub: seq<byte>, n: nat, segs: seq<Segment>)
    requires |head| == 12 && |sub| == 8 * n + 16
    requires U16At(sub, 2) == |sub| && U16At(sub, 6) == 2 * n
    requires ReadArrays(sub, n, 0) == Ok((segs, []))
    ensures ReadFormat4(head + sub, 12) == Ok(Format4(|sub|, segs, []))
  {
    var blob := head + sub;
    U16AtRight(head, sub, 2);
    assert Slice(blob, 12, 12 + |sub|) == sub;
  }

  /** Packing a map and parsing the bytes gives back the map with every
      glyph reduced to 16 bits and `0xFFFF` unmapped. */
  lemma {:induction false} PackRoundTrip(t: CmapTable)
    requires ValidTable(t) && PackTable(t).Ok?
    ensures t.codeMap.Some?
    ensures ParseCmap(PackTable(t).value) == Ok(CmapTable(Some(Normalize(t.codeMap.value))))
  {
    var m := t.codeMap.value;
    RunsAreWords(m);
    var runs := Runs(m);
    HeaderBytesRead();
    SubtableLayout(runs);
    var head := HeaderBytes().value;
    var sub := SubtableBytes(runs).value;
    assert PackTable(t).value == head + sub;
    ReadPackedHeader(runs);
    ParsePackedHeader(head, sub);
    ReadPackedFormat4(head, runs);
    PaintRuns(m);
  }
}

=== FILE: coverage.dfy ===
/** OpenType Coverage tables ("Coverage Table" in the OpenType Layout Common
    Table Formats chapter): a map from glyph ids to dense coverage indices,
    stored either as an explicit glyph list (format 1) or as glyph-id ranges
    (format 2). */
module Coverage {
  import opened Wrappers
  import opened Bytes
  import opened Seqs
  import opened Struct2

  /** `_cov_range_rec`: glyphs `startGid..endGid` map to indices from `startCovIdx`. */
  datatype RangeRecord = RangeRecord(startGid: int, endGid: int, startCovIdx: int)

  datatype Coverage =
    | GlyphList(glyphs: seq<int>)         // format 1
    | GlyphRanges(ranges: seq<RangeRecord>) // format 2

  /** Format 2 search: the first range holding `gid` decides. */
  function RangeIndex(ranges: seq<RangeRecord>, gid: int): Option<int>
  {
    if |ranges| == 0 then None
    else if ranges[0].startGid <= gid <= ranges[0].endGid then
      Some(ranges[0].startCovIdx + gid - ranges[0].startGid)
    else RangeIndex(ranges[1..], gid)
  }

  /** The coverage index of one glyph. */
  function CoverageIndex(cov: Coverage, gid: int): Option<int>
  {
    match cov
    case GlyphList(glyphs) =>
      Shift(IndexOf(glyphs, gid), 0)
    case GlyphRanges(ranges) => RangeIndex(ranges, gid)
  }

  /** The `cov1`/`cov2` closures: only `gids[idx]` is consulted. */
  function Lookup(cov: Coverage, gids: seq<int>, idx: nat): Option<int>
    requires idx < |gids|
  {
    CoverageIndex(cov, gids[idx])
  }

  /** Format 1 answers with the position of the glyph in the list, the first
      one when it is listed twice, and with nothing when it is absent. */
  lemma GlyphListLookup(glyphs: seq<int>, gids: seq<int>, idx: nat)
    requires idx < |gids|
    ensures Lookup(GlyphList(glyphs), gids, idx).None? <==> gids[idx] !in glyphs
    ensures Lookup(GlyphList(glyphs), gids, idx).Some? ==>
      var k := Lookup(GlyphList(glyphs), gids, idx).value;
      0 <= k < |glyphs| && glyphs[k] == gids[idx] &&
      forall j :: 0 <= j < k ==> glyphs[j] != gids[idx]
  {
  }

  /** Format 2 answers from the first range that holds the glyph, and with
      nothing when no range does. */
  lemma {:induction false} GlyphRangesLookup(ranges: seq<RangeRecord>, gid: int)
    ensures RangeIndex(ranges, gid).None? <==>
      forall j :: 0 <= j < |ranges| ==> !(ranges[j].startGid <= gid <= ranges[j].endGid)
    ensures RangeIndex(ranges, gid).Some? ==>
      exists j :: 0 <= j < |ranges| && ranges[j].startGid <= gid <= ranges[j].endGid &&
        (forall i :: 0 <= i < j ==> !(ranges[i].startGid <= gid <= ranges[i].endGid)) &&
        RangeIndex(ranges, gid).value == ranges[j].startCovIdx + gid - ranges[j].startGid
  {
    if |ranges| > 0 && !(ranges[0].startGid <= gid <= ranges[0].endGid) {
      GlyphRangesLookup(ranges[1..], gid);
      if RangeIndex(ranges, gid).Some? {
        var j :| 0 <= j < |ranges[1..]| && ranges[1..][j].startGid <= gid <= ranges[1..][j].endGid &&
          (forall i :: 0 <= i < j ==> !(ranges[1..][i].startGid <= gid <= ranges[1..][i].endGid)) &&
          RangeIndex(ranges[1..], gid).value == ranges[1..][j].startCovIdx + gid - ranges[1..][j].startGid;
        assert forall i :: 0 <= i < j + 1 ==> !(ranges[i].startGid <= gid <= ranges[i].endGid) by {
          forall i | 0 <= i < j + 1
            ensures !(ranges[i].startGid <= gid <= ranges[i].endGid)
          {
            if i > 0 {
              assert ranges[i] == ranges[1..][i - 1];
            }
          }
        }
        assert ranges[j + 1] == ranges[1..][j];
      } else {
        forall j | 0 <= j < |ranges|
          ensures !(ranges[j].startGid <= gid <= ranges[j].endGid)
        {
          if j > 0 {
            assert ranges[j] == ranges[1..][j - 1];
          }
        }
      }
    }
  }

  // ---------------------------------------------------------------------------
  // The two formats agree on equivalent data.

  /** The glyphs `s..e` in order (empty when `e < s`). */
  function Span(s: int, e: int): (r: seq<int>)
    ensures |r| == if e < s then 0 else e - s + 1
    ensures forall k :: 0 <= k < |r| ==> r[k] == s + k
  {
    if e < s then [] else seq(e - s + 1, k requires 0 <= k <= e - s => s + k)
  }

  /** The explicit glyph list a range table stands for. */
  function Expand(ranges: seq<RangeRecord>): seq<int>
  {
    if |ranges| == 0 then [] else Span(ranges[0].startGid, ranges[0].endGid) + Expand(ranges[1..])
  }

  /** Every range starts its indices where the glyphs of the earlier ranges
      end, counting from `base`. */
  ghost predicate Consecutive(ranges: seq<RangeRecord>, base: int)
  {
    |ranges| == 0 ||
    (ranges[0].startCovIdx == base &&
     Consecutive(ranges[1..], base + |Span(ranges[0].startGid, ranges[0].endGid)|))
  }

  /** A found position moved by `base`. */
  function Shift(o: Option<nat>, base: int): Option<int>
  {
    match o
    case None => None
    case Some(k) => Some(base + k)
  }

  lemma {:induction false} IndexOfAppend(a: seq<int>, b: seq<int>, x: int)
    ensures x in a ==> IndexOf(a + b, x) == IndexOf(a, x)
    ensures x !in a ==> IndexOf(a + b, x) == Shift(IndexOf(b, x), |a|)
  {
    if |a| > 0 {
      assert (a + b)[1..] == a[1..] + b;
      IndexOfAppend(a[1..], b, x);
    } else {
      assert a + b == b;
    }
  }

  /** A format 2 table whose ranges number their glyphs consecutively from
      0 answers every glyph exactly like the format 1 list of the same
      glyphs. */
  lemma RangesAgreeWithList(ranges: seq<RangeRecord>, gid: int)
    requires Consecutive(ranges, 0)
    ensures CoverageIndex(GlyphRanges(ranges), gid) == CoverageIndex(GlyphList(Expand(ranges)), gid)
  {
    RangesAgreeFrom(ranges, 0, gid);
  }

  lemma {:induction false} RangesAgreeFrom(ranges: seq<RangeRecord>, base: int, gid: int)
    requires Consecutive(ranges, base)
    ensures RangeIndex(ranges, gid) == Shift(IndexOf(Expand(ranges), gid), base)
  {
    if |ranges| > 0 {
      var r0 := ranges[0];
      if r0.startGid <= gid <= r0.endGid {
        InFirstRange(ranges, base, gid);
      } else {
        var n := |Span(r0.startGid, r0.endGid)|;
        RangesAgreeFrom(ranges[1..], base + n, gid);
        SkipSpan(ranges, gid);
        PastFirstRange(ranges, base, gid, IndexOf(Expand(ranges), gid), IndexOf(Expand(ranges[1..]), gid), n);
      }
    }
  }

  /** A glyph of the first range is found there, at its place in the
      range's span. */
  lemma InFirstRange(ranges: seq<RangeRecord>, base: int, gid: int)
    requires |ranges| > 0 && ranges[0].startCovIdx == base
    requires ranges[0].startGid <= gid <= ranges[0].endGid
    ensures RangeIndex(ranges, gid) == Shift(IndexOf(Expand(ranges), gid), base)
  {
    var r0 := ranges[0];
    var sp := Span(r0.startGid, r0.endGid);
    ExpandFirst(ranges);
    SpanIndex(r0.startGid, r0.endGid, gid);
    IndexOfAppend(sp, Expand(ranges[1..]), gid);
  }

  /** A glyph outside the first range is searched for past its span. */
  lemma SkipSpan(ranges: seq<RangeRecord>, gid: int)
    requires |ranges| > 0 && !(ranges[0].startGid <= gid <= ranges[0].endGid)
    ensures IndexOf(Expand(ranges), gid) ==
      Shift(IndexOf(Expand(ranges[1..]), gid), |Span(ranges[0].startGid, ranges[0].endGid)|)
  {
    var sp := Span(ranges[0].startGid, ranges[0].endGid);
    ExpandFirst(ranges);
    SpanOutside(ranges[0].startGid, ranges[0].endGid, gid);
    IndexOfAppend(sp, Expand(ranges[1..]), gid);
  }

  /** A glyph outside the first range is looked up in the others: its
      position in the glyph list moves by the first span's length. */
  lemma PastFirstRange(ranges: seq<RangeRecord>, base: int, gid: int, all: Option<nat>, tail: Option<nat>, n: nat)
    requires |ranges| > 0 && !(ranges[0].startGid <= gid <= ranges[0].endGid)
    requires all == Shift(tail, n)
    requires RangeIndex(ranges[1..], gid) == Shift(tail, base + n)
    ensures RangeIndex(ranges, gid) == Shift(all, base)
  {
    ShiftTwice(all, tail, n, base);
  }

  lemma ShiftTwice(all: Option<nat>, tail: Option<nat>, n: nat, base: int)
    requires all == Shift(tail, n)
    ensures Shift(all, base) == Shift(tail, base + n)
  {
  }

  lemma SpanOutside(s: int, e: int, gid: int)
    requires !(s <= gid <= e)
    ensures gid !in Span(s, e)
  {
  }

  lemma ExpandFirst(ranges: seq<RangeRecord>)
    requires |ranges| > 0
    ensures Expand(ranges) == Span(ranges[0].startGid, ranges[0].endGid) + Expand(ranges[1..])
  {
  }

  lemma SpanIndex(s: int, e: int, gid: int)
    requires s <= gid <= e
    ensures IndexOf(Span(s, e), gid) == Some(gid - s)
  {
    var sp := Span(s, e);
    assert sp[gid - s] == gid;
    var k := IndexOf(sp, gid).value;
    assert sp[k] == s + k;
  }

  // ---------------------------------------------------------------------------
  // Decoding (`parse_coverage`).

  /** `[_cov_range_rec.parse(fin) for i in range(count)]`: `count` range
      records of three words each, read one after another; reading stops
      with an error when the bytes run out. */
  function ParseRanges(c: Cursor, count: nat): (r: Result<(seq<RangeRecord>, Cursor)>)
    ensures r.Ok? <==> count == 0 || c.pos + 6 * count <= |c.data|
    ensures r.Ok? ==> |r.value.0| == count && r.value.1 == Cursor(c.data, c.pos + 6 * count)
    ensures r.Ok? ==> forall k :: 0 <= k < count ==>
      r.value.0[k] == RangeRecord(U16At(c.data, c.pos + 6 * k), U16At(c.data, c.pos + 6 * k + 2),
                                  U16At(c.data, c.pos + 6 * k + 4))
    ensures r.Fail? ==> r.error == TruncatedInput
  {
    if count > 0 && c.pos + 6 * count > |c.data| then Fail(TruncatedInput)
    else Ok((seq(count, k requires 0 <= k < count => RangeAt(c.data, c.pos + 6 * k)), Cursor(c.data, c.pos + 6 * count)))
  }

  /** `_cov_range_rec.parse`: the range record stored at byte `pos`. */
  function RangeAt(data: seq<byte>, pos: nat): RangeRecord
    requires pos + 6 <= |data|
  {
    RangeRecord(U16At(data, pos), U16At(data, pos + 2), U16At(data, pos + 4))
  }

  /** The words of a glyph array read at byte 4. */
  lemma GlyphArray(blob: seq<byte>, count: nat)
    requires |blob| >= 4
    requires ParseArray(Cursor(blob, 4), U16, count).Ok?
    ensures 4 + 2 * count <= |blob|
    ensures forall k :: 0 <= k < count ==>
      ParseArray(Cursor(blob, 4), U16, count).value.0[k] == U16At(blob, 4 + 2 * k)
  {
    var arr := ParseArray(Cursor(blob, 4), U16, count).value.0;
    SizeOfRepeat(U16, count);
    if count > 0 {
      assert 4 + 2 * count <= |blob|;
    }
    forall k | 0 <= k < count
      ensures arr[k] == U16At(blob, 4 + 2 * k)
    {
      WordElement(Cursor(blob, 4), count, k);
    }
  }

  /** `parse_coverage`: a format word, a count, then the glyph list or the
      range records; any other format raises. */
  function ParseCoverage(blob: seq<byte>): (r: Result<Coverage>)
    ensures |blob| < 2 ==> r == Fail(TruncatedInput)
    ensures |blob| >= 2 && U16At(blob, 0) != 1 && U16At(blob, 0) != 2 ==> r == Fail(UnsupportedFormat)
    ensures r.Ok? <==> (|blob| >= 4 &&
      ((U16At(blob, 0) == 1 && 4 + 2 * U16At(blob, 2) <= |blob|) ||
       (U16At(blob, 0) == 2 && 4 + 6 * U16At(blob, 2) <= |blob|)))
    ensures r.Ok? ==> (r.value.GlyphList? <==> U16At(blob, 0) == 1)
    ensures r.Fail? && |blob| >= 2 && (U16At(blob, 0) == 1 || U16At(blob, 0) == 2) ==> r.error == TruncatedInput
    ensures r.Ok? && r.value.GlyphList? ==> (|blob| >= 4 &&
      U16At(blob, 0) == 1 && |r.value.glyphs| == U16At(blob, 2) &&
      4 + 2 * |r.value.glyphs| <= |blob| &&
      forall k :: 0 <= k < |r.value.glyphs| ==> r.value.glyphs[k] == U16At(blob, 4 + 2 * k))
    ensures r.Ok? && r.value.GlyphRanges? ==> (|blob| >= 4 &&
      U16At(blob, 0) == 2 && |r.value.ranges| == U16At(blob, 2) &&
      4 + 6 * |r.value.ranges| <= |blob| &&
      forall k :: 0 <= k < |r.value.ranges| ==>
        r.value.ranges[k] == RangeRecord(U16At(blob, 4 + 6 * k), U16At(blob, 6 + 6 * k), U16At(blob, 8 + 6 * k)))
  {
    var c := Cursor(blob, 0);
    if |blob| < 2 then Fail(TruncatedInput)
    else
      OneWord(c);
      var format := U16At(blob, 0);
      var c1 := Cursor(blob, 2);
      if format == 1 then
        if |blob| < 4 then Fail(TruncatedInput)
        else
          OneWord(c1);
          var count := U16At(blob, 2);
          WordsAreArray(Cursor(blob, 4), count);
          match ParseArray(Cursor(blob, 4), U16, count)
          case Fail(e) => Fail(e)
          case Ok(arr) =>
            GlyphArray(blob, count);
            Ok(GlyphList(arr.0))
      else if format == 2 then
        if |blob| < 4 then Fail(TruncatedInput)
        else
          OneWord(c1);
          var count := U16At(blob, 2);
          match ParseRanges(Cursor(blob, 4), count)
          case Fail(e) => Fail(e)
          case Ok(rs) => Ok(GlyphRanges(rs.0))
      else Fail(UnsupportedFormat)
  }
}

=== FILE: font.dfy ===
/** The sfnt container: the offset table and table directory a font file
    starts with, the list of tables in file order, and the lazy upgrade of
    a table's raw bytes to a parsed table the first time it is asked for. */
module Font {
  import opened Wrappers
  import opened Bytes
  import opened Seqs
  import opened Struct2
  import Head
  import Cmap
  import CmapPack
  import Gsub
  import GsubParse

  /** A table tag, as the big-endian value of its four bytes. */
  type Tag = n: nat | n < 0x1_0000_0000

  const HeadTag: Tag := 0x68656164   // 'head'
  const CmapTag: Tag := 0x636D6170   // 'cmap'
  const GsubTag: Tag := 0x47535542   // 'GSUB'

  const OffsetTableSchema: Schema :=
    [Field(U32, "sfntVersion"), Field(U16, "numTables"), Field(U16, "searchRange"),
     Field(U16, "entrySelector"), Field(U16, "rangeShift")]

  const TableRecordSchema: Schema :=
    [Field(Tag4, "tag"), Field(U32, "checkSum"), Field(U32, "offset"), Field(U32, "length")]

  /** `_OTF_OFFSET_TABLE.size` and `_OTF_TABLE_RECORD.size`. */
  lemma Sizes()
    ensures Formats(OffsetTableSchema) == [U32, U16, U16, U16, U16] && Size(OffsetTableSchema) == 12
    ensures Formats(TableRecordSchema) == [Tag4, U32, U32, U32] && Size(TableRecordSchema) == 16
  {
    assert Formats(OffsetTableSchema) == [U32, U16, U16, U16, U16];
    assert Formats(TableRecordSchema) == [Tag4, U32, U32, U32];
  }

  /** What a table holds once parsed: the head record's values, a character
      map, substitution rules, or (for any other tag) the bytes as read. */
  datatype Body =
    | HeadBody(values: seq<int>)
    | CmapBody(cmap: Cmap.CmapTable)
    | GsubBody(gsub: Gsub.GsubTable)
    | OpaqueBody(blob: seq<byte>)

  /** `OtfUnparsedTable` before the upgrade, a parsed table after it. */
  datatype Table = Unparsed(name: Tag, blob: seq<byte>) | Parsed(name: Tag, body: Body)

  datatype Font = Font(tables: seq<Table>)

  /** What the parsers make of a tag: the head record with values that fit
      their fields, a map with an entry for every 16-bit code, substitution
      rules, or the bytes of any other table. */
  predicate ValidBody(name: Tag, b: Body)
  {
    match b
    case HeadBody(v) => name == HeadTag && AllFit(Formats(Head.HeadSchema), v)
    case CmapBody(c) => name == CmapTag && CmapPack.ValidTable(c)
    case GsubBody(_) => name == GsubTag
    case OpaqueBody(_) => name != HeadTag && name != CmapTag && name != GsubTag
  }

  predicate ValidTable(t: Table)
  {
    t.Parsed? ==> ValidBody(t.name, t.body)
  }

  predicate Named(t: Table, name: Tag)
  {
    t.name == name
  }

  /** A font as the constructor leaves it: its first `head` table, if any,
      is parsed. */
  predicate ValidFont(f: Font)
  {
    (forall i :: 0 <= i < |f.tables| ==> ValidTable(f.tables[i])) &&
    match FirstWhere(f.tables, t => Named(t, HeadTag))
    case None => true
    case Some(i) => f.tables[i].Parsed?
  }

  // ---------------------------------------------------------------------------
  // Upgrading a table.

  /** `_table_parsers.get(name, OtfUnparsableTable)(name, blob)`: the head
      record, the cmap and GSUB parsers, or the bytes kept as they are. */
  function Upgrade(name: Tag, blob: seq<byte>): (r: Result<Table>)
    ensures r.Ok? ==> r.value.Parsed? && r.value.name == name && ValidTable(r.value)
    ensures name != HeadTag && name != CmapTag && name != GsubTag ==> r == Ok(Parsed(name, OpaqueBody(blob)))
    ensures name == HeadTag ==> (r.Ok? <==> |blob| >= Head.HeadSize)
    ensures name == CmapTag ==> (r.Ok? <==> Cmap.ParseCmap(blob).Ok?)
    ensures name == GsubTag ==> (r.Ok? <==> GsubParse.ParseGsub(blob).Ok?)
  {
    if name == HeadTag then
      var v :- Head.ParseHead(blob);
      Ok(Parsed(name, HeadBody(v)))
    else if name == CmapTag then
      var c :- Cmap.ParseCmap(blob);
      Ok(Parsed(name, CmapBody(c)))
    else if name == GsubTag then
      var g :- GsubParse.ParseGsub(blob);
      Ok(Parsed(name, GsubBody(g)))
    else
      Ok(Parsed(name, OpaqueBody(blob)))
  }

  /** `OpenTypeFont.get`: the first table with the tag, upgraded in place
      if it is still raw; `None` when no table has the tag.  A parser's
      error propagates. */
  function Get(f: Font, name: Tag): (r: Result<(Option<Table>, Font)>)
  {
    match FirstWhere(f.tables, t => Named(t, name))
    case None => Ok((None, f))
    case Some(i) =>
      match f.tables[i]
      case Unparsed(_, blob) =>
        var t :- Upgrade(name, blob);
        Ok((Some(t), Font(f.tables[i := t])))
      case Parsed(_, _) => Ok((Some(f.tables[i]), f))
  }

  /** What `Get` returns and leaves: nothing and the font unchanged when no
      table has the tag; otherwise the first table with the tag, parsed,
      stored at its place, every other table and the table count kept. */
  lemma {:induction false} GetSpec(f: Font, name: Tag)
    ensures Get(f, name).Ok? && Get(f, name).value.0.None? <==> forall i :: 0 <= i < |f.tables| ==> f.tables[i].name != name
    ensures Get(f, name).Ok? && Get(f, name).value.0.None? ==> Get(f, name).value.1 == f
    ensures Get(f, name).Ok? && Get(f, name).value.0.Some? ==>
      var (o, g) := Get(f, name).value;
      var t := o.value;
      var i := FirstWhere(f.tables, u => Named(u, name)).value;
      t.name == name && |g.tables| == |f.tables| && g.tables[i] == t &&
      (forall k :: 0 <= k < i ==> f.tables[k].name != name) &&
      (forall k :: 0 <= k < |f.tables| && k != i ==> g.tables[k] == f.tables[k]) &&
      (f.tables[i].Parsed? ==> t == f.tables[i]) &&
      (f.tables[i].Unparsed? ==> Upgrade(name, f.tables[i].blob) == Ok(t))
  {
    match FirstWhere(f.tables, u => Named(u, name))
    case None =>
    case Some(i) =>
      assert Named(f.tables[i], name);
  }

  /** The upgrade happens once: asking again returns the same table and
      changes nothing. */
  lemma {:induction false} GetTwice(f: Font, name: Tag)
    requires Get(f, name).Ok?
    ensures Get(Get(f, name).value.1, name) == Ok(Get(f, name).value)
  {
    var (o, g) := Get(f, name).value;
    match FirstWhere(f.tables, u => Named(u, name))
    case None =>
    case Some(i) =>
      assert g.tables[i] == o.value && o.value.Parsed?;
      assert forall k :: 0 <= k < i ==> !Named(g.tables[k], name);
      SameFirst(g.tables, name, i);
  }

  lemma {:induction false} SameFirst(ts: seq<Table>, name: Tag, i: nat)
    requires i < |ts| && Named(ts[i], name)
    requires forall k :: 0 <= k < i ==> !Named(ts[k], name)
    ensures FirstWhere(ts, t => Named(t, name)) == Some(i)
  {
  }

  /** `Get` keeps a valid font valid. */
  lemma {:induction false} GetKeepsValid(f: Font, name: Tag)
    requires ValidFont(f) && Get(f, name).Ok?
    ensures ValidFont(Get(f, name).value.1)
  {
    var (o, g) := Get(f, name).value;
    match FirstWhere(f.tables, u => Named(u, name))
    case None =>
    case Some(i) =>
      SameNames(f.tables, i, o.value);
  }

  /** Replacing a table by a valid, parsed one of the same name keeps the
      font valid. */
  lemma {:induction false} SameNames(ts: seq<Table>, i: nat, t: Table)
    requires i < |ts| && t.name == ts[i].name && t.Parsed? && ValidTable(t)
    requires ValidFont(Font(ts))
    ensures ValidFont(Font(ts[i := t]))
  {
    var us := ts[i := t];
    assert forall k :: 0 <= k < |ts| ==> (Named(us[k], HeadTag) <==> Named(ts[k], HeadTag));
    var ra := FirstWhere(ts, u => Named(u, HeadTag));
    var rb := FirstWhere(us, u => Named(u, HeadTag));
    assert ra == rb;
  }

  // ---------------------------------------------------------------------------
  // Packing one table.

  /** `tab.pack()` with its defaults: raw and unknown tables give their
      bytes back, the head is written with a zero adjustment, a map is
      re-encoded, and a GSUB table has no `pack`. */
  function PackTable(t: Table): (r: Result<seq<byte>>)
    requires ValidTable(t)
    ensures t.Unparsed? ==> r == Ok(t.blob)
    ensures t.Parsed? && t.body.OpaqueBody? ==> r == Ok(t.body.blob)
    ensures t.Parsed? && t.body.GsubBody? ==> r == Fail(NotPackable)
    ensures t.Parsed? && t.body.HeadBody? ==> r.Ok? && |r.value| == Head.HeadSize
  {
    if t.Unparsed? then Ok(t.blob)
    else
      match t.body
      case OpaqueBody(blob) => Ok(blob)
      case HeadBody(v) => Head.PackHeadOk(v, 0); Head.PackHead(v, 0)
      case CmapBody(c) => CmapPack.PackTable(c)
      case GsubBody(_) => Fail(NotPackable)
  }

  /** A table of any other tag is upgraded to `OtfUnparsableTable`, which
      packs back to the bytes it was read from. */
  lemma UnknownTagKeepsBytes(name: Tag, blob: seq<byte>)
    requires name != HeadTag && name != CmapTag && name != GsubTag
    ensures Upgrade(name, blob).Ok?
    ensures PackTable(Upgrade(name, blob).value) == Ok(blob)
  {
  }

  // ---------------------------------------------------------------------------
  // Reading a font.

  /** `OpenTypeFont.__init__`: the table list, with the head upgraded. */
  function MakeFont(tables: seq<Table>): Result<Font>
  {
    var (_, f) :- Get(Font(tables), HeadTag);
    Ok(f)
  }

  /** One directory record as read. */
  datatype TableRecord = TableRecord(tag: Tag, checkSum: nat, offset: nat, length: nat)

  /** The four words of a sixteen-byte table record. */
  lemma {:induction false} RecordWords(bs: seq<byte>)
    requires |bs| == 16
    ensures SizeOf([Tag4, U32, U32, U32]) == 16
    ensures DecodeFields([Tag4, U32, U32, U32], bs) ==
      [BeDecode(bs[0..4]), BeDecode(bs[4..8]), BeDecode(bs[8..12]), BeDecode(bs[12..16])]
  {
    var b1, b2, b3 := bs[4..], bs[8..], bs[12..];
    DecodeFieldsCons(U32, [], b3);
    DecodeFieldsCons(U32, [U32], b2);
    DecodeFieldsCons(U32, [U32, U32], b1);
    DecodeFieldsCons(Tag4, [U32, U32, U32], bs);
    assert [U32] + [] == [U32] && [U32] + [U32] == [U32, U32];
    assert [U32] + [U32, U32] == [U32, U32, U32] && [Tag4] + [U32, U32, U32] == [Tag4, U32, U32, U32];
    assert b1[4..] == b2 && b2[4..] == b3 && b3[4..] == [];
    assert bs[..4] == bs[0..4] && b1[..4] == bs[4..8] && b2[..4] == bs[8..12] && b3[..4] == bs[12..16];
  }

  /** The sixteen bytes at `off` read as a table record: the tag,
      checksum, offset and length words in that order; a short file raises. */
  function RecordAt(blob: seq<byte>, off: nat): (r: Result<TableRecord>)
    ensures r.Ok? <==> off + 16 <= |blob|
    ensures r.Fail? ==> r.error == TruncatedInput
  {
    if off + 16 <= |blob| then
      Ok(TableRecord(U32At(blob, off), U32At(blob, off + 4), U32At(blob, off + 8), U32At(blob, off + 12)))
    else Fail(TruncatedInput)
  }

  /** `RecordAt` is `_OTF_TABLE_RECORD.parse` of the bytes from `off` on:
      the record codec yields the same four words, or the same error. */
  lemma {:induction false} RecordAtParses(blob: seq<byte>, off: nat)
    ensures Size(TableRecordSchema) == 16
    ensures ParseBlob(TableRecordSchema, Drop(blob, off)).Ok? <==> RecordAt(blob, off).Ok?
    ensures RecordAt(blob, off).Fail? ==> ParseBlob(TableRecordSchema, Drop(blob, off)) == Fail(TruncatedInput)
    ensures RecordAt(blob, off).Ok? ==>
      var r := RecordAt(blob, off).value;
      ParseBlob(TableRecordSchema, Drop(blob, off)) == Ok([r.tag, r.checkSum, r.offset, r.length])
  {
    Sizes();
    if off + 16 <= |blob| {
      var bs := blob[off..off + 16];
      assert Drop(blob, off)[..16] == bs;
      RecordWords(bs);
      assert bs[4..8] == blob[off + 4..off + 8] && bs[8..12] == blob[off + 8..off + 12];
      assert bs[12..16] == blob[off + 12..off + 16] && bs[0..4] == blob[off..off + 4];
    }
  }

  /** `count` directory records of sixteen bytes from `pos` on, record `k`
      read at `pos + 16 * k`; a short file raises. */
  function TableRecords(blob: seq<byte>, pos: nat, count: nat): (r: Result<seq<TableRecord>>)
    ensures r.Ok? <==> count == 0 || pos + 16 * count <= |blob|
    ensures r.Fail? ==> r.error == TruncatedInput
    ensures r.Ok? ==> |r.value| == count
    decreases count
  {
    if count == 0 then Ok([])
    else
      var rec :- RecordAt(blob, pos);
      var rest :- TableRecords(blob, pos + 16, count - 1);
      Ok([rec] + rest)
  }

  /** Record `k` of the run is the one read at `pos + 16 * k`. */
  lemma {:induction false} TableRecordAt(blob: seq<byte>, pos: nat, count: nat, k: nat)
    requires TableRecords(blob, pos, count).Ok? && k < count
    ensures RecordAt(blob, pos + 16 * k) == Ok(TableRecords(blob, pos, count).value[k])
    decreases k
  {
    var rest := TableRecords(blob, pos + 16, count - 1);
    assert rest.Ok?;
    assert TableRecords(blob, pos, count).value == [RecordAt(blob, pos).value] + rest.value;
    if k > 0 {
      TableRecordAt(blob, pos + 16, count - 1, k - 1);
      assert pos + 16 * k == (pos + 16) + 16 * (k - 1);
    }
  }

  /** `numTables`, the second field of the offset table. */
  lemma {:induction false} OffsetTableWords(bs: seq<byte>)
    requires |bs| == 12
    ensures SizeOf([U32, U16, U16, U16, U16]) == 12
    ensures DecodeFields([U32, U16, U16, U16, U16], bs)[1] == BeDecode(bs[4..6])
  {
    var fs := [U32, U16, U16, U16, U16];
    assert fs[1..] == [U16, U16, U16, U16];
    assert bs[4..][..2] == bs[4..6];
  }

  /** `_OTF_OFFSET_TABLE.parse` and the `numTables` records after it. */
  function Directory(blob: seq<byte>): (r: Result<seq<TableRecord>>)
    ensures r.Ok? <==> |blob| >= 12 && 12 + 16 * U16At(blob, 4) <= |blob|
    ensures r.Fail? ==> r.error == TruncatedInput
    ensures r.Ok? ==> |r.value| == U16At(blob, 4)
    ensures r.Ok? ==> forall k :: 0 <= k < |r.value| ==>
      28 + 16 * k <= |blob| &&
      r.value[k] == TableRecord(U32At(blob, 12 + 16 * k), U32At(blob, 16 + 16 * k),
                                U32At(blob, 20 + 16 * k), U32At(blob, 24 + 16 * k))
  {
    Sizes();
    var hdr :- ParseBlob(OffsetTableSchema, blob);
    OffsetTableWords(blob[..12]);
    assert blob[..12][4..6] == blob[4..6];
    var recs :- TableRecords(blob, 12, hdr[1]);
    assert forall k :: 0 <= k < |recs| ==> RecordAt(blob, 12 + 16 * k) == Ok(recs[k]) by {
      forall k | 0 <= k < |recs| {
        TableRecordAt(blob, 12, hdr[1], k);
      }
    }
    Ok(recs)
  }

  /** The raw table a record points at: `blob[offset:offset + length]`. */
  function RawTable(blob: seq<byte>, r: TableRecord): Table
  {
    Unparsed(r.tag, Slice(blob, r.offset, r.offset + r.length))
  }

  function OffsetOfRecord(r: TableRecord): int
  {
    r.offset
  }

  /** `table_hdrs.sort(key=lambda tab: tab.offset)`: a stable sort. */
  function ByOffset(recs: seq<TableRecord>): seq<TableRecord>
  {
    SortBy(recs, OffsetOfRecord)
  }

  /** The raw tables the records point at, in record order. */
  function RawTables(blob: seq<byte>, recs: seq<TableRecord>): (ts: seq<Table>)
    ensures |ts| == |recs|
    ensures forall i :: 0 <= i < |recs| ==> ts[i] == RawTable(blob, recs[i])
  {
    seq(|recs|, i requires 0 <= i < |recs| => RawTable(blob, recs[i]))
  }

  /** `OpenTypeFont.parse`: the directory in offset order, each table the
      bytes its record points at, then the constructor. */
  function Parse(blob: seq<byte>): Result<Font>
  {
    var recs :- Directory(blob);
    MakeFont(RawTables(blob, ByOffset(recs)))
  }

  /** The constructor on raw tables: it fails exactly when the first `head`
      is shorter than the head record; otherwise that table alone is parsed
      from its bytes, the rest stay raw, and the font is valid. */
  lemma {:induction false} MakeFontSpec(ts: seq<Table>)
    requires forall i :: 0 <= i < |ts| ==> ts[i].Unparsed?
    ensures MakeFont(ts).Ok? <==>
      forall i :: 0 <= i < |ts| && ts[i].name == HeadTag && (forall k :: 0 <= k < i ==> ts[k].name != HeadTag) ==>
        |ts[i].blob| >= Head.HeadSize
    ensures MakeFont(ts).Ok? ==>
      var f := MakeFont(ts).value;
      ValidFont(f) && |f.tables| == |ts| &&
      forall i :: 0 <= i < |ts| ==>
        f.tables[i].name == ts[i].name &&
        (f.tables[i].Unparsed? ==> f.tables[i] == ts[i]) &&
        (f.tables[i].Parsed? ==> Upgrade(HeadTag, ts[i].blob) == Ok(f.tables[i]))
  {
    RawFontValid(Font(ts));
    GetSpec(Font(ts), HeadTag);
    match FirstWhere(ts, u => Named(u, HeadTag))
    case None =>
    case Some(h) =>
      assert Named(ts[h], HeadTag);
      forall i | 0 <= i < |ts| && ts[i].name == HeadTag && (forall k :: 0 <= k < i ==> ts[k].name != HeadTag)
        ensures i == h
      {
        if i < h {
          assert false;
        } else if h < i {
          assert false;
        }
      }
  }

  /** The font `parse` builds: one table per directory record, in ascending
      offset order (records with equal offsets keep their directory order),
      each the bytes its record points at, the first `head` parsed from its
      bytes and every other table raw. */
  lemma {:induction false} ParseSpec(blob: seq<byte>)
    ensures Parse(blob).Ok? ==> Directory(blob).Ok?
    ensures Directory(blob).Ok? ==> Parse(blob) == MakeFont(RawTables(blob, ByOffset(Directory(blob).value)))
    ensures Parse(blob).Ok? ==>
      var recs := Directory(blob).value;
      var sorted := ByOffset(recs);
      var f := Parse(blob).value;
      ValidFont(f) &&
      multiset(sorted) == multiset(recs) && SortedBy(sorted, OffsetOfRecord) &&
      (forall v :: WithKey(sorted, OffsetOfRecord, v) == WithKey(recs, OffsetOfRecord, v)) &&
      |f.tables| == |recs| == U16At(blob, 4) &&
      forall i :: 0 <= i < |f.tables| ==>
        var raw := Slice(blob, sorted[i].offset, sorted[i].offset + sorted[i].length);
        f.tables[i].name == sorted[i].tag &&
        (f.tables[i].Unparsed? ==> f.tables[i].blob == raw) &&
        (f.tables[i].Parsed? ==> Upgrade(HeadTag, raw) == Ok(f.tables[i]))
  {
    if Directory(blob).Ok? {
      var sorted := ByOffset(Directory(blob).value);
      MakeFontSpec(RawTables(blob, sorted));
    }
  }

  /** The constructor's `get(b'head')` leaves a font of raw tables valid. */
  lemma {:induction false} RawFontValid(f: Font)
    requires forall i :: 0 <= i < |f.tables| ==> f.tables[i].Unparsed?
    ensures Get(f, HeadTag).Ok? ==> ValidFont(Get(f, HeadTag).value.1)
  {
    if Get(f, HeadTag).Ok? {
      var (o, g) := Get(f, HeadTag).value;
      match FirstWhere(f.tables, u => Named(u, HeadTag))
      case None =>
      case Some(i) =>
        assert g.tables[i] == o.value && o.value.name == HeadTag;
        SameFirst(g.tables, HeadTag, i);
    }
  }

  // ---------------------------------------------------------------------------
  // Glyph lookup.

  /** `[cmap[ch] for ch in chars]`: the first failing lookup raises. */
  function Lookups(c: Cmap.CmapTable, chars: seq<char>): (r: Result<seq<int>>)
    ensures r.Ok? <==> forall i :: 0 <= i < |chars| ==> Cmap.Get(c, chars[i]).Ok?
    ensures r.Ok? ==> |r.value| == |chars| && forall i :: 0 <= i < |chars| ==> r.value[i] == Cmap.Get(c, chars[i]).value
  {
    if |chars| == 0 then Ok([])
    else
      var g :- Cmap.Get(c, chars[0]);
      var rest :- Lookups(c, chars[1..]);
      Ok([g] + rest)
  }

  /** `OpenTypeFont.get_glyphs`: the cmap lookups of the characters, then
      the GSUB subber for the default script and language with every
      feature disabled.  A missing GSUB table raises; a missing cmap table
      raises only once a character is looked up in it. */
  function GetGlyphs(f: Font, chars: seq<char>): Result<(seq<int>, Font)>
  {
    var (cmap, f1) :- Get(f, CmapTag);
    var gids :- CharGlyphs(cmap, chars);
    var (gsub, f2) :- Get(f1, GsubTag);
    match gsub
    case None => Fail(MissingTable)
    case Some(u) =>
      if !(u.Parsed? && u.body.GsubBody?) then Fail(MissingTable)
      else
        var procs :- Gsub.MakeSubber(u.body.gsub, _ => false, Gsub.DFLT, None);
        var out :- Gsub.Substitute(procs, gids);
        Ok((out, f2))
  }

  /** A table that is a parsed character map. */
  predicate IsCmap(t: Option<Table>)
  {
    t.Some? && t.value.Parsed? && t.value.body.CmapBody?
  }

  /** `[cmap[ch] for ch in chars]` on whatever `get(b'cmap')` returned: no
      character, no lookup; otherwise the table must be a character map. */
  function CharGlyphs(cmap: Option<Table>, chars: seq<char>): (r: Result<seq<int>>)
    ensures |chars| == 0 ==> r == Ok([])
    ensures |chars| > 0 && !IsCmap(cmap) ==> r == Fail(MissingTable)
    ensures IsCmap(cmap) ==> r == Lookups(cmap.value.body.cmap, chars)
  {
    if |chars| == 0 then Ok([])
    else if !IsCmap(cmap) then Fail(MissingTable)
    else Lookups(cmap.value.body.cmap, chars)
  }

  /** With every feature disabled the glyphs are exactly the cmap's: one per
      character, each the map's entry for it. */
  lemma GetGlyphsIsCmap(f: Font, chars: seq<char>)
    requires GetGlyphs(f, chars).Ok?
    ensures Get(f, CmapTag).Ok?
    ensures var gids := GetGlyphs(f, chars).value.0;
      |gids| == |chars| &&
      var cmap := Get(f, CmapTag).value.0;
      (|chars| > 0 ==> IsCmap(cmap)) &&
      forall i :: 0 <= i < |chars| ==> Cmap.Get(cmap.value.body.cmap, chars[i]) == Ok(gids[i])
  {
    var (cmap, f1) := Get(f, CmapTag).value;
    var gids := CharGlyphs(cmap, chars).value;
    var (gsub, f2) := Get(f1, GsubTag).value;
    var g := gsub.value.body.gsub;
    Gsub.NothingEnabled(g, Gsub.DFLT, None, gids);
  }
}

=== FILE: font_save.dfy ===
/** Writing a font back out: the offset table, a directory sorted by tag,
    every table padded to four bytes, and the `head` table's
    `checkSumAdjustment` chosen so that the whole file sums to the
    OpenType magic value. */
module FontSave {
  import opened Wrappers
  import opened Bytes
  import opened Seqs
  import opened Struct2
  import opened Checksum
  import Head
  import opened Font

  /** The constant the adjustment is computed from, as written: one hex
      digit wider than a 32-bit word. */
  const MagicAsWritten: nat := 0x1_b1b0_afba

  /** The value a whole font file sums to once adjusted. */
  const Magic: nat := 0xB1B0AFBA

  /** `(0x1b1b0afba - full_checksum) & 0xffffffff`: the word that brings the
      file's sum to the magic value. */
  function Adjustment(full: nat): (adj: nat)
    requires full < Modulus
    ensures adj < Modulus
    ensures (full + adj) % Modulus == Magic
  {
    AdjustmentSums(full);
    (MagicAsWritten - full) % Modulus
  }

  lemma AdjustmentSums(full: nat)
    requires full < Modulus
    ensures (full + (MagicAsWritten - full) % Modulus) % Modulus == Magic
  {
    var d := MagicAsWritten - full;
    if full <= Magic {
      ModMultiple(1, Magic - full);
    } else {
      ModMultiple(0, d);
      ModMultiple(1, Magic);
    }
  }

  /** Powers of two grow with their exponent. */
  lemma {:induction false} Pow2Grows(a: nat, b: nat)
    requires a <= b
    ensures Pow2(a) <= Pow2(b)
    decreases b
  {
    if a < b {
      Pow2Grows(a, b - 1);
    }
  }

  /** The values of the offset table `save` writes for `n` tables:
      `searchRange` is sixteen times the largest power of two not above `n`,
      `entrySelector` its exponent and `rangeShift` the rest of `16 * n`. */
  function OffsetTableValues(n: nat): (vs: seq<int>)
    requires n >= 1
    ensures |vs| == 5 && vs[0] == 0x10000 && vs[1] == n && vs[3] >= 0
    ensures vs[2] == 16 * Pow2(vs[3])
    ensures vs[2] <= 16 * n < 2 * vs[2]
    ensures vs[4] == 16 * n - vs[2]
  {
    var e := FloorLog2(n);
    [0x10000, n, Pow2(e) * 16, e, (n - Pow2(e)) * 16]
  }

  /** `hdr.pack()`: the twelve header bytes, which read back with
      `numTables == n`; `struct.pack` raises once `searchRange` no longer
      fits sixteen bits, that is from 4096 tables on. */
  function PackOffsetTable(n: nat): (r: Result<seq<byte>>)
    requires n >= 1
    ensures r.Ok? <==> n < 4096
    ensures r.Fail? ==> r.error == ValueOutOfRange
    ensures r.Ok? ==> |r.value| == 12 && U16At(r.value, 4) == n
  {
    OffsetTablePacks(n);
    Pack(OffsetTableSchema, Present(OffsetTableValues(n)))
  }

  lemma {:induction false} OffsetTablePacks(n: nat)
    requires n >= 1
    ensures var r := Pack(OffsetTableSchema, Present(OffsetTableValues(n)));
      (r.Ok? <==> n < 4096) && (r.Fail? ==> r.error == ValueOutOfRange) &&
      (r.Ok? ==> |r.value| == 12 && U16At(r.value, 4) == n)
  {
    Sizes();
    var vs := OffsetTableValues(n);
    var e := vs[3];
    assert Pow256(2) == 0x1_0000 && Pow256(4) == 0x1_0000_0000;
    if n < 4096 {
      PowAbove(e);
      assert AllFit(Formats(OffsetTableSchema), vs);
      PackPresent(OffsetTableSchema, vs);
      var bs := EncodeFields(Formats(OffsetTableSchema), vs);
      DecodeOfEncode(Formats(OffsetTableSchema), vs);
      OffsetTableWords(bs);
    } else {
      if e < 12 {
        Pow2Grows(e, 11);
      }
      Pow2Grows(12, e);
      assert Pow2(12) == 4096;
      assert !Fits(U16, vs[2]);
    }
  }

  /** `_OTF_TABLE_RECORD(tag=..., checkSum=..., offset=..., length=...).pack()`:
      sixteen bytes that read back as the same record; `struct.pack` raises
      when the offset or the length does not fit 32 bits. */
  function PackRecord(e: TableRecord): (r: Result<seq<byte>>)
    ensures r.Ok? <==> e.checkSum < Modulus && e.offset < Modulus && e.length < Modulus
    ensures r.Fail? ==> r.error == ValueOutOfRange
    ensures r.Ok? ==> |r.value| == 16 && RecordAt(r.value, 0) == Ok(e)
  {
    RecordPacks(e);
    Pack(TableRecordSchema, Present([e.tag, e.checkSum, e.offset, e.length]))
  }

  lemma {:induction false} RecordPacks(e: TableRecord)
    ensures var r := Pack(TableRecordSchema, Present([e.tag, e.checkSum, e.offset, e.length]));
      (r.Ok? <==> e.checkSum < Modulus && e.offset < Modulus && e.length < Modulus) &&
      (r.Fail? ==> r.error == ValueOutOfRange) &&
      (r.Ok? ==> |r.value| == 16 && RecordAt(r.value, 0) == Ok(e))
  {
    Sizes();
    var vs := [e.tag, e.checkSum, e.offset, e.length];
    var fs := Formats(TableRecordSchema);
    assert Pow256(4) == Modulus;
    if e.checkSum < Modulus && e.offset < Modulus && e.length < Modulus {
      assert AllFit(fs, vs);
      PackPresent(TableRecordSchema, vs);
      var bs := EncodeFields(fs, vs);
      DecodeOfEncode(fs, vs);
      RecordWords(bs);
    } else {
      assert !Fits(fs[1], vs[1]) || !Fits(fs[2], vs[2]) || !Fits(fs[3], vs[3]);
    }
  }

  /** The loop of `save`: each table gets a record at the running
      `data_offset` with its checksum and unpadded length, its bytes and
      padding are appended, and the offset moves on by the padded length. */
  function Place(names: seq<Tag>, blobs: seq<seq<byte>>, offset: nat): (r: (seq<TableRecord>, seq<byte>))
    requires |names| == |blobs|
    ensures |r.0| == |names|
    decreases |names|
  {
    if |names| == 0 then ([], [])
    else
      var b := blobs[0];
      var (es, body) := Place(names[1..], blobs[1..], offset + Align4(|b|));
      ([TableRecord(names[0], TableChecksum(b), offset, |b|)] + es, b + Pad4(|b|) + body)
  }

  /** The records `Place` produces: tables follow each other at four-byte
      boundaries from `offset` on, and each record gives its table's tag,
      checksum and unpadded length. */
  lemma {:induction false} PlaceRecords(names: seq<Tag>, blobs: seq<seq<byte>>, offset: nat)
    requires |names| == |blobs|
    ensures var es := Place(names, blobs, offset).0;
      (|names| > 0 ==> es[0].offset == offset) &&
      (forall i :: 0 < i < |names| ==> es[i].offset == es[i - 1].offset + Align4(|blobs[i - 1]|)) &&
      forall i :: 0 <= i < |names| ==>
        es[i].tag == names[i] && es[i].checkSum == TableChecksum(blobs[i]) && es[i].length == |blobs[i]| &&
        offset <= es[i].offset
    decreases |names|
  {
    if |names| > 0 {
      var next := offset + Align4(|blobs[0]|);
      PlaceRecords(names[1..], blobs[1..], next);
      var rest := Place(names[1..], blobs[1..], next).0;
      var es := Place(names, blobs, offset).0;
      assert es == [TableRecord(names[0], TableChecksum(blobs[0]), offset, |blobs[0]|)] + rest;
      assert forall i :: 0 < i < |names| ==> es[i] == rest[i - 1] && blobs[i] == blobs[1..][i - 1];
    }
  }

  /** With an aligned start every record's offset is a multiple of four. */
  lemma {:induction false} PlaceAligned(names: seq<Tag>, blobs: seq<seq<byte>>, offset: nat, i: nat)
    requires |names| == |blobs| && i < |names| && offset % 4 == 0
    ensures Place(names, blobs, offset).0[i].offset % 4 == 0
  {
    PlaceRecords(names, blobs, offset);
    if i > 0 {
      PlaceAligned(names, blobs, offset, i - 1);
      var es := Place(names, blobs, offset).0;
      var x, a := es[i - 1].offset, Align4(|blobs[i - 1]|);
      assert x % 4 == 0 && a % 4 == 0;
      assert (x + a) % 4 == 0 by {
        assert x == 4 * (x / 4) && a == 4 * (a / 4);
        assert x + a == 4 * (x / 4 + a / 4);
      }
    }
  }

  /** `sum(_align4(len(b)) for b in blobs)`: the bytes the tables take
      once each is padded to a word boundary. */
  function PaddedSize(blobs: seq<seq<byte>>): (n: nat)
    ensures n % 4 == 0
  {
    if |blobs| == 0 then 0
    else
      var a, rest := Align4(|blobs[0]|), PaddedSize(blobs[1..]);
      assert a == 4 * (a / 4) && rest == 4 * (rest / 4);
      assert a + rest == 4 * (a / 4 + rest / 4);
      a + rest
  }

  /** The padded tables fill exactly their padded sizes, one after the other. */
  lemma {:induction false} PlaceLength(names: seq<Tag>, blobs: seq<seq<byte>>, offset: nat)
    requires |names| == |blobs|
    ensures |Place(names, blobs, offset).1| == PaddedSize(blobs)
    decreases |names|
  {
    if |names| > 0 {
      var b := blobs[0];
      var next := offset + Align4(|b|);
      PlaceLength(names[1..], blobs[1..], next);
      assert |b + Pad4(|b|)| == Align4(|b|);
    }
  }

  /** The bytes `Place` produces: table `i` sits at its record's offset. */
  lemma {:induction false} PlaceBody(names: seq<Tag>, blobs: seq<seq<byte>>, offset: nat, i: nat)
    requires |names| == |blobs| && i < |names|
    ensures var p := Place(names, blobs, offset);
      offset <= p.0[i].offset && p.0[i].offset - offset + |blobs[i]| <= |p.1| &&
      p.1[p.0[i].offset - offset..p.0[i].offset - offset + |blobs[i]|] == blobs[i]
    decreases i
  {
    var b := blobs[0];
    var padded := b + Pad4(|b|);
    var next := offset + |padded|;
    var q := Place(names[1..], blobs[1..], next);
    var p := Place(names, blobs, offset);
    assert p.0 == [TableRecord(names[0], TableChecksum(b), offset, |b|)] + q.0;
    assert p.1 == padded + q.1;
    if i == 0 {
      assert p.1[0..|b|] == b;
    } else {
      PlaceBody(names[1..], blobs[1..], next, i - 1);
      var x := q.0[i - 1].offset - next;
      assert p.0[i] == q.0[i - 1] && blobs[i] == blobs[1..][i - 1];
      SliceAfter(padded, q.1, x, |blobs[i]|);
    }
  }

  lemma SliceAfter<T>(p: seq<T>, t: seq<T>, x: nat, n: nat)
    requires x + n <= |t|
    ensures (p + t)[|p| + x..|p| + x + n] == t[x..x + n]
  {
  }

  // ---------------------------------------------------------------------------
  // The whole file.

  /** `[tab.pack() for tab in self._tables]`: the first table that cannot
      be packed raises. */
  function PackAll(ts: seq<Table>): (r: Result<seq<seq<byte>>>)
    requires forall i :: 0 <= i < |ts| ==> ValidTable(ts[i])
    ensures r.Ok? <==> forall i :: 0 <= i < |ts| ==> PackTable(ts[i]).Ok?
    ensures r.Ok? ==> |r.value| == |ts| && forall i :: 0 <= i < |ts| ==> PackTable(ts[i]) == Ok(r.value[i])
    ensures r.Fail? ==> exists i :: 0 <= i < |ts| && PackTable(ts[i]) == Fail(r.error)
    decreases |ts|
  {
    if |ts| == 0 then Ok([])
    else
      var b :- PackTable(ts[0]);
      assert forall i :: 1 <= i < |ts| ==> ts[1..][i - 1] == ts[i];
      var bs :- PackAll(ts[1..]);
      Ok([b] + bs)
  }

  function TableNames(ts: seq<Table>): (names: seq<Tag>)
    ensures |names| == |ts| && forall i :: 0 <= i < |ts| ==> names[i] == ts[i].name
  {
    seq(|ts|, i requires 0 <= i < |ts| => ts[i].name)
  }

  /** The `(tag, packed record)` pairs of `table_hdrs`, in table order;
      the first record that does not fit raises. */
  function PackRecords(recs: seq<TableRecord>): (r: Result<seq<(Tag, seq<byte>)>>)
    ensures r.Ok? <==>
      forall i :: 0 <= i < |recs| ==> recs[i].checkSum < Modulus && recs[i].offset < Modulus && recs[i].length < Modulus
    ensures r.Fail? ==> r.error == ValueOutOfRange
    ensures r.Ok? ==> |r.value| == |recs|
    ensures r.Ok? ==> forall i :: 0 <= i < |recs| ==>
      r.value[i].0 == recs[i].tag && |r.value[i].1| == 16 && RecordAt(r.value[i].1, 0) == Ok(recs[i])
    decreases |recs|
  {
    if |recs| == 0 then Ok([])
    else
      var bs :- PackRecord(recs[0]);
      assert forall i :: 1 <= i < |recs| ==> recs[1..][i - 1] == recs[i];
      var rest :- PackRecords(recs[1..]);
      Ok([(recs[0].tag, bs)] + rest)
  }

  /** The order `table_hdrs.sort()` gives the pairs: the packed record
      starts with the tag, so comparing the big-endian value of the packed
      bytes compares the tuples. */
  function HdrKey(p: (Tag, seq<byte>)): int
  {
    BeDecode(p.1)
  }

  /** The file `save` assembles before the checksum patch. */
  datatype Draft = Draft(
    blobs: seq<seq<byte>>,              // `table_blobs`
    recs: seq<TableRecord>,             // the records, in table order
    body: seq<byte>,                    // `blobs_with_pad`, joined
    hdrs: seq<(Tag, seq<byte>)>,        // `table_hdrs` after the sort
    header: seq<byte>)                  // `hdr.pack()`
  {
    /** `pre_full_checksum`. */
    function Bytes(): seq<byte>
    {
      header + Flatten(Records(hdrs)) + body
    }
  }

  function Records(hdrs: seq<(Tag, seq<byte>)>): (rs: seq<seq<byte>>)
    ensures |rs| == |hdrs| && forall i :: 0 <= i < |hdrs| ==> rs[i] == hdrs[i].1
  {
    seq(|hdrs|, i requires 0 <= i < |hdrs| => hdrs[i].1)
  }

  /** Everything `save` does before the checksum: each table packed, the
      offset table for `n` tables, and the records laid out. */
  function Assemble(f: Font): (r: Result<Draft>)
    requires ValidFont(f)
    ensures r.Ok? ==> |f.tables| >= 1 && PackAll(f.tables) == Ok(r.value.blobs)
    ensures r.Ok? ==> Lay(TableNames(f.tables), r.value.blobs) == r
  {
    if |f.tables| == 0 then Fail(NoTables)
    else
      match PackAll(f.tables)
      case Fail(e) => Fail(e)
      case Ok(blobs) => Lay(TableNames(f.tables), blobs)
  }

  /** The tables' packed bytes laid out after the directory, their records
      packed and sorted, and the offset table in front. */
  function Lay(names: seq<Tag>, blobs: seq<seq<byte>>): (r: Result<Draft>)
    requires 1 <= |names| == |blobs|
    ensures r.Ok? ==> r.value.blobs == blobs && |r.value.recs| == |names|
  {
    var p := Place(names, blobs, 12 + 16 * |names|);
    match PackRecords(p.0)
    case Fail(e) => Fail(e)
    case Ok(hdrs) =>
      match PackOffsetTable(|names|)
      case Fail(e) => Fail(e)
      case Ok(header) => Ok(Draft(blobs, p.0, p.1, SortBy(hdrs, HdrKey), header))
  }

  predicate IsHead(t: Table)
  {
    Named(t, HeadTag)
  }

  /** The values of the font's first head, which the constructor parsed. */
  function HeadValues(f: Font, h: nat): (v: seq<int>)
    requires ValidFont(f) && FirstWhere(f.tables, IsHead) == Some(h)
    ensures AllFit(Formats(Head.HeadSchema), v)
  {
    var t := f.tables[h];
    assert t.name == HeadTag && t.Parsed? && ValidTable(t);
    t.body.values
  }

  /** The last step of `save`: the head record packed with the adjustment
      for the draft's sum, written over the draft from byte `at` on. */
  function Patch(draft: seq<byte>, at: nat, values: seq<int>): (r: seq<byte>)
    requires AllFit(Formats(Head.HeadSchema), values)
  {
    var adj := Adjustment(TableChecksum(draft));
    Head.PackHeadOk(values, adj);
    var hb := Head.PackHead(values, adj).value;
    Slice(draft, 0, at) + hb + Drop(draft, at + |hb|)
  }

  /** `OpenTypeFont.save`: the draft with the first head's record, carrying
      the adjustment that brings the draft's sum to the magic value,
      written over the 54 bytes at the offset of the last table named
      `head`.  A font without a head has no `_head` to pack. */
  function Save(f: Font): (r: Result<seq<byte>>)
    requires ValidFont(f)
  {
    var d :- Assemble(f);
    match FirstWhere(f.tables, IsHead)
    case None => Fail(MissingTable)
    case Some(h) =>
      var last := LastWhere(f.tables, IsHead).value;
      Ok(Patch(d.Bytes(), d.recs[last].offset, HeadValues(f, h)))
  }

  // ---------------------------------------------------------------------------
  // What the draft holds.

  /** Sixteen-byte blocks laid end to end: block `k` starts at `16 * k`. */
  lemma {:induction false} FlattenBlock(rs: seq<seq<byte>>, k: nat)
    requires forall i :: 0 <= i < |rs| ==> |rs[i]| == 16
    requires k < |rs|
    ensures |Flatten(rs)| == 16 * |rs|
    ensures Flatten(rs)[16 * k..16 * k + 16] == rs[k]
    decreases k
  {
    FlattenLength(rs);
    assert Flatten(rs) == rs[0] + Flatten(rs[1..]);
    if k > 0 {
      FlattenBlock(rs[1..], k - 1);
      SliceAfter(rs[0], Flatten(rs[1..]), 16 * (k - 1), 16);
    }
  }

  lemma {:induction false} FlattenLength(rs: seq<seq<byte>>)
    requires forall i :: 0 <= i < |rs| ==> |rs[i]| == 16
    ensures |Flatten(rs)| == 16 * |rs|
  {
    if |rs| > 0 {
      FlattenLength(rs[1..]);
    }
  }

  /** A record read at `off` depends on its sixteen bytes only. */
  lemma RecordAtSlice(blob: seq<byte>, off: nat)
    requires off + 16 <= |blob|
    ensures RecordAt(blob, off) == RecordAt(blob[off..off + 16], 0)
  {
    var w := blob[off..off + 16];
    SliceOfSlice(blob, off, off + 16, 0, 4);
    SliceOfSlice(blob, off, off + 16, 4, 8);
    SliceOfSlice(blob, off, off + 16, 8, 12);
    SliceOfSlice(blob, off, off + 16, 12, 16);
  }

  /** Comparing packed records compares their tags first: a record whose
      bytes are not above another's does not have the larger tag. */
  lemma {:induction false} TagFirst(a: seq<byte>, b: seq<byte>)
    requires |a| == |b| == 16 && BeDecode(a) <= BeDecode(b)
    ensures BeDecode(a[0..4]) <= BeDecode(b[0..4])
  {
    DecodeAppend(a[0..4], a[4..]);
    DecodeAppend(b[0..4], b[4..]);
    assert a[0..4] + a[4..] == a && b[0..4] + b[4..] == b;
    HighPart(BeDecode(a[0..4]), BeDecode(a[4..]), BeDecode(b[0..4]), BeDecode(b[4..]), Pow256(12));
  }

  lemma MulMono(a: nat, b: nat, p: nat)
    requires a <= b
    ensures a * p <= b * p
  {
  }

  lemma HighPart(x: nat, u: nat, y: nat, v: nat, p: nat)
    requires u < p && v < p && x * p + u <= y * p + v
    ensures x <= y
  {
    if y < x {
      MulMono(y + 1, x, p);
    }
  }

  /** What `Lay` guarantees about the draft's shape, stated without the
      packing steps: the offset table announces the tables, every
      directory record is sixteen bytes, and the records and bodies are
      `Place`'s layout after the directory. */
  predicate LaidOut(names: seq<Tag>, blobs: seq<seq<byte>>, d: Draft)
  {
    |names| == |blobs| && d.blobs == blobs &&
    |d.header| == 12 && U16At(d.header, 4) == |names| &&
    |d.hdrs| == |names| && (forall i :: 0 <= i < |d.hdrs| ==> |d.hdrs[i].1| == 16) &&
    (d.recs, d.body) == Place(names, blobs, 12 + 16 * |names|)
  }

  lemma {:induction false} LayLaidOut(names: seq<Tag>, blobs: seq<seq<byte>>)
    requires 1 <= |names| == |blobs| && Lay(names, blobs).Ok?
    ensures LaidOut(names, blobs, Lay(names, blobs).value)
  {
    var d := Lay(names, blobs).value;
    LaySorts(names, blobs);
    SortedBlocks(d.recs, d.hdrs);
  }

  lemma LaySorts(names: seq<Tag>, blobs: seq<seq<byte>>)
    requires 1 <= |names| == |blobs| && Lay(names, blobs).Ok?
    ensures var d := Lay(names, blobs).value;
      PackRecords(d.recs).Ok? && d.hdrs == SortBy(PackRecords(d.recs).value, HdrKey)
  {
  }

  /** The packed records of the directory are sixteen bytes each. */
  lemma {:induction false} SortedBlocks(recs: seq<TableRecord>, hdrs: seq<(Tag, seq<byte>)>)
    requires PackRecords(recs).Ok? && hdrs == SortBy(PackRecords(recs).value, HdrKey)
    ensures |hdrs| == |recs| && forall i :: 0 <= i < |hdrs| ==> |hdrs[i].1| == 16
  {
    var packed := PackRecords(recs).value;
    forall i | 0 <= i < |hdrs|
      ensures |hdrs[i].1| == 16
    {
      assert hdrs[i] in multiset(hdrs);
      assert hdrs[i] in multiset(packed);
      var j :| 0 <= j < |packed| && packed[j] == hdrs[i];
    }
  }

  /** The offset table and the directory fill the first `12 + 16 * n`
      bytes of the draft. */
  lemma {:induction false} Front(names: seq<Tag>, blobs: seq<seq<byte>>, d: Draft)
    requires LaidOut(names, blobs, d)
    ensures var front := d.header + Flatten(Records(d.hdrs));
      |front| == 12 + 16 * |names| && d.Bytes() == front + d.body
  {
    FlattenLength(Records(d.hdrs));
  }

  /** The draft is the offset table, sixteen bytes of directory per table
      and every table padded to a word boundary, so a whole number of words;
      its offset table announces `n` tables. */
  lemma {:induction false} DraftShape(names: seq<Tag>, blobs: seq<seq<byte>>, d: Draft)
    requires LaidOut(names, blobs, d)
    ensures var bs := d.Bytes(); var n := |names|;
      |bs| == 12 + 16 * n + PaddedSize(blobs) && U16At(bs, 4) == n && |bs| % 4 == 0
  {
    Front(names, blobs, d);
    PlaceLength(names, blobs, 12 + 16 * |names|);
    Words(d.header, Flatten(Records(d.hdrs)), d.body, |names|);
  }

  lemma Words(header: seq<byte>, dir: seq<byte>, body: seq<byte>, n: nat)
    requires |header| == 12 && |dir| == 16 * n && |body| % 4 == 0
    ensures (header + dir + body)[4..6] == header[4..6]
    ensures |header + dir + body| % 4 == 0
  {
    var y := |body|;
    assert y == 4 * (y / 4);
    assert 12 + 16 * n + y == 4 * (3 + 4 * n + y / 4);
  }

  /** Table `i` of the draft: its packed bytes sit, four-byte aligned and
      after the directory, at the offset its record gives, and the record
      carries the table's tag, checksum and unpadded length. */
  lemma {:induction false} DraftTable(names: seq<Tag>, blobs: seq<seq<byte>>, d: Draft, i: nat)
    requires LaidOut(names, blobs, d) && i < |names|
    ensures |d.recs| == |names|
    ensures var bs := d.Bytes(); var r := d.recs[i];
      r.tag == names[i] && r.checkSum == TableChecksum(blobs[i]) && r.length == |blobs[i]| &&
      r.offset % 4 == 0 && 12 + 16 * |names| <= r.offset &&
      r.offset + r.length <= |bs| && bs[r.offset..r.offset + r.length] == blobs[i]
  {
    Front(names, blobs, d);
    var front := d.header + Flatten(Records(d.hdrs));
    FrontAligned(|front|, |names|);
    PlacedTable(names, blobs, front, i);
  }

  lemma FrontAligned(x: nat, n: nat)
    requires x == 12 + 16 * n
    ensures x % 4 == 0
  {
    assert x == 4 * (3 + 4 * n);
  }

  lemma {:induction false} PlacedTable(names: seq<Tag>, blobs: seq<seq<byte>>, front: seq<byte>, i: nat)
    requires |names| == |blobs| && i < |names| && |front| % 4 == 0
    ensures var (recs, body) := Place(names, blobs, |front|); var r := recs[i]; var bs := front + body;
      r.tag == names[i] && r.checkSum == TableChecksum(blobs[i]) && r.length == |blobs[i]| &&
      r.offset % 4 == 0 && |front| <= r.offset &&
      r.offset + r.length <= |bs| && bs[r.offset..r.offset + r.length] == blobs[i]
  {
    var base := |front|;
    var (recs, body) := Place(names, blobs, base);
    PlaceRecords(names, blobs, base);
    PlaceAligned(names, blobs, base, i);
    PlaceBody(names, blobs, base, i);
    SliceAfter(front, body, recs[i].offset - base, recs[i].length);
  }

  lemma SliceWithin<T>(a: seq<T>, b: seq<T>, x: nat, y: nat)
    requires x <= y <= |a|
    ensures (a + b)[x..y] == a[x..y]
  {
  }

  /** The directory read back from the draft: `numTables` records, record
      `k` being the `k`-th packed record of `table_hdrs`, in ascending order
      of tag. */
  lemma {:induction false} DraftDirectory(names: seq<Tag>, blobs: seq<seq<byte>>, d: Draft)
    requires LaidOut(names, blobs, d)
    requires SortedBy(d.hdrs, HdrKey)
    ensures Directory(d.Bytes()).Ok?
    ensures var recs := Directory(d.Bytes()).value;
      |recs| == |names| &&
      (forall k :: 0 <= k < |recs| ==> RecordAt(d.hdrs[k].1, 0) == Ok(recs[k])) &&
      (forall k, l :: 0 <= k < l < |recs| ==> recs[k].tag <= recs[l].tag)
  {
    var bs := d.Bytes();
    var n := |names|;
    DraftShape(names, blobs, d);
    Front(names, blobs, d);
    var dir := Flatten(Records(d.hdrs));
    var recs := Directory(bs).value;
    forall k | 0 <= k < n
      ensures RecordAt(d.hdrs[k].1, 0) == Ok(recs[k])
    {
      RecordBlock(d, k);
    }
    forall k, l | 0 <= k < l < n
      ensures recs[k].tag <= recs[l].tag
    {
      var a, b := d.hdrs[k].1, d.hdrs[l].1;
      TagFirst(a, b);
      assert RecordAt(a, 0).value.tag == BeDecode(a[0..4]);
      assert RecordAt(b, 0).value.tag == BeDecode(b[0..4]);
    }
  }

  /** Record `k` of the draft is the `k`-th packed record. */
  lemma {:induction false} RecordBlock(d: Draft, k: nat)
    requires |d.header| == 12 && k < |d.hdrs|
    requires forall i :: 0 <= i < |d.hdrs| ==> |d.hdrs[i].1| == 16
    ensures 12 + 16 * k + 16 <= |d.Bytes()|
    ensures RecordAt(d.Bytes(), 12 + 16 * k) == RecordAt(d.hdrs[k].1, 0)
  {
    var rs := Records(d.hdrs);
    var dir := Flatten(rs);
    FlattenBlock(rs, k);
    var bs := d.Bytes();
    assert bs == d.header + (dir + d.body);
    SliceAfter(d.header, dir + d.body, 16 * k, 16);
    SliceWithin(dir, d.body, 16 * k, 16 * k + 16);
    RecordAtSlice(bs, 12 + 16 * k);
  }

  /** The record a directory entry packs; entries that are too short do
      not occur in a draft. */
  function Unpack(p: (Tag, seq<byte>)): TableRecord
  {
    if |p.1| >= 16 then RecordAt(p.1, 0).value else TableRecord(p.0, 0, 0, 0)
  }

  // ---------------------------------------------------------------------------
  // What `save` writes.

  /** What assembling a font establishes about its draft. */
  lemma {:induction false} Assembled(f: Font, d: Draft)
    requires ValidFont(f) && Assemble(f) == Ok(d)
    ensures |d.blobs| == |f.tables| >= 1 && PackAll(f.tables) == Ok(d.blobs)
    ensures Lay(TableNames(f.tables), d.blobs) == Ok(d)
    ensures LaidOut(TableNames(f.tables), d.blobs, d)
  {
    LayLaidOut(TableNames(f.tables), d.blobs);
  }

  /** The entries of the draft's directory are the packed records of its
      tables, sorted. */
  lemma {:induction false} AssembledSorted(f: Font, d: Draft)
    requires ValidFont(f) && Assemble(f) == Ok(d)
    ensures PackRecords(d.recs).Ok?
    ensures var packed := PackRecords(d.recs).value;
      |packed| == |d.recs| && multiset(d.hdrs) == multiset(packed) && SortedBy(d.hdrs, HdrKey) &&
      forall i :: 0 <= i < |d.recs| ==> RecordAt(packed[i].1, 0) == Ok(d.recs[i])
  {
    LaySorts(TableNames(f.tables), d.blobs);
  }

  /** The directory read back from a laid-out draft whose entries are the
      sorted packed records is a rearrangement of the laid-out records. */
  lemma {:induction false} DraftRecords(names: seq<Tag>, blobs: seq<seq<byte>>, d: Draft, packed: seq<(Tag, seq<byte>)>)
    requires LaidOut(names, blobs, d)
    requires |packed| == |d.recs| && multiset(d.hdrs) == multiset(packed) && SortedBy(d.hdrs, HdrKey)
    requires forall i :: 0 <= i < |d.recs| ==> RecordAt(packed[i].1, 0) == Ok(d.recs[i])
    ensures Directory(d.Bytes()).Ok?
    ensures var recs := Directory(d.Bytes()).value;
      |recs| == |d.recs| == |names| &&
      (forall k, l :: 0 <= k < l < |recs| ==> recs[k].tag <= recs[l].tag) &&
      multiset(recs) == multiset(d.recs)
  {
    DraftDirectory(names, blobs, d);
    var read := Directory(d.Bytes()).value;
    SameImage(d.hdrs, packed, read, d.recs, Unpack);
  }

  /** The directory of a saved font, read back before the checksum patch:
      one record per table, in ascending tag order, and the records read
      back are a rearrangement of the records the tables were laid out
      with. */
  lemma {:induction false} SavedDirectory(f: Font, d: Draft)
    requires ValidFont(f) && Assemble(f) == Ok(d)
    ensures Directory(d.Bytes()).Ok?
    ensures var recs := Directory(d.Bytes()).value;
      |recs| == |d.recs| == |f.tables| &&
      (forall k, l :: 0 <= k < l < |recs| ==> recs[k].tag <= recs[l].tag) &&
      multiset(recs) == multiset(d.recs)
  {
    Assembled(f, d);
    AssembledSorted(f, d);
    DraftRecords(TableNames(f.tables), d.blobs, d, PackRecords(d.recs).value);
  }

  /** Table `i` of a saved font, before the checksum patch: its packed
      bytes sit, four-byte aligned, at the offset of a record carrying its
      tag, checksum and unpadded length. */
  lemma {:induction false} SavedTable(f: Font, d: Draft, i: nat)
    requires ValidFont(f) && Assemble(f) == Ok(d) && i < |f.tables|
    ensures |d.recs| == |d.blobs| == |f.tables|
    ensures var bs := d.Bytes(); var r := d.recs[i];
      PackTable(f.tables[i]) == Ok(d.blobs[i]) &&
      r.tag == f.tables[i].name && r.checkSum == TableChecksum(d.blobs[i]) && r.length == |d.blobs[i]| &&
      r.offset % 4 == 0 && 12 + 16 * |f.tables| <= r.offset &&
      r.offset + r.length <= |bs| && bs[r.offset..r.offset + r.length] == d.blobs[i]
  {
    Assembled(f, d);
    DraftTable(TableNames(f.tables), d.blobs, d, i);
  }

  // ---------------------------------------------------------------------------
  // The whole-file checksum.

  /** Patching the draft's head: the result is as long as the draft and
      differs from it only in the adjustment word, which was zero. */
  lemma {:induction false} HeadPatch(draft: seq<byte>, at: nat, values: seq<int>)
    requires HeadAt(draft, at, values)
    ensures var q, k := Patch(draft, at, values), at + Head.AdjustmentOffset;
      |q| == |draft| && q[..k] == draft[..k] && q[k + 4..] == draft[k + 4..] &&
      BeDecode(draft[k..k + 4]) == 0 &&
      BeDecode(q[k..k + 4]) == Adjustment(TableChecksum(draft))
    ensures SameOutside(Patch(draft, at, values), draft, at + Head.AdjustmentOffset)
  {
    var adj := Adjustment(TableChecksum(draft));
    Head.OnlyAdjustmentDiffers(values, 0, adj);
    var x, hb := Head.PackHead(values, 0).value, Head.PackHead(values, adj).value;
    Splice(draft, at, x, hb);
    SlicesOutside(Patch(draft, at, values), draft, at + Head.AdjustmentOffset);
  }

  /** The draft holds, from byte `at` on, the head record with these
      values and a zero adjustment. */
  predicate HeadAt(draft: seq<byte>, at: nat, values: seq<int>)
  {
    AllFit(Formats(Head.HeadSchema), values) && |values| == |Head.HeadSchema| &&
    at + Head.HeadSize <= |draft| && Head.PackHead(values, 0) == Ok(draft[at..at + Head.HeadSize])
  }

  /** Writing `hb` over the equally long `x` found at `at` changes only
      bytes 8 to 12 of it. */
  lemma {:induction false} Splice(draft: seq<byte>, at: nat, x: seq<byte>, hb: seq<byte>)
    requires |x| == |hb| == 54 && at + 54 <= |draft| && draft[at..at + 54] == x
    requires x[..8] == hb[..8] && x[12..] == hb[12..]
    ensures var q, k := Slice(draft, 0, at) + hb + Drop(draft, at + |hb|), at + 8;
      |q| == |draft| && q[..k] == draft[..k] && q[k + 4..] == draft[k + 4..] &&
      draft[k..k + 4] == x[8..12] && q[k..k + 4] == hb[8..12]
  {
    var p, r := draft[..at], draft[at + 54..];
    assert Slice(draft, 0, at) + hb + Drop(draft, at + |hb|) == p + hb + r;
    assert draft == p + x + r;
    Pieces(p, hb, r, 8, 12);
    Pieces(p, x, r, 8, 12);
  }

  /** Slicing `p + h + r` at two points inside `h`. */
  lemma Pieces<T>(p: seq<T>, h: seq<T>, r: seq<T>, lo: nat, hi: nat)
    requires lo <= hi <= |h|
    ensures (p + h + r)[..|p| + lo] == p + h[..lo]
    ensures (p + h + r)[|p| + lo..|p| + hi] == h[lo..hi]
    ensures (p + h + r)[|p| + hi..] == h[hi..] + r
  {
    var s := p + h + r;
    assert s[..|p| + lo] == p + h[..lo];
    assert s[|p| + hi..] == h[hi..] + r;
  }

  /** Writing `v` over a zero word at an aligned position adds `v` to the
      checksum. */
  lemma {:induction false} WordPatch(a: seq<byte>, b: seq<byte>, k: nat, v: nat)
    requires k % 4 == 0 && k + 4 <= |a| == |b| && v < Modulus
    requires a[..k] == b[..k] && a[k + 4..] == b[k + 4..]
    requires BeDecode(a[k..k + 4]) == 0 && BeDecode(b[k..k + 4]) == v
    ensures TableChecksum(b) == (TableChecksum(a) + v) % Modulus
  {
    PatchedSum(a, b, k, v);
    ChecksumOfSum(a, WordSum(a));
    ChecksumOfSum(b, WordSum(b));
    ChecksumStep(TableChecksum(a), TableChecksum(b), WordSum(a), WordSum(b), v);
  }

  /** Replacing an aligned zero word by `v` adds `v` to the word sum. */
  lemma PatchedSum(a: seq<byte>, b: seq<byte>, k: nat, v: nat)
    requires k % 4 == 0 && k + 4 <= |a| == |b| && v < Modulus
    requires a[..k] == b[..k] && a[k + 4..] == b[k + 4..]
    requires BeDecode(a[k..k + 4]) == 0 && BeDecode(b[k..k + 4]) == v
    ensures WordSum(b) == WordSum(a) + v
  {
    var p, s := a[..k], a[k + 4..];
    Around(a, k);
    Around(b, k);
    WordsAround(p, a[k..k + 4], s);
    WordsAround(p, b[k..k + 4], s);
  }

  lemma Around<T>(x: seq<T>, k: nat)
    requires k + 4 <= |x|
    ensures x == x[..k] + x[k..k + 4] + x[k + 4..]
  {
  }

  lemma ChecksumOfSum(b: seq<byte>, n: nat)
    requires WordSum(b) == n
    ensures TableChecksum(b) == n % Modulus
  {
  }

  /** Adding `v` to a sum adds `v` to its checksum, modulo 2^32. */
  lemma ChecksumStep(ta: nat, tb: nat, sa: nat, sb: nat, v: nat)
    requires ta == sa % Modulus && tb == sb % Modulus && sb == sa + v && v < Modulus
    ensures tb == (ta + v) % Modulus
  {
    ModAdd(sa, v);
  }

  /** The sum of a byte string split around an aligned word. */
  lemma {:induction false} WordsAround(p: seq<byte>, w: seq<byte>, s: seq<byte>)
    requires |p| % 4 == 0 && |w| == 4
    ensures WordSum(p + w + s) == WordSum(p) + BeDecode(w) + WordSum(s)
  {
    assert p + w + s == p + (w + s);
    WordSumAppend(p, w + s);
    WordSumAppend(w, s);
    WordSumOfWord(w);
    assert w[0..4] == w;
  }

  /** Patching an aligned head record that was packed with a zero
      adjustment brings the file's checksum to the magic value. */
  lemma {:induction false} PatchChecksum(draft: seq<byte>, at: nat, values: seq<int>)
    requires HeadAt(draft, at, values) && at % 4 == 0
    ensures TableChecksum(Patch(draft, at, values)) == Magic
  {
    HeadPatch(draft, at, values);
    AdjustedWord(draft, Patch(draft, at, values), at);
  }

  /** Writing the adjustment for `draft` over the zero adjustment word of
      an aligned head record gives the magic sum. */
  lemma {:induction false} AdjustedWord(draft: seq<byte>, q: seq<byte>, at: nat)
    requires at % 4 == 0 && at + Head.HeadSize <= |draft|
    requires var k := at + Head.AdjustmentOffset;
      |q| == |draft| && q[..k] == draft[..k] && q[k + 4..] == draft[k + 4..] &&
      BeDecode(draft[k..k + 4]) == 0 &&
      BeDecode(q[k..k + 4]) == Adjustment(TableChecksum(draft))
    ensures TableChecksum(q) == Magic
  {
    var full := TableChecksum(draft);
    var adj := Adjustment(full);
    AdjustmentAligned(at);
    WordPatch(draft, q, at + 8, adj);
    Adjusted(TableChecksum(q), full);
  }

  lemma Adjusted(c: nat, full: nat)
    requires full < Modulus && c == (full + Adjustment(full)) % Modulus
    ensures c == Magic
  {
  }

  lemma AdjustmentAligned(at: nat)
    requires at % 4 == 0
    ensures (at + Head.AdjustmentOffset) % 4 == 0
  {
  }

  // ---------------------------------------------------------------------------
  // `save` as a whole.

  /** `save` fails exactly as assembling the draft fails, or, for a font
      without a head, where `self._head.pack` has no head to pack;
      otherwise it is the draft with the first head patched in at the
      offset of the last head. */
  lemma {:induction false} SaveSpec(f: Font)
    requires ValidFont(f)
    ensures |f.tables| == 0 ==> Save(f) == Fail(NoTables)
    ensures Assemble(f).Fail? ==> Save(f) == Fail(Assemble(f).error)
    ensures Assemble(f).Ok? && FirstWhere(f.tables, IsHead).None? ==> Save(f) == Fail(MissingTable)
    ensures Save(f).Ok? <==> Assemble(f).Ok? && FirstWhere(f.tables, IsHead).Some?
    ensures Save(f).Ok? ==> LastWhere(f.tables, IsHead).Some?
    ensures Save(f).Ok? ==>
      var d, h, last := Assemble(f).value, FirstWhere(f.tables, IsHead).value, LastWhere(f.tables, IsHead).value;
      |d.recs| == |f.tables| &&
      Save(f).value == Patch(d.Bytes(), d.recs[last].offset, HeadValues(f, h))
  {
  }

  /** Every table named `head` packs to the same bytes, as when there is
      only one. */
  predicate HeadsAgree(f: Font)
    requires ValidFont(f)
  {
    forall i, j :: 0 <= i < |f.tables| && 0 <= j < |f.tables| && IsHead(f.tables[i]) && IsHead(f.tables[j]) ==>
      PackTable(f.tables[i]) == PackTable(f.tables[j])
  }

  /** The first head packs to its record with a zero adjustment. */
  lemma {:induction false} FirstHeadPacks(f: Font, h: nat)
    requires ValidFont(f) && FirstWhere(f.tables, IsHead) == Some(h)
    ensures |HeadValues(f, h)| == |Head.HeadSchema|
    ensures PackTable(f.tables[h]) == Head.PackHead(HeadValues(f, h), 0)
    ensures Head.PackHead(HeadValues(f, h), 0).Ok? && |Head.PackHead(HeadValues(f, h), 0).value| == Head.HeadSize
  {
    Head.PackHeadOk(HeadValues(f, h), 0);
  }

  /** The last head packs to the same bytes as the first: the draft holds
      the first head's record, with a zero adjustment, as the last head's
      table. */
  lemma {:induction false} HeadBlob(f: Font, d: Draft, h: nat, last: nat)
    requires ValidFont(f) && Assemble(f) == Ok(d)
    requires FirstWhere(f.tables, IsHead) == Some(h) && LastWhere(f.tables, IsHead) == Some(last)
    requires PackTable(f.tables[last]) == PackTable(f.tables[h])
    ensures |HeadValues(f, h)| == |Head.HeadSchema| && |d.blobs| == |f.tables|
    ensures Head.PackHead(HeadValues(f, h), 0) == Ok(d.blobs[last]) && |d.blobs[last]| == Head.HeadSize
  {
    SavedTable(f, d, last);
    FirstHeadPacks(f, h);
  }

  /** `r` is `draft` with at most the word at `k` changed. */
  predicate SameOutside(r: seq<byte>, draft: seq<byte>, k: nat)
  {
    |r| == |draft| && k + 4 <= |draft| &&
    forall i :: 0 <= i < |r| && (i < k || k + 4 <= i) ==> r[i] == draft[i]
  }

  /** The bytes a patch leaves alone and the checksum it reaches. */
  lemma {:induction false} PatchedDraft(draft: seq<byte>, at: nat, values: seq<int>, front: nat)
    requires HeadAt(draft, at, values) && at % 4 == 0 && front <= at
    ensures var r, k := Patch(draft, at, values), at + Head.AdjustmentOffset;
      front <= k && SameOutside(r, draft, k) && TableChecksum(r) == Magic
  {
    HeadPatch(draft, at, values);
    PatchChecksum(draft, at, values);
  }

  lemma SlicesOutside(r: seq<byte>, draft: seq<byte>, k: nat)
    requires |r| == |draft| && k + 4 <= |draft| && r[..k] == draft[..k] && r[k + 4..] == draft[k + 4..]
    ensures SameOutside(r, draft, k)
  {
    forall i | 0 <= i < |r| && (i < k || k + 4 <= i)
      ensures r[i] == draft[i]
    {
      if i < k {
        assert r[i] == r[..k][i];
      } else {
        assert r[i] == r[k + 4..][i - k - 4];
      }
    }
  }

  /** Where the draft of a font whose last head packs like its first
      holds the first head's record. */
  lemma {:induction false} PlacedHead(f: Font, d: Draft, h: nat, last: nat)
    requires ValidFont(f) && Assemble(f) == Ok(d)
    requires FirstWhere(f.tables, IsHead) == Some(h) && LastWhere(f.tables, IsHead) == Some(last)
    requires PackTable(f.tables[last]) == PackTable(f.tables[h])
    ensures |d.recs| == |f.tables|
    ensures var at := d.recs[last].offset;
      HeadAt(d.Bytes(), at, HeadValues(f, h)) && at % 4 == 0 && 12 + 16 * |f.tables| <= at
  {
    HeadBlob(f, d, h, last);
    SavedTable(f, d, last);
    PlacedBlob(d, last, HeadValues(f, h), 12 + 16 * |f.tables|);
  }

  /** A table whose bytes are a head record, at an aligned offset. */
  lemma {:induction false} PlacedBlob(d: Draft, i: nat, values: seq<int>, front: nat)
    requires i < |d.recs| && i < |d.blobs|
    requires AllFit(Formats(Head.HeadSchema), values) && |values| == |Head.HeadSchema|
    requires var bs, r := d.Bytes(), d.recs[i];
      r.length == |d.blobs[i]| && r.offset % 4 == 0 && front <= r.offset &&
      r.offset + r.length <= |bs| && bs[r.offset..r.offset + r.length] == d.blobs[i]
    requires Head.PackHead(values, 0) == Ok(d.blobs[i]) && |d.blobs[i]| == Head.HeadSize
    ensures var at := d.recs[i].offset; HeadAt(d.Bytes(), at, values) && at % 4 == 0 && front <= at
  {
  }


  /** The file `save` writes for a font with a head, whose heads agree,
      and whose tables assemble into the draft `d`: as long as the draft,
      equal to it outside the adjustment word of the last head, and summing
      to the magic value. */
  lemma {:induction false} SaveChecksum(f: Font, d: Draft)
    requires ValidFont(f) && HeadsAgree(f) && Assemble(f) == Ok(d)
    requires FirstWhere(f.tables, IsHead).Some?
    ensures Save(f).Ok? && LastWhere(f.tables, IsHead).Some? && |d.recs| == |f.tables|
    ensures var r, draft := Save(f).value, d.Bytes();
      var k := d.recs[LastWhere(f.tables, IsHead).value].offset + Head.AdjustmentOffset;
      12 + 16 * |f.tables| <= k && SameOutside(r, draft, k) && TableChecksum(r) == Magic
  {
    var h, last := SaveIsPatch(f, d);
    PlacedHead(f, d, h, last);
    PatchedDraft(d.Bytes(), d.recs[last].offset, HeadValues(f, h), 12 + 16 * |f.tables|);
  }

  /** `save` of a font with a head whose tables assemble into `d`: the
      image with the first head's values written at the last head's
      offset. When the heads all pack alike, that offset holds the first
      head's own bytes. */
  lemma {:induction false} SaveIsPatch(f: Font, d: Draft) returns (h: nat, last: nat)
    requires ValidFont(f) && Assemble(f) == Ok(d)
    requires FirstWhere(f.tables, IsHead).Some?
    ensures FirstWhere(f.tables, IsHead) == Some(h) && LastWhere(f.tables, IsHead) == Some(last)
    ensures |d.recs| == |f.tables| && (HeadsAgree(f) ==> PackTable(f.tables[last]) == PackTable(f.tables[h]))
    ensures Save(f) == Ok(Patch(d.Bytes(), d.recs[last].offset, HeadValues(f, h)))
  {
    SaveSpec(f);
    h, last := FirstWhere(f.tables, IsHead).value, LastWhere(f.tables, IsHead).value;
  }
}

=== FILE: gsub.dfy ===
/** The GSUB substitution engine: the subtable procedures of lookup types 1
    (Single Substitution, formats 1 and 2) and 4 (Ligature Substitution,
    format 1), the `_Subber` cursor loop that runs them over a glyph
    sequence, and the script / language-system / feature selection of
    `make_subber`.

    Each procedure of `otf_tools` is a Python closure that mutates the caller's
    glyph list in place and returns nothing; here it is a datatype value
    whose `Apply` returns the new list and an optional new cursor (always
    `None`, as in the Python code). */
module Gsub {
  import opened Wrappers
  import opened Seqs
  import opened Coverage

  /** A four-byte OpenType tag, as its big-endian value. */
  type Tag = int

  /** `'DFLT'`, the script `make_subber` selects by default. */
  const DFLT: Tag := 0x44464C54

  /** One ligature: the glyphs after the first one, and the glyph replacing
      them all. */
  datatype Liga = Liga(components: seq<int>, target: int)

  datatype Procedure =
    | SingleDelta(coverage: Coverage, delta: int)                 // type 1, format 1
    | SingleList(coverage: Coverage, substitutes: seq<int>)       // type 1, format 2
    | Ligature(coverage: Coverage, ligaSets: seq<seq<Liga>>)      // type 4, format 1

  /** What a procedure leaves behind: the glyph list and a new cursor
      position, if it asks for one. */
  datatype Step = Step(gids: seq<int>, next: Option<int>)

  /** `gids[idx+1 : idx+1+len(components)] == components` with Python's
      clamping slice. */
  predicate LigaMatches(l: Liga, gids: seq<int>, idx: nat)
  {
    Slice(gids, idx + 1, idx + 1 + |l.components|) == l.components
  }

  lemma MatchFits(l: Liga, gids: seq<int>, idx: nat)
    requires idx < |gids|
    requires LigaMatches(l, gids, idx)
    ensures idx + 1 + |l.components| <= |gids|
    ensures gids[idx + 1..idx + 1 + |l.components|] == l.components
  {
  }

  /** The first ligature of a set that matches at `idx`. */
  function FirstMatch(ligas: seq<Liga>, gids: seq<int>, idx: nat): (r: Option<Liga>)
    ensures r.Some? ==> r.value in ligas && LigaMatches(r.value, gids, idx)
    ensures r.Some? ==> exists j :: 0 <= j < |ligas| && ligas[j] == r.value &&
                                   (forall i :: 0 <= i < j ==> !LigaMatches(ligas[i], gids, idx))
    ensures r.None? <==> forall j :: 0 <= j < |ligas| ==> !LigaMatches(ligas[j], gids, idx)
  {
    if |ligas| == 0 then None
    else if LigaMatches(ligas[0], gids, idx) then Some(ligas[0])
    else
      var r := FirstMatch(ligas[1..], gids, idx);
      assert forall j :: 1 <= j < |ligas| ==> ligas[j] == ligas[1..][j - 1];
      if r.Some? then
        ghost var j :| 0 <= j < |ligas[1..]| && ligas[1..][j] == r.value &&
          forall i :: 0 <= i < j ==> !LigaMatches(ligas[1..][i], gids, idx);
        assert ligas[j + 1] == r.value;
        r
      else r
  }

  /** The sum modulo 65536 that format 1 single substitution calls for in
      section "Single Substitution Format 1" of the OpenType GSUB table
      specification; `Apply` adds the delta without it. */
  function AddDelta(g: int, delta: int): (r: int)
    ensures 0 <= r < 0x1_0000
    ensures (r - (g + delta)) % 0x1_0000 == 0
  {
    (g + delta) % 0x1_0000
  }

  /** A covered glyph at the top of the id range moves past it, and one
      near the bottom moves below zero, where the wrapped sum would give
      the glyphs 0 and 0xFFFE. */
  lemma DeltaLeavesGlyphRange()
    ensures Apply(SingleDelta(GlyphList([0xFFFF]), 1), [0xFFFF], 0) == Ok(Step([0x1_0000], None))
    ensures AddDelta(0xFFFF, 1) == 0
    ensures Apply(SingleDelta(GlyphList([3]), -5), [3], 0) == Ok(Step([-2], None))
    ensures AddDelta(3, -5) == 0xFFFE
  {
    assert Lookup(GlyphList([0xFFFF]), [0xFFFF], 0) == Some(0);
    assert Lookup(GlyphList([3]), [3], 0) == Some(0);
    assert [0xFFFF][0 := 0x1_0000] == [0x1_0000];
    assert [3][0 := -2] == [-2];
  }

  /** The unwrapped and the wrapped sum agree whenever the unwrapped one is
      a glyph id. */
  lemma AddDeltaAgrees(g: int, delta: int)
    requires 0 <= g + delta < 0x1_0000
    ensures AddDelta(g, delta) == g + delta
  {
  }

  /** One call of a procedure at cursor `idx` (`sub1`, `sub2`, `sub_liga`).
      An uncovered glyph leaves the list alone; a coverage index past the
      end of the substitute list or the ligature-set list raises. */
  function Apply(p: Procedure, gids: seq<int>, idx: nat): (r: Result<Step>)
    requires idx < |gids|
    ensures r.Ok? ==> r.value.next.None?
    ensures r.Ok? ==> idx < |r.value.gids| <= |gids|
    ensures r.Ok? ==> r.value.gids[..idx] == gids[..idx]
    ensures r.Fail? ==> r.error == IndexOutOfRange && !p.SingleDelta?
    ensures r.Ok? && !p.Ligature? ==> |r.value.gids| == |gids|
  {
    match p
    case SingleDelta(cov, delta) =>
      if Lookup(cov, gids, idx).Some? then Ok(Step(gids[idx := gids[idx] + delta], None))
      else Ok(Step(gids, None))
    case SingleList(cov, substitutes) =>
      var k := Lookup(cov, gids, idx);
      if k.None? then Ok(Step(gids, None))
      else if PyIndex(substitutes, k.value).None? then Fail(IndexOutOfRange)
      else Ok(Step(gids[idx := PyIndex(substitutes, k.value).value], None))
    case Ligature(cov, ligaSets) =>
      var k := Lookup(cov, gids, idx);
      if k.None? then Ok(Step(gids, None))
      else if PyIndex(ligaSets, k.value).None? then Fail(IndexOutOfRange)
      else
        var m := FirstMatch(PyIndex(ligaSets, k.value).value, gids, idx);
        if m.None? then Ok(Step(gids, None))
        else Ok(Step(Ligate(gids, idx, m.value), None))
  }

  /** `gids[idx : idx+1+len(components)] = [ligature_glyph]`: the glyph at
      the cursor and the components after it become the ligature's target. */
  function Ligate(gids: seq<int>, idx: nat, l: Liga): (r: seq<int>)
    requires idx < |gids| && LigaMatches(l, gids, idx)
    ensures |r| == |gids| - |l.components| && idx < |r|
    ensures r[..idx] == gids[..idx] && r[idx] == l.target
    ensures r[idx + 1..] == gids[idx + 1 + |l.components|..]
  {
    MatchFits(l, gids, idx);
    var r := gids[..idx] + [l.target] + gids[idx + 1 + |l.components|..];
    assert r[idx + 1..] == gids[idx + 1 + |l.components|..];
    r
  }

  /** Format 1 single substitution adds the signed delta to a covered glyph,
      with no wrap-around, and touches no other position. */
  lemma SingleDeltaEffect(cov: Coverage, delta: int, gids: seq<int>, idx: nat)
    requires idx < |gids|
    ensures Apply(SingleDelta(cov, delta), gids, idx).Ok?
    ensures var g := Apply(SingleDelta(cov, delta), gids, idx).value.gids;
      |g| == |gids| &&
      (forall k :: 0 <= k < |gids| && k != idx ==> g[k] == gids[k]) &&
      g[idx] == (if CoverageIndex(cov, gids[idx]).Some? then gids[idx] + delta else gids[idx])
  {
  }

  /** Format 2 single substitution replaces a covered glyph by the
      substitute at its coverage index (Python indexing), and raises when
      there is none. */
  lemma SingleListEffect(cov: Coverage, substitutes: seq<int>, gids: seq<int>, idx: nat)
    requires idx < |gids|
    ensures CoverageIndex(cov, gids[idx]).None? ==>
      Apply(SingleList(cov, substitutes), gids, idx) == Ok(Step(gids, None))
    ensures CoverageIndex(cov, gids[idx]).Some? ==>
      var k := CoverageIndex(cov, gids[idx]).value;
      (Apply(SingleList(cov, substitutes), gids, idx).Fail? <==> !(-|substitutes| <= k < |substitutes|)) &&
      (0 <= k < |substitutes| ==>
        Apply(SingleList(cov, substitutes), gids, idx) == Ok(Step(gids[idx := substitutes[k]], None)))
  {
  }

  /** Ligature substitution leaves an uncovered glyph alone, and raises
      when the coverage index has no ligature set (Python indexing). */
  lemma LigatureUncovered(cov: Coverage, ligaSets: seq<seq<Liga>>, gids: seq<int>, idx: nat)
    requires idx < |gids|
    ensures CoverageIndex(cov, gids[idx]).None? ==>
      Apply(Ligature(cov, ligaSets), gids, idx) == Ok(Step(gids, None))
    ensures CoverageIndex(cov, gids[idx]).Some? ==>
      (Apply(Ligature(cov, ligaSets), gids, idx).Fail? <==>
       !(-|ligaSets| <= CoverageIndex(cov, gids[idx]).value < |ligaSets|))
  {
  }

  /** When no ligature of the covered glyph's set matches, the list is
      unchanged. */
  lemma LigatureNoMatch(cov: Coverage, ligaSets: seq<seq<Liga>>, gids: seq<int>, idx: nat, k: nat)
    requires idx < |gids| && CoverageIndex(cov, gids[idx]) == Some(k) && k < |ligaSets|
    requires forall j :: 0 <= j < |ligaSets[k]| ==> !LigaMatches(ligaSets[k][j], gids, idx)
    ensures Apply(Ligature(cov, ligaSets), gids, idx) == Ok(Step(gids, None))
  {
  }

  /** The first ligature of the covered glyph's set whose components follow
      the cursor replaces the glyph and its components by its target, so
      the list shrinks by the number of components. */
  lemma LigatureMatch(cov: Coverage, ligaSets: seq<seq<Liga>>, gids: seq<int>, idx: nat, k: nat, j: nat)
    requires idx < |gids| && CoverageIndex(cov, gids[idx]) == Some(k) && k < |ligaSets|
    requires j < |ligaSets[k]| && FirstMatching(ligaSets[k], gids, idx, j)
    ensures LigaMatches(ligaSets[k][j], gids, idx)
    ensures Apply(Ligature(cov, ligaSets), gids, idx) == Ok(Step(Ligate(gids, idx, ligaSets[k][j]), None))
  {
    FirstMatchIsFirst(ligaSets[k], gids, idx, j);
    assert Lookup(cov, gids, idx) == Some(k);
    assert PyIndex(ligaSets, k) == Some(ligaSets[k]);
  }

  /** Ligature `j` is the first of its set that matches at `idx`. */
  ghost predicate FirstMatching(ligas: seq<Liga>, gids: seq<int>, idx: nat, j: nat)
    requires j < |ligas|
  {
    LigaMatches(ligas[j], gids, idx) && forall i :: 0 <= i < j ==> !LigaMatches(ligas[i], gids, idx)
  }

  lemma FirstMatchIsFirst(ligas: seq<Liga>, gids: seq<int>, idx: nat, j: nat)
    requires j < |ligas| && FirstMatching(ligas, gids, idx, j)
    ensures FirstMatch(ligas, gids, idx) == Some(ligas[j])
  {
    var m := FirstMatch(ligas, gids, idx);
    var j' :| 0 <= j' < |ligas| && ligas[j'] == m.value &&
      forall i :: 0 <= i < j' ==> !LigaMatches(ligas[i], gids, idx);
    assert j' == j;
  }

  // ---------------------------------------------------------------------------
  // The `_Subber` loop.

  /** Every procedure, in order, at one cursor position, each seeing the
      list as the previous one left it. */
  function ApplyAll(procs: seq<Procedure>, gids: seq<int>, idx: nat): (r: Result<seq<int>>)
    requires idx < |gids|
    ensures r.Ok? ==> idx < |r.value| <= |gids|
    ensures r.Ok? ==> r.value[..idx] == gids[..idx]
    decreases |procs|
  {
    if |procs| == 0 then Ok(gids)
    else
      var st :- Apply(procs[0], gids, idx);
      var r := ApplyAll(procs[1..], st.gids, idx);
      assert r.Ok? ==> r.value[..idx] == st.gids[..idx];
      r
  }

  /** The cursor loop from position `i` on: the cursor moves by exactly
      one after all procedures ran, and the loop ends at the (possibly
      shrunk) end of the list. */
  function SubFrom(procs: seq<Procedure>, gids: seq<int>, i: nat): (r: Result<seq<int>>)
    ensures r.Ok? ==> |r.value| <= |gids|
    decreases |gids| - i
  {
    if i >= |gids| then Ok(gids)
    else
      var g :- ApplyAll(procs, gids, i);
      SubFrom(procs, g, i + 1)
  }

  /** `_Subber.sub`: the input is copied, so the caller's list is never
      touched (immutable here by construction). */
  function Substitute(procs: seq<Procedure>, gids: seq<int>): Result<seq<int>>
  {
    SubFrom(procs, gids, 0)
  }

  /** The `while` loop of `_Subber.sub`, run as written. */
  method Sub(procs: seq<Procedure>, input: seq<int>) returns (r: Result<seq<int>>)
    ensures r == Substitute(procs, input)
  {
    var gids := input;
    var i: nat := 0;
    while i < |gids|
      invariant SubFrom(procs, gids, i) == Substitute(procs, input)
      decreases |gids| - i
    {
      var k := 0;
      var cur := gids;
      while k < |procs|
        invariant 0 <= k <= |procs|
        invariant i < |cur|
        invariant ApplyAll(procs, gids, i) == ApplyAll(procs[k..], cur, i)
        decreases |procs| - k
      {
        var st := Apply(procs[k], cur, i);
        assert procs[k..][1..] == procs[k + 1..];
        if st.Fail? {
          return Fail(st.error);
        }
        cur := st.value.gids;
        k := k + 1;
      }
      assert procs[k..] == [];
      gids := cur;
      i := i + 1;
    }
    r := Ok(gids);
  }

  /** Running the procedures of `a + b` at one position is running those of
      `a`, then those of `b`: every procedure is called, not only the first
      that applies. */
  lemma {:induction false} ApplyAllAppend(a: seq<Procedure>, b: seq<Procedure>, gids: seq<int>, idx: nat)
    requires idx < |gids|
    ensures ApplyAll(a + b, gids, idx) ==
      (match ApplyAll(a, gids, idx)
       case Fail(e) => Fail(e)
       case Ok(g) => ApplyAll(b, g, idx))
    decreases |a|
  {
    if |a| == 0 {
      assert a + b == b;
    } else {
      assert (a + b)[0] == a[0];
      assert (a + b)[1..] == a[1..] + b;
      match Apply(a[0], gids, idx)
      case Fail(_) =>
      case Ok(st) => ApplyAllAppend(a[1..], b, st.gids, idx);
    }
  }

  /** With no active lookups the output equals the input. */
  lemma NoProceduresIsIdentity(gids: seq<int>)
    ensures Substitute([], gids) == Ok(gids)
  {
    NoProceduresFrom(gids, 0);
  }

  lemma {:induction false} NoProceduresFrom(gids: seq<int>, i: nat)
    ensures SubFrom([], gids, i) == Ok(gids)
    decreases |gids| - i
  {
    if i < |gids| {
      NoProceduresFrom(gids, i + 1);
    }
  }

  /** The coverage table a procedure tests. */
  function CoverageOf(p: Procedure): Coverage
  {
    match p
    case SingleDelta(cov, _) => cov
    case SingleList(cov, _) => cov
    case Ligature(cov, _) => cov
  }

  /** No procedure covers any glyph of the list. */
  ghost predicate Untouched(procs: seq<Procedure>, gids: seq<int>)
  {
    forall j, k :: 0 <= j < |procs| && 0 <= k < |gids| ==> CoverageIndex(CoverageOf(procs[j]), gids[k]).None?
  }

  /** When no active procedure covers any glyph of the list, substitution
      returns the list unchanged. */
  lemma UncoveredIsIdentity(procs: seq<Procedure>, gids: seq<int>)
    requires Untouched(procs, gids)
    ensures Substitute(procs, gids) == Ok(gids)
  {
    UncoveredFrom(procs, gids, 0);
  }

  lemma {:induction false} UncoveredFrom(procs: seq<Procedure>, gids: seq<int>, i: nat)
    requires Untouched(procs, gids)
    ensures SubFrom(procs, gids, i) == Ok(gids)
    decreases |gids| - i
  {
    if i < |gids| {
      UncoveredAt(procs, gids, i);
      UncoveredFrom(procs, gids, i + 1);
    }
  }

  lemma {:induction false} UncoveredAt(procs: seq<Procedure>, gids: seq<int>, i: nat)
    requires i < |gids|
    requires Untouched(procs, gids)
    ensures ApplyAll(procs, gids, i) == Ok(gids)
    decreases |procs|
  {
    if |procs| > 0 {
      assert CoverageIndex(CoverageOf(procs[0]), gids[i]).None?;
      assert Apply(procs[0], gids, i) == Ok(Step(gids, None));
      assert Untouched(procs[1..], gids) by {
        forall j, k | 0 <= j < |procs[1..]| && 0 <= k < |gids|
          ensures CoverageIndex(CoverageOf(procs[1..][j]), gids[k]).None?
        {
          assert procs[1..][j] == procs[j + 1];
        }
      }
      UncoveredAt(procs[1..], gids, i);
    }
  }

  /** Single substitutions only: the output has the input's length. */
  ghost predicate SinglesOnly(procs: seq<Procedure>)
  {
    forall j :: 0 <= j < |procs| ==> !procs[j].Ligature?
  }

  lemma SinglesKeepLength(procs: seq<Procedure>, gids: seq<int>)
    requires SinglesOnly(procs)
    ensures Substitute(procs, gids).Ok? ==> |Substitute(procs, gids).value| == |gids|
  {
    SinglesKeepLengthFrom(procs, gids, 0);
  }

  lemma {:induction false} SinglesKeepLengthFrom(procs: seq<Procedure>, gids: seq<int>, i: nat)
    requires SinglesOnly(procs)
    ensures SubFrom(procs, gids, i).Ok? ==> |SubFrom(procs, gids, i).value| == |gids|
    decreases |gids| - i
  {
    if i < |gids| {
      SinglesKeepLengthAt(procs, gids, i);
      match ApplyAll(procs, gids, i)
      case Fail(_) =>
      case Ok(g) => SinglesKeepLengthFrom(procs, g, i + 1);
    }
  }

  lemma {:induction false} SinglesKeepLengthAt(procs: seq<Procedure>, gids: seq<int>, i: nat)
    requires i < |gids|
    requires SinglesOnly(procs)
    ensures ApplyAll(procs, gids, i).Ok? ==> |ApplyAll(procs, gids, i).value| == |gids|
    decreases |procs|
  {
    if |procs| > 0 {
      assert !procs[0].Ligature?;
      assert SinglesOnly(procs[1..]) by {
        forall j | 0 <= j < |procs[1..]| ensures !procs[1..][j].Ligature? {
          assert procs[1..][j] == procs[j + 1];
        }
      }
      match Apply(procs[0], gids, i)
      case Fail(_) =>
      case Ok(st) => SinglesKeepLengthAt(procs[1..], st.gids, i);
    }
  }

  // ---------------------------------------------------------------------------
  // Scripts, language systems, features and `make_subber`.

  /** A feature with its lookups already resolved into one procedure list. */
  datatype Feature = Feature(tag: Tag, params: int, procs: seq<Procedure>)

  datatype LangSys = LangSys(lookupOrder: int, reqFeatureIndex: int, features: seq<Feature>)

  /** The language systems of a script; the key `None` is the default one. */
  datatype Script = Script(defaultOffset: int, langs: map<Option<Tag>, LangSys>)

  datatype GsubTable = GsubTable(scripts: map<Tag, Script>)

  /** The procedures of the enabled features, in feature order. */
  function EnabledProcs(features: seq<Feature>, enabled: Tag -> bool): seq<Procedure>
  {
    if |features| == 0 then []
    else (if enabled(features[0].tag) then features[0].procs else []) + EnabledProcs(features[1..], enabled)
  }

  /** `make_subber`: look the script up, then the language system (`None`
      for the default one), and chain the procedures of the features that
      `enabled` accepts. */
  function MakeSubber(t: GsubTable, enabled: Tag -> bool, script: Tag, langsys: Option<Tag>): (r: Result<seq<Procedure>>)
    ensures script !in t.scripts ==> r == Fail(UnknownScript)
    ensures script in t.scripts && langsys !in t.scripts[script].langs ==> r == Fail(UnknownLangSys)
    ensures r.Ok? ==> script in t.scripts && langsys in t.scripts[script].langs
    ensures r.Ok? ==>
      var fs := t.scripts[script].langs[langsys].features;
      r.value == Flatten(seq(|fs|, i requires 0 <= i < |fs| => if enabled(fs[i].tag) then fs[i].procs else []))
  {
    if script !in t.scripts then Fail(UnknownScript)
    else if langsys !in t.scripts[script].langs then Fail(UnknownLangSys)
    else
      var fs := t.scripts[script].langs[langsys].features;
      EnabledProcsIsFlatten(fs, enabled);
      Ok(EnabledProcs(fs, enabled))
  }

  lemma {:induction false} EnabledProcsIsFlatten(fs: seq<Feature>, enabled: Tag -> bool)
    ensures EnabledProcs(fs, enabled) ==
      Flatten(seq(|fs|, i requires 0 <= i < |fs| => if enabled(fs[i].tag) then fs[i].procs else []))
  {
    if |fs| > 0 {
      var whole := seq(|fs|, i requires 0 <= i < |fs| => if enabled(fs[i].tag) then fs[i].procs else []);
      var rest := seq(|fs[1..]|, i requires 0 <= i < |fs[1..]| => if enabled(fs[1..][i].tag) then fs[1..][i].procs else []);
      assert whole[1..] == rest;
      EnabledProcsIsFlatten(fs[1..], enabled);
    }
  }

  /** With every feature disabled (as `get_glyphs` asks) the subber has no
      procedures, so it returns its input. */
  lemma NothingEnabled(t: GsubTable, script: Tag, langsys: Option<Tag>, gids: seq<int>)
    requires MakeSubber(t, _ => false, script, langsys).Ok?
    ensures MakeSubber(t, _ => false, script, langsys).value == []
    ensures Substitute(MakeSubber(t, _ => false, script, langsys).value, gids) == Ok(gids)
  {
    var fs := t.scripts[script].langs[langsys].features;
    NothingEnabledIsEmpty(fs);
    NoProceduresIsIdentity(gids);
  }

  lemma {:induction false} NothingEnabledIsEmpty(fs: seq<Feature>)
    ensures EnabledProcs(fs, _ => false) == []
  {
    if |fs| > 0 {
      NothingEnabledIsEmpty(fs[1..]);
    }
  }

  // ---------------------------------------------------------------------------
  // Worked examples.

  /** A ligature A B C -> D applies to [A, B, C] and not to [A, B, X]. */
  lemma LigatureExample()
    ensures Substitute([Ligature(GlyphList([1]), [[Liga([2, 3], 9)]])], [1, 2, 3]) == Ok([9])
    ensures Substitute([Ligature(GlyphList([1]), [[Liga([2, 3], 9)]])], [1, 2, 4]) == Ok([1, 2, 4])
  {
    var p := Ligature(GlyphList([1]), [[Liga([2, 3], 9)]]);
    assert LigaMatches(Liga([2, 3], 9), [1, 2, 3], 0) by {
      assert Slice([1, 2, 3], 1, 3) == [2, 3];
    }
    assert Lookup(GlyphList([1]), [1, 2, 3], 0) == Some(0);
    assert FirstMatch([Liga([2, 3], 9)], [1, 2, 3], 0) == Some(Liga([2, 3], 9));
    assert [1, 2, 3][..0] + [9] + [1, 2, 3][3..] == [9];
    assert Apply(p, [1, 2, 3], 0) == Ok(Step([9], None));
    assert [p][1..] == [];
    assert ApplyAll([p], [1, 2, 3], 0) == Ok([9]);
    assert SubFrom([p], [9], 1) == Ok([9]);

    var x := [1, 2, 4];
    assert !LigaMatches(Liga([2, 3], 9), x, 0) by {
      assert Slice(x, 1, 3) == [2, 4];
    }
    assert ApplyAll([p], x, 0) == Ok(x);
    assert Lookup(GlyphList([1]), x, 1) == None by {
      assert IndexOf([1], 2) == None;
    }
    assert ApplyAll([p], x, 1) == Ok(x);
    assert Lookup(GlyphList([1]), x, 2) == None by {
      assert IndexOf([1], 4) == None;
    }
    assert ApplyAll([p], x, 2) == Ok(x);
    assert SubFrom([p], x, 3) == Ok(x);
  }

  /** A delta of +5 on a covered glyph moves it by five; an uncovered glyph
      is left alone; two procedures at one position both apply. */
  lemma SingleDeltaExample()
    ensures Substitute([SingleDelta(GlyphList([7]), 5)], [7, 8]) == Ok([12, 8])
    ensures Substitute([SingleDelta(GlyphList([7]), 5), SingleDelta(GlyphList([12]), 1)], [7]) == Ok([13])
  {
    var p := SingleDelta(GlyphList([7]), 5);
    assert Lookup(GlyphList([7]), [7, 8], 0) == Some(0);
    assert [7, 8][0 := 12] == [12, 8];
    assert Apply(p, [7, 8], 0) == Ok(Step([12, 8], None));
    assert [p][1..] == [];
    assert ApplyAll([p], [7, 8], 0) == Ok([12, 8]);
    assert Lookup(GlyphList([7]), [12, 8], 1) == None by {
      assert IndexOf([7], 8) == None;
    }
    assert ApplyAll([p], [12, 8], 1) == Ok([12, 8]);
    assert SubFrom([p], [12, 8], 2) == Ok([12, 8]);

    var q := SingleDelta(GlyphList([12]), 1);
    assert Lookup(GlyphList([7]), [7], 0) == Some(0);
    assert Lookup(GlyphList([12]), [12], 0) == Some(0);
    assert [12][0 := 13] == [13];
    assert Apply(q, [12], 0) == Ok(Step([13], None));
    assert [q][1..] == [];
    assert ApplyAll([q], [12], 0) == Ok([13]);
    assert [7][0 := 12] == [12];
    assert Apply(p, [7], 0) == Ok(Step([12], None));
    assert [p, q][1..] == [q];
    assert ApplyAll([p, q], [7], 0) == Ok([13]);
    assert SubFrom([p, q], [13], 1) == Ok([13]);
  }
}

=== FILE: gsub_example.dfy ===
/** A small GSUB table written out byte by byte, loaded through every level
    of the loader, and used for a substitution: one `latn` script whose
    default language system enables one `liga` feature, whose one type 1
    lookup moves glyph 5 by 1. Each level's lemma holds whatever bytes
    follow it, since the parsers read through `blob[offs:]`. */
module GsubExample {
  import opened Wrappers
  import opened Bytes
  import opened Seqs
  import opened Struct2
  import opened Coverage
  import opened Gsub
  import opened GsubParse

  /** Coverage format 1 listing glyph 5. */
  const Cov: seq<byte> := [0, 1, 0, 1, 0, 5]

  /** The coverage table loads as the glyph list `[5]`, whatever follows it. */
  lemma CovLoads(tail: seq<byte>)
    ensures ParseCoverage(Cov + tail) == Ok(GlyphList([5]))
  {
    var b := Cov + tail;
    U16AtBytes(b, 0);
    U16AtBytes(b, 2);
    U16AtBytes(b, 4);
    var r := ParseCoverage(b);
    assert r.Ok? && r.value.GlyphList? && |r.value.glyphs| == 1 && r.value.glyphs[0] == 5;
    assert r.value.glyphs == [5];
  }

  /** Single substitution format 1: coverage at byte 6, delta 1. */
  const Single: seq<byte> := [0, 1, 0, 6, 0, 1] + Cov

  /** The subtable loads as "glyph 5 moves by 1". */
  lemma SingleLoads(tail: seq<byte>)
    ensures ParseSingle(Single + tail) == Ok(SingleDelta(GlyphList([5]), 1))
  {
    var b := Single + tail;
    U16AtBytes(b, 0);
    U16AtBytes(b, 2);
    U16AtBytes(b, 4);
    assert Drop(b, 6) == Cov + tail;
    CovLoads(tail);
  }

  /** A type 1 lookup: flag 0, one subtable at byte 10, mark-filtering word 0. */
  const LookupBlob: seq<byte> := [0, 1, 0, 0, 0, 1, 0, 10, 0, 0] + Single

  /** The lookup loads as its one procedure. */
  lemma LookupLoads(tail: seq<byte>)
    ensures ParseLookup(LookupBlob + tail) == Ok([SingleDelta(GlyphList([5]), 1)])
  {
    LookupHeaderOf(tail);
    LookupBodyOf(tail);
  }

  /** The lookup's header says type 1 with one subtable at byte 10. */
  lemma LookupHeaderOf(tail: seq<byte>)
    ensures ParseLookup(LookupBlob + tail) == LookupBody(1, LookupBlob + tail, [10])
  {
    var b := LookupBlob + tail;
    U16AtBytes(b, 0);
    U16AtBytes(b, 4);
    U16AtBytes(b, 6);
    assert WordsAt(b, 6, 1) == [10];
    LookupHeader(b);
  }

  /** The one subtable at byte 10 is the single substitution. */
  lemma LookupBodyOf(tail: seq<byte>)
    ensures LookupBody(1, LookupBlob + tail, [10]) == Ok([SingleDelta(GlyphList([5]), 1)])
  {
    var b := LookupBlob + tail;
    var p := SingleDelta(GlyphList([5]), 1);
    assert Drop(b, 10) == Single + tail;
    SingleLoads(tail);
    assert ParseSubtable(1, Drop(b, 10)) == Ok(p);
    var r := LookupBody(1, b, [10]);
    assert r.Ok? && |r.value| == 1 && r.value[0] == p;
    assert r.value == [p];
  }

  /** A lookup list holding that lookup at byte 4. */
  const LookupListBlob: seq<byte> := [0, 1, 0, 4] + LookupBlob

  /** The lookup list loads as one lookup with one procedure. */
  lemma LookupListLoads(tail: seq<byte>)
    ensures ParseLookupList(LookupListBlob + tail) == Ok([[SingleDelta(GlyphList([5]), 1)]])
  {
    var b := LookupListBlob + tail;
    var p := SingleDelta(GlyphList([5]), 1);
    U16AtBytes(b, 0);
    U16AtBytes(b, 2);
    assert WordsAt(b, 2, 1) == [4];
    assert Drop(b, 4) == LookupBlob + tail;
    LookupLoads(tail);
    var r := ParseLookupList(b);
    assert r.Ok? && |r.value| == 1 && r.value[0] == [p];
    assert r.value == [[p]];
  }

  /** A feature list with one `liga` record pointing at byte 8, where the
      feature names lookup 0. */
  const FeatureListBlob: seq<byte> := [0, 1, 0x6C, 0x69, 0x67, 0x61, 0, 8, 0, 0, 0, 1, 0, 0]

  /** The feature resolves lookup 0 into its procedures. */
  lemma FeatureLoads(tail: seq<byte>)
    ensures ParseFeature([0, 0, 0, 1, 0, 0] + tail, 0x6C696761, [[SingleDelta(GlyphList([5]), 1)]]) ==
      Ok(Feature(0x6C696761, 0, [SingleDelta(GlyphList([5]), 1)]))
  {
    var fb: seq<byte> := [0, 0, 0, 1, 0, 0] + tail;
    var p := SingleDelta(GlyphList([5]), 1);
    var lookups := [[p]];
    U16AtBytes(fb, 0);
    U16AtBytes(fb, 2);
    U16AtBytes(fb, 4);
    FeatureSpec(fb, 0x6C696761, lookups);
    assert WordsAt(fb, 4, 1) == [0];
    assert Flatten(Selected([0], lookups)) == [p] by {
      assert Selected([0], lookups) == [[p]];
      assert Flatten([[p]]) == [p] + Flatten([]);
    }
  }

  /** The feature list loads as the one `liga` feature. */
  lemma FeatureListLoads(tail: seq<byte>)
    ensures ParseFeatureList(FeatureListBlob + tail, [[SingleDelta(GlyphList([5]), 1)]]) ==
      Ok([Feature(0x6C696761, 0, [SingleDelta(GlyphList([5]), 1)])])
  {
    var b := FeatureListBlob + tail;
    var p := SingleDelta(GlyphList([5]), 1);
    var lookups := [[p]];
    var f := Feature(0x6C696761, 0, [p]);
    U16AtBytes(b, 0);
    U16AtBytes(b, 6);
    U32AtBytes(b, 2);
    var tags := TagList(Cursor(b, 0)).value.0;
    assert tags == [(0x6C696761, 8)];
    assert Drop(b, 8) == [0, 0, 0, 1, 0, 0] + tail;
    FeatureLoads(tail);
    var r := ParseFeatureList(b, lookups);
    assert r.Ok? && |r.value| == 1 && r.value[0] == f;
    assert r.value == [f];
  }

  /** A language system: no lookup order, no required feature (0xFFFF),
      feature index 0. */
  const LangSysBlob: seq<byte> := [0, 0, 0xFF, 0xFF, 0, 1, 0, 0]

  /** The language system selects feature 0. */
  lemma LangSysLoads(tail: seq<byte>, f: Feature)
    ensures ParseLangSys(LangSysBlob + tail, [f]) == Ok(LangSys(0, 0xFFFF, [f]))
  {
    var b := LangSysBlob + tail;
    U16AtBytes(b, 0);
    U16AtBytes(b, 2);
    U16AtBytes(b, 4);
    U16AtBytes(b, 6);
    assert Word(Cursor(b, 6)) == Ok((0, Cursor(b, 8)));
    assert SelectFeatures(Cursor(b, 8), 0, [f]) == Ok([]);
    assert [[f][0]] + [] == [f];
    assert SelectFeatures(Cursor(b, 6), 1, [f]) == Ok([f]);
  }

  /** A script whose default language system is at byte 4 and which lists
      no other language system. */
  const ScriptBlob: seq<byte> := [0, 4, 0, 0] + LangSysBlob

  /** The script maps `None` to its default language system, and nothing else. */
  lemma ScriptLoads(tail: seq<byte>, f: Feature)
    ensures ParseScript(ScriptBlob + tail, [f]) == Ok(Script(4, map[None := LangSys(0, 0xFFFF, [f])]))
  {
    var b := ScriptBlob + tail;
    var ls := LangSys(0, 0xFFFF, [f]);
    U16AtBytes(b, 0);
    U16AtBytes(b, 2);
    assert TagList(Cursor(b, 2)).value.0 == [];
    assert Drop(b, 4) == LangSysBlob + tail;
    LangSysLoads(tail, f);
    assert DefaultLangSys(b, 4, [f]) == Ok(map[None := ls]);
    var base, parsed := LanguagesParts(b, 4, [], [f]);
    assert Languages(b, 4, [], [f]) == Ok(map[None := ls]);
  }

  /** A script list with one `latn` record pointing at byte 8. */
  const ScriptListBlob: seq<byte> := [0, 1, 0x6C, 0x61, 0x74, 0x6E, 0, 8] + ScriptBlob

  /** The tag list of the script list holds the one `latn` record. */
  lemma ScriptListTags(tail: seq<byte>)
    ensures TagList(Cursor(ScriptListBlob + tail, 0)) == Ok(([(0x6C61746E, 8)], Cursor(ScriptListBlob + tail, 8)))
  {
    var b := ScriptListBlob + tail;
    U16AtBytes(b, 0);
    U16AtBytes(b, 6);
    U32AtBytes(b, 2);
    var t := TagList(Cursor(b, 0));
    assert t.Ok? && |t.value.0| == 1 && t.value.0[0] == (0x6C61746E, 8);
    assert t.value.0 == [(0x6C61746E, 8)];
  }

  /** The script list maps `latn` to that script. */
  lemma ScriptListLoads(tail: seq<byte>, f: Feature)
    ensures ParseScriptList(ScriptListBlob + tail, [f]) ==
      Ok(map[0x6C61746E := Script(4, map[None := LangSys(0, 0xFFFF, [f])])])
  {
    var b := ScriptListBlob + tail;
    var sc := Script(4, map[None := LangSys(0, 0xFFFF, [f])]);
    ScriptListTags(tail);
    var tags := [(0x6C61746E, 8)];
    assert Drop(b, 8) == ScriptBlob + tail;
    ScriptLoads(tail, f);
    assert Scripts(b, tags, [f]).Ok?;
    var scripts := ScriptsParts(b, tags, [f]);
    assert scripts == [sc];
    assert ScriptKeys(tags) == [0x6C61746E];
    assert Assign([0x6C61746E], [sc], map[]) == map[0x6C61746E := sc];
  }

  lemma DropPrefix(a: seq<byte>, rest: seq<byte>)
    ensures Drop(a + rest, |a|) == rest
  {
  }

  /** Version 1.0, then the script, feature and lookup list offsets. */
  const GsubHeader: seq<byte> := [0, 1, 0, 0, 0, 10, 0, 30, 0, 44]

  /** The whole table: header, script list at 10, feature list at 30,
      lookup list at 44, 70 bytes in all. */
  const GsubBlob: seq<byte> := GsubHeader + (ScriptListBlob + (FeatureListBlob + LookupListBlob))

  /** A version 1.0 header whose three lists load gives the table of the
      script list. */
  lemma GsubOf(b: seq<byte>, lookups: seq<seq<Procedure>>, features: seq<Feature>, scripts: map<Tag, Script>)
    requires |b| >= 10 && U16At(b, 0) == 1 && U16At(b, 2) == 0
    requires ParseLookupList(Drop(b, U16At(b, 8))) == Ok(lookups)
    requires ParseFeatureList(Drop(b, U16At(b, 6)), lookups) == Ok(features)
    requires ParseScriptList(Drop(b, U16At(b, 4)), features) == Ok(scripts)
    ensures ParseGsub(b) == Ok(GsubTable(scripts))
  {
  }

  lemma HeaderWords(rest: seq<byte>)
    ensures var b := GsubHeader + rest;
      U16At(b, 0) == 1 && U16At(b, 2) == 0 && U16At(b, 4) == 10 && U16At(b, 6) == 30 && U16At(b, 8) == 44
  {
    var b := GsubHeader + rest;
    U16AtBytes(b, 0);
    U16AtBytes(b, 2);
    U16AtBytes(b, 4);
    U16AtBytes(b, 6);
    U16AtBytes(b, 8);
  }

  /** The table loads, and each level of it is what its bytes say. */
  lemma GsubLoads()
    ensures ParseGsub(GsubBlob) == Ok(GsubTable(map[0x6C61746E := Script(4, map[None :=
      LangSys(0, 0xFFFF, [Feature(0x6C696761, 0, [SingleDelta(GlyphList([5]), 1)])])])]))
  {
    var p := SingleDelta(GlyphList([5]), 1);
    var f := Feature(0x6C696761, 0, [p]);
    var fl := FeatureListBlob + LookupListBlob;
    var sl := ScriptListBlob + fl;
    var b := GsubHeader + sl;
    HeaderWords(sl);
    DropPrefix(GsubHeader, sl);
    assert Drop(b, 30) == fl;
    assert Drop(b, 44) == LookupListBlob + [];
    LookupListLoads([]);
    FeatureListLoads(LookupListBlob);
    ScriptListLoads(fl, f);
    GsubOf(b, [[p]], [f], map[0x6C61746E := Script(4, map[None := LangSys(0, 0xFFFF, [f])])]);
  }

  /** `make_subber` on the loaded table: `latn` with the default language
      system gives the `liga` procedures when `liga` is enabled and none
      otherwise; an unknown language system or script raises. */
  lemma SubberFromLoaded(enabled: Tag -> bool)
    ensures var t := GsubTable(map[0x6C61746E := Script(4, map[None :=
      LangSys(0, 0xFFFF, [Feature(0x6C696761, 0, [SingleDelta(GlyphList([5]), 1)])])])]);
      MakeSubber(t, enabled, 0x6C61746E, None) == Ok(if enabled(0x6C696761) then [SingleDelta(GlyphList([5]), 1)] else []) &&
      MakeSubber(t, enabled, 0x6C61746E, Some(0x6C61746E)) == Fail(UnknownLangSys) &&
      MakeSubber(t, enabled, 0x6C696761, None) == Fail(UnknownScript)
  {
    var p := SingleDelta(GlyphList([5]), 1);
    var f := Feature(0x6C696761, 0, [p]);
    assert EnabledProcs([f], enabled) == if enabled(0x6C696761) then [p] else [] by {
      assert [f][1..] == [];
      assert [p] + [] == [p];
    }
  }

  /** The loaded procedure turns glyph 5 into 6 and leaves 7 alone. */
  lemma LoadedSubberApplies()
    ensures Substitute([SingleDelta(GlyphList([5]), 1)], [5, 7]) == Ok([6, 7])
  {
    var p := SingleDelta(GlyphList([5]), 1);
    assert Lookup(GlyphList([5]), [5, 7], 0) == Some(0);
    assert [5, 7][0 := 6] == [6, 7];
    assert Apply(p, [5, 7], 0) == Ok(Step([6, 7], None));
    assert [p][1..] == [];
    assert ApplyAll([p], [5, 7], 0) == Ok([6, 7]);
    assert Lookup(GlyphList([5]), [6, 7], 1) == None by {
      assert IndexOf([5], 7) == None;
    }
    assert ApplyAll([p], [6, 7], 1) == Ok([6, 7]);
    assert SubFrom([p], [6, 7], 2) == Ok([6, 7]);
  }
}

=== FILE: gsub_parse.dfy ===
/** Loading a GSUB table (`OtfGsubTable.__init__`): the lookup list is
    parsed first and each lookup resolved into procedures, then the feature
    list resolves its lookup indices into one procedure list per feature,
    then the script list resolves its language systems' feature indices.

    Every offset in the table is relative to the start of the structure
    holding it, and `blob[offs:]` is Python's clamping slice (`Drop`). */
module GsubParse {
  import opened Wrappers
  import opened Bytes
  import opened Seqs
  import opened Struct2
  import opened Coverage
  import opened Gsub

  /** Runs `f(0)`, ..., `f(n - 1)` in order and collects the results,
      stopping at the first failure, as a Python list comprehension over a
      parser that may raise does. */
  function Each<T>(n: nat, f: nat --> Result<T>): (r: Result<seq<T>>)
    requires forall i :: 0 <= i < n ==> f.requires(i)
    ensures r.Ok? <==> forall i :: 0 <= i < n ==> f(i).Ok?
    ensures r.Ok? ==> |r.value| == n && forall i :: 0 <= i < n ==> f(i) == Ok(r.value[i])
    ensures r.Fail? ==> exists j :: 0 <= j < n && f(j) == Fail(r.error) && forall i :: 0 <= i < j ==> f(i).Ok?
  {
    if n == 0 then Ok([])
    else
      var front :- Each(n - 1, f);
      var last :- f(n - 1);
      Ok(front + [last])
  }

  // ---------------------------------------------------------------------------
  // Tag lists (`load_taglist`).

  /** `count` tag/offset records read one after another; reading stops
      with an error when the bytes run out. */
  function TagRecords(c: Cursor, count: nat): (r: Result<(seq<(nat, nat)>, Cursor)>)
    ensures r.Ok? <==> count == 0 || c.pos + 6 * count <= |c.data|
    ensures r.Fail? ==> r.error == TruncatedInput
    ensures r.Ok? ==> |r.value.0| == count && r.value.1 == Cursor(c.data, c.pos + 6 * count)
    ensures r.Ok? ==> forall k :: 0 <= k < count ==>
      r.value.0[k] == (U32At(c.data, c.pos + 6 * k), U16At(c.data, c.pos + 6 * k + 4))
  {
    if count > 0 && c.pos + 6 * count > |c.data| then Fail(TruncatedInput)
    else Ok((seq(count, k requires 0 <= k < count => TagRecordAt(c.data, c.pos + 6 * k)), Cursor(c.data, c.pos + 6 * count)))
  }

  /** `OTF_tag_offset.pair`: the record at byte `pos`, as `TagOffset`
      reads it. */
  function TagRecordAt(data: seq<byte>, pos: nat): (r: (nat, nat))
    requires pos + 6 <= |data|
    ensures TagOffset(Cursor(data, pos)) == Ok((r, Cursor(data, pos + 6)))
  {
    (U32At(data, pos), U16At(data, pos + 4))
  }

  /** `load_taglist`: a count word, then that many `(tag, offset)` pairs. */
  function TagList(c: Cursor): (r: Result<(seq<(nat, nat)>, Cursor)>)
    ensures r.Ok? <==> c.pos + 2 <= |c.data| && c.pos + 2 + 6 * U16At(c.data, c.pos) <= |c.data|
    ensures r.Fail? ==> r.error == TruncatedInput
    ensures r.Ok? ==> (|r.value.0| == U16At(c.data, c.pos) &&
      r.value.1 == Cursor(c.data, c.pos + 2 + 6 * |r.value.0|) &&
      forall k :: 0 <= k < |r.value.0| ==>
        r.value.0[k] == (U32At(c.data, c.pos + 2 + 6 * k), U16At(c.data, c.pos + 6 + 6 * k)))
  {
    var (n, c1) :- Word(c);
    TagRecords(c1, n)
  }

  // ---------------------------------------------------------------------------
  // Lookup subtables.

  /** `parse_gsub_lookup1`: format 1 carries a coverage offset and a signed
      delta, format 2 a coverage offset and a substitute array; the
      coverage table is parsed after the fields that follow its offset. */
  function ParseSingle(blob: seq<byte>): (r: Result<Procedure>)
    ensures |blob| < 2 ==> r == Fail(TruncatedInput)
    ensures |blob| >= 2 && U16At(blob, 0) != 1 && U16At(blob, 0) != 2 ==> r == Fail(UnsupportedFormat)
    ensures r.Ok? ==> !r.value.Ligature?
    ensures r.Ok? && r.value.SingleDelta? ==> (|blob| >= 6 && U16At(blob, 0) == 1 &&
      r.value.delta == ToSigned16(U16At(blob, 4)) &&
      ParseCoverage(Drop(blob, U16At(blob, 2))) == Ok(r.value.coverage))
    ensures r.Ok? && r.value.SingleList? ==> (|blob| >= 6 && U16At(blob, 0) == 2 &&
      |r.value.substitutes| == U16At(blob, 4) && 6 + 2 * |r.value.substitutes| <= |blob| &&
      (forall k :: 0 <= k < |r.value.substitutes| ==> r.value.substitutes[k] == U16At(blob, 6 + 2 * k)) &&
      ParseCoverage(Drop(blob, U16At(blob, 2))) == Ok(r.value.coverage))
    ensures r.Ok? <==> (|blob| >= 6 && ParseCoverage(Drop(blob, U16At(blob, 2))).Ok? &&
      (U16At(blob, 0) == 1 || (U16At(blob, 0) == 2 && 6 + 2 * U16At(blob, 4) <= |blob|)))
    ensures r.Ok? ==> (r.value.SingleDelta? <==> U16At(blob, 0) == 1)
  {
    var (format, c1) :- Word(Cursor(blob, 0));
    if format == 1 then
      var (covOffset, c2) :- Word(c1);
      var (delta, _) :- Word(c2);
      var cov :- ParseCoverage(Drop(blob, covOffset));
      Ok(SingleDelta(cov, ToSigned16(delta)))
    else if format == 2 then
      var (covOffset, c2) :- Word(c1);
      var (count, c3) :- Word(c2);
      var (substitutes, _) :- Words(c3, count);
      var cov :- ParseCoverage(Drop(blob, covOffset));
      Ok(SingleList(cov, substitutes))
    else
      Fail(UnsupportedFormat)
  }

  /** `parse_liga`: the target glyph, the component count, then the
      components after the first; a count of zero asks for an array of
      length -1, which is refused. */
  function ParseLiga(blob: seq<byte>): (r: Result<Liga>)
    ensures r.Ok? <==> |blob| >= 4 && U16At(blob, 2) >= 1 && 4 + 2 * (U16At(blob, 2) - 1) <= |blob|
    ensures |blob| >= 4 && U16At(blob, 2) == 0 ==> r == Fail(CorruptSubtable)
    ensures r.Ok? ==> (r.value.target == U16At(blob, 0) && |r.value.components| == U16At(blob, 2) - 1 &&
      forall k :: 0 <= k < |r.value.components| ==> r.value.components[k] == U16At(blob, 4 + 2 * k))
  {
    var (target, c1) :- Word(Cursor(blob, 0));
    var (count, c2) :- Word(c1);
    var (components, _) :- Words(c2, count - 1);
    Ok(Liga(components, target))
  }

  /** `parse_ligaset`: a count, then the offsets of the ligatures. */
  function ParseLigaSet(blob: seq<byte>): (r: Result<seq<Liga>>)
    ensures |blob| < 2 ==> r == Fail(TruncatedInput)
    ensures r.Ok? <==> (|blob| >= 2 && 2 + 2 * U16At(blob, 0) <= |blob| &&
      var offsets := WordsAt(blob, 2, U16At(blob, 0));
      forall i :: 0 <= i < |offsets| ==> ParseLiga(Drop(blob, offsets[i])).Ok?)
    ensures r.Ok? ==> (|blob| >= 2 + 2 * U16At(blob, 0) && |r.value| == U16At(blob, 0) &&
      forall i :: 0 <= i < |r.value| ==> ParseLiga(Drop(blob, U16At(blob, 2 + 2 * i))) == Ok(r.value[i]))
  {
    var offsets :- CountedWords(blob);
    var f := (i: nat) requires i < |offsets| => ParseLiga(Drop(blob, offsets[i]));
    assert forall i :: 0 <= i < |offsets| ==> f(i) == ParseLiga(Drop(blob, offsets[i]));
    Each(|offsets|, f)
  }

  /** A word count at byte 0 followed by that many words, as the ligature
      sets and the lookup list store their offsets. */
  function CountedWords(blob: seq<byte>): (r: Result<seq<nat>>)
    ensures |blob| < 2 ==> r == Fail(TruncatedInput)
    ensures r.Ok? <==> |blob| >= 2 && |blob| >= 2 + 2 * U16At(blob, 0)
    ensures r.Ok? ==> r.value == WordsAt(blob, 2, U16At(blob, 0))
    ensures r.Fail? ==> r.error == TruncatedInput
  {
    var (count, c1) :- Word(Cursor(blob, 0));
    var (words, _) :- Words(c1, count);
    WordsValue(c1, count);
    Ok(words)
  }

  /** The words `Words` reads are those stored at the cursor. */
  lemma WordsValue(c: Cursor, n: nat)
    requires Words(c, n).Ok? && c.pos <= |c.data|
    ensures c.pos + 2 * n <= |c.data| && Words(c, n).value.0 == WordsAt(c.data, c.pos, n)
  {
    if n > 0 {
      assert c.pos + 2 * n <= |c.data|;
    }
  }

  /** `parse_gsub_lookup4`: the format, coverage offset and set count are
      read together; only format 1 exists; the coverage table is parsed
      before the set offsets are read. */
  function ParseLigatureSubtable(blob: seq<byte>): (r: Result<Procedure>)
    ensures |blob| < 6 ==> r == Fail(TruncatedInput)
    ensures |blob| >= 6 && U16At(blob, 0) != 1 ==> r == Fail(UnsupportedFormat)
    ensures r.Ok? ==> (r.value.Ligature? && |blob| >= 6 + 2 * U16At(blob, 4) && U16At(blob, 0) == 1 &&
      ParseCoverage(Drop(blob, U16At(blob, 2))) == Ok(r.value.coverage) &&
      |r.value.ligaSets| == U16At(blob, 4) &&
      forall i :: 0 <= i < |r.value.ligaSets| ==>
        ParseLigaSet(Drop(blob, U16At(blob, 6 + 2 * i))) == Ok(r.value.ligaSets[i]))
    ensures r.Ok? <==> (|blob| >= 6 && U16At(blob, 0) == 1 &&
      ParseCoverage(Drop(blob, U16At(blob, 2))).Ok? && 6 + 2 * U16At(blob, 4) <= |blob| &&
      var offsets := WordsAt(blob, 6, U16At(blob, 4));
      forall i :: 0 <= i < |offsets| ==> ParseLigaSet(Drop(blob, offsets[i])).Ok?)
    ensures |blob| >= 6 && U16At(blob, 0) == 1 && ParseCoverage(Drop(blob, U16At(blob, 2))).Fail? ==>
      r == Fail(ParseCoverage(Drop(blob, U16At(blob, 2))).error)
  {
    var (format, c1) :- Word(Cursor(blob, 0));
    var (covOffset, c2) :- Word(c1);
    var (count, c3) :- Word(c2);
    if format != 1 then Fail(UnsupportedFormat)
    else
      var cov :- ParseCoverage(Drop(blob, covOffset));
      var (offsets, _) :- Words(c3, count);
      assert offsets == WordsAt(blob, 6, count);
      var sets :- LigaSets(blob, offsets);
      Ok(Ligature(cov, sets))
  }

  /** The ligature sets at the given offsets, in order; loads exactly when
      every one of them does. */
  function LigaSets(blob: seq<byte>, offsets: seq<nat>): (r: Result<seq<seq<Liga>>>)
    ensures r.Ok? <==> forall i :: 0 <= i < |offsets| ==> ParseLigaSet(Drop(blob, offsets[i])).Ok?
    ensures r.Ok? ==> (|r.value| == |offsets| &&
      forall i :: 0 <= i < |offsets| ==> ParseLigaSet(Drop(blob, offsets[i])) == Ok(r.value[i]))
  {
    var f := (i: nat) requires i < |offsets| => ParseLigaSet(Drop(blob, offsets[i]));
    assert forall i :: 0 <= i < |offsets| ==> f(i) == ParseLigaSet(Drop(blob, offsets[i]));
    Each(|offsets|, f)
  }

  /** The subtable parser of a lookup type (`_gsub_lookups`). */
  function ParseSubtable(lookupType: nat, blob: seq<byte>): Result<Procedure>
    requires lookupType == 1 || lookupType == 4
  {
    if lookupType == 1 then ParseSingle(blob) else ParseLigatureSubtable(blob)
  }

  /** The lookup types the loader accepts; 3 and 6 give no procedures. */
  predicate KnownLookupType(t: int)
  {
    t == 1 || t == 3 || t == 4 || t == 6
  }

  /** `parse_lookup`: type, flag and subtable count, the subtable offsets,
      then the mark-filtering-set word, read whatever the flag says; the
      type is checked only after all of these were read. */
  function ParseLookup(blob: seq<byte>): (r: Result<seq<Procedure>>)
    ensures |blob| < 6 ==> r == Fail(TruncatedInput)
  {
    var (lookupType, c1) :- Word(Cursor(blob, 0));
    var (_, c2) :- Word(c1);
    var (count, c3) :- Word(c2);
    var (offsets, c4) :- Words(c3, count);
    var (_, _) :- Word(c4);
    LookupBody(lookupType, blob, offsets)
  }

  /** What `parse_lookup` does once the header is read: an unknown type
      fails, types 3 and 6 give no procedures, types 1 and 4 parse one
      subtable per offset. */
  function LookupBody(lookupType: nat, blob: seq<byte>, offsets: seq<nat>): (r: Result<seq<Procedure>>)
    ensures !KnownLookupType(lookupType) ==> r == Fail(UnsupportedLookupType)
    ensures lookupType == 3 || lookupType == 6 ==> r == Ok([])
    ensures (lookupType == 1 || lookupType == 4) && r.Ok? ==>
      |r.value| == |offsets| &&
      forall i :: 0 <= i < |offsets| ==> ParseSubtable(lookupType, Drop(blob, offsets[i])) == Ok(r.value[i])
    ensures lookupType == 1 || lookupType == 4 ==>
      (r.Ok? <==> forall i :: 0 <= i < |offsets| ==> ParseSubtable(lookupType, Drop(blob, offsets[i])).Ok?)
  {
    if !KnownLookupType(lookupType) then Fail(UnsupportedLookupType)
    else if lookupType == 3 || lookupType == 6 then Ok([])
    else Each(|offsets|, (i: nat) requires i < |offsets| => ParseSubtable(lookupType, Drop(blob, offsets[i])))
  }

  /** A lookup whose header is at least six bytes long either runs out of
      bytes before its mark-filtering word or goes on with the stored
      type and offsets. */
  lemma LookupHeader(blob: seq<byte>)
    requires |blob| >= 6
    ensures var n := U16At(blob, 4);
      ParseLookup(blob) ==
        if |blob| < 8 + 2 * n then Fail(TruncatedInput)
        else LookupBody(U16At(blob, 0), blob, WordsAt(blob, 6, n))
  {
    var n := U16At(blob, 4);
    var c3 := Cursor(blob, 6);
    assert Word(Cursor(blob, 0)) == Ok((U16At(blob, 0), Cursor(blob, 2)));
    assert Word(Cursor(blob, 2)).Ok? && Word(Cursor(blob, 2)).value.1 == Cursor(blob, 4);
    assert Word(Cursor(blob, 4)) == Ok((n, c3));
    if |blob| >= 8 + 2 * n {
      var ws := Words(c3, n);
      assert ws.Ok?;
      assert ws.value.0 == WordsAt(blob, 6, n);
      assert Word(Cursor(blob, 6 + 2 * n)).Ok?;
    }
  }

  /** The outcomes of `parse_lookup` on a header that was read whole: a
      missing mark-filtering word fails even for lookups that do not use
      it, an unknown type fails, types 3 and 6 give no procedures, and
      types 1 and 4 give one procedure per subtable offset. */
  lemma LookupSpec(blob: seq<byte>)
    requires |blob| >= 6
    ensures var n, t := U16At(blob, 4), U16At(blob, 0);
      (|blob| < 8 + 2 * n ==> ParseLookup(blob) == Fail(TruncatedInput)) &&
      (|blob| >= 8 + 2 * n && !KnownLookupType(t) ==> ParseLookup(blob) == Fail(UnsupportedLookupType)) &&
      (|blob| >= 8 + 2 * n && (t == 3 || t == 6) ==> ParseLookup(blob) == Ok([]))
    ensures var n, t := U16At(blob, 4), U16At(blob, 0);
      ParseLookup(blob).Ok? && (t == 1 || t == 4) ==> (
        |blob| >= 8 + 2 * n && |ParseLookup(blob).value| == n &&
        forall i :: 0 <= i < n ==>
          ParseSubtable(t, Drop(blob, U16At(blob, 6 + 2 * i))) == Ok(ParseLookup(blob).value[i]))
    ensures var n, t := U16At(blob, 4), U16At(blob, 0);
      |blob| >= 8 + 2 * n && (t == 1 || t == 4) ==>
        (ParseLookup(blob).Ok? <==>
         var offsets := WordsAt(blob, 6, n);
         forall i :: 0 <= i < n ==> ParseSubtable(t, Drop(blob, offsets[i])).Ok?)
  {
    LookupHeader(blob);
  }

  /** `parse_lookup_list`: a count, the lookup offsets, then every lookup
      in order. The list loads exactly when its offsets fit and every
      lookup they point at loads; lookup `i` is then the lookup at the
      `i`-th offset. */
  function ParseLookupList(blob: seq<byte>): (r: Result<seq<seq<Procedure>>>)
    ensures |blob| < 2 ==> r == Fail(TruncatedInput)
    ensures r.Ok? <==> (|blob| >= 2 && 2 + 2 * U16At(blob, 0) <= |blob| &&
      var offsets := WordsAt(blob, 2, U16At(blob, 0));
      forall i :: 0 <= i < |offsets| ==> ParseLookup(Drop(blob, offsets[i])).Ok?)
    ensures r.Ok? ==> (|r.value| == U16At(blob, 0) &&
      forall i :: 0 <= i < |r.value| ==> ParseLookup(Drop(blob, U16At(blob, 2 + 2 * i))) == Ok(r.value[i]))
  {
    var offsets :- CountedWords(blob);
    var f := (i: nat) requires i < |offsets| => ParseLookup(Drop(blob, offsets[i]));
    assert forall i :: 0 <= i < |offsets| ==> f(i) == ParseLookup(Drop(blob, offsets[i]));
    Each(|offsets|, f)
  }

  // ---------------------------------------------------------------------------
  // Features.

  /** The lookups an index list refers to, in index order. */
  function Selected(indices: seq<nat>, lookups: seq<seq<Procedure>>): (r: seq<seq<Procedure>>)
    requires forall i :: 0 <= i < |indices| ==> indices[i] < |lookups|
    ensures |r| == |indices| && forall i :: 0 <= i < |indices| ==> r[i] == lookups[indices[i]]
  {
    seq(|indices|, i requires 0 <= i < |indices| => lookups[indices[i]])
  }

  /** `[lookup for idx in indices for lookup in lookups[idx]]`: the
      procedures of the referenced lookups, in index order; an index past
      the lookup list raises. */
  function ConcatLookups(indices: seq<nat>, lookups: seq<seq<Procedure>>): (r: Result<seq<Procedure>>)
    ensures r.Ok? <==> forall i :: 0 <= i < |indices| ==> indices[i] < |lookups|
    ensures r.Fail? ==> r.error == IndexOutOfRange
    ensures r.Ok? ==> r.value == Flatten(Selected(indices, lookups))
  {
    if forall i :: 0 <= i < |indices| ==> indices[i] < |lookups| then
      Ok(Flatten(Selected(indices, lookups)))
    else
      Fail(IndexOutOfRange)
  }

  /** The `n` words stored from byte `off` on. */
  function WordsAt(blob: seq<byte>, off: nat, n: nat): (r: seq<nat>)
    requires off + 2 * n <= |blob|
    ensures |r| == n && forall k :: 0 <= k < n ==> r[k] == U16At(blob, off + 2 * k)
  {
    seq(n, k requires 0 <= k < n => U16At(blob, off + 2 * k))
  }

  /** `parse_feature`: the feature-params word, the index count, the lookup
      indices, resolved against the already parsed lookup list. */
  function ParseFeature(blob: seq<byte>, tag: Tag, lookups: seq<seq<Procedure>>): (r: Result<Feature>)
    ensures |blob| < 4 ==> r == Fail(TruncatedInput)
  {
    var (params, c1) :- Word(Cursor(blob, 0));
    var (count, c2) :- Word(c1);
    var (indices, _) :- Words(c2, count);
    var procs :- ConcatLookups(indices, lookups);
    Ok(Feature(tag, params, procs))
  }

  /** A feature's procedure list is the concatenation of the procedures of
      the lookups it names, in the order it names them; naming a lookup
      past the end of the list fails. */
  lemma FeatureSpec(blob: seq<byte>, tag: Tag, lookups: seq<seq<Procedure>>)
    requires |blob| >= 4 && |blob| >= 4 + 2 * U16At(blob, 2)
    ensures var indices := WordsAt(blob, 4, U16At(blob, 2));
      (ParseFeature(blob, tag, lookups).Ok? <==> forall i :: 0 <= i < |indices| ==> indices[i] < |lookups|) &&
      (ParseFeature(blob, tag, lookups).Fail? ==> ParseFeature(blob, tag, lookups).error == IndexOutOfRange) &&
      (ParseFeature(blob, tag, lookups).Ok? ==>
        ParseFeature(blob, tag, lookups).value == Feature(tag, U16At(blob, 0), Flatten(Selected(indices, lookups))))
  {
    var n := U16At(blob, 2);
    var ws := Words(Cursor(blob, 4), n);
    assert ws.Ok?;
    assert ws.value.0 == WordsAt(blob, 4, n);
  }

  /** `parse_feature_list`: a tag list of features, each parsed at its own
      offset. The list loads exactly when its records fit and every feature
      they point at loads; feature `i` is then parsed at the `i`-th record's
      offset and carries its tag. */
  function ParseFeatureList(blob: seq<byte>, lookups: seq<seq<Procedure>>): (r: Result<seq<Feature>>)
    ensures |blob| < 2 ==> r == Fail(TruncatedInput)
    ensures r.Ok? <==> (TagList(Cursor(blob, 0)).Ok? &&
      var tags := TagList(Cursor(blob, 0)).value.0;
      forall i :: 0 <= i < |tags| ==> ParseFeature(Drop(blob, tags[i].1), tags[i].0, lookups).Ok?)
    ensures r.Ok? ==> (TagList(Cursor(blob, 0)).Ok? &&
      var tags := TagList(Cursor(blob, 0)).value.0;
      |r.value| == |tags| &&
      forall i :: 0 <= i < |tags| ==> ParseFeature(Drop(blob, tags[i].1), tags[i].0, lookups) == Ok(r.value[i]))
  {
    var (tags, _) :- TagList(Cursor(blob, 0));
    var f := (i: nat) requires i < |tags| => ParseFeature(Drop(blob, tags[i].1), tags[i].0, lookups);
    assert forall i :: 0 <= i < |tags| ==> f(i) == ParseFeature(Drop(blob, tags[i].1), tags[i].0, lookups);
    Each(|tags|, f)
  }

  // ---------------------------------------------------------------------------
  // Scripts and language systems.

  /** The feature indices of a language system, each read and resolved
      before the next is read; an index past the feature list raises. */
  function SelectFeatures(c: Cursor, count: nat, features: seq<Feature>): (r: Result<seq<Feature>>)
    ensures r.Ok? ==> |r.value| == count
    decreases count
  {
    if count == 0 then Ok([])
    else
      var (index, c') :- Word(c);
      if index >= |features| then Fail(IndexOutOfRange)
      else
        var rest :- SelectFeatures(c', count - 1, features);
        Ok([features[index]] + rest)
  }

  /** The selected features are the ones the stored indices name. */
  lemma {:induction false} SelectedAreIndexed(c: Cursor, count: nat, features: seq<Feature>)
    requires SelectFeatures(c, count, features).Ok?
    ensures count == 0 || c.pos + 2 * count <= |c.data|
    ensures forall k :: 0 <= k < count ==>
      c.pos + 2 * k + 2 <= |c.data| && U16At(c.data, c.pos + 2 * k) < |features| &&
      SelectFeatures(c, count, features).value[k] == features[U16At(c.data, c.pos + 2 * k)]
    decreases count
  {
    if count > 0 {
      var c' := Cursor(c.data, c.pos + 2);
      SelectedAreIndexed(c', count - 1, features);
      var r := SelectFeatures(c, count, features).value;
      var index := U16At(c.data, c.pos);
      var rest := SelectFeatures(c', count - 1, features).value;
      assert r == [features[index]] + rest;
      forall k | 0 <= k < count
        ensures c.pos + 2 * k + 2 <= |c.data| && U16At(c.data, c.pos + 2 * k) < |features| &&
                r[k] == features[U16At(c.data, c.pos + 2 * k)]
      {
        if k > 0 {
          assert c'.pos + 2 * (k - 1) == c.pos + 2 * k;
          assert r[k] == rest[k - 1];
        }
      }
    }
  }

  /** The selection succeeds when every index is stored and names a
      feature. */
  lemma {:induction false} SelectSucceeds(c: Cursor, count: nat, features: seq<Feature>)
    requires count == 0 || c.pos + 2 * count <= |c.data|
    requires forall k :: 0 <= k < count ==> U16At(c.data, c.pos + 2 * k) < |features|
    ensures SelectFeatures(c, count, features).Ok?
    decreases count
  {
    if count > 0 {
      ShiftIndices(c, count, features);
      SelectSucceeds(Cursor(c.data, c.pos + 2), count - 1, features);
      assert U16At(c.data, c.pos + 2 * 0) == U16At(c.data, c.pos);
    }
  }

  /** The selection succeeds exactly when every index is stored and names
      a feature. */
  lemma SelectFeaturesOk(c: Cursor, count: nat, features: seq<Feature>)
    ensures SelectFeatures(c, count, features).Ok? <==> ((count == 0 || c.pos + 2 * count <= |c.data|) &&
      forall k :: 0 <= k < count ==> U16At(c.data, c.pos + 2 * k) < |features|)
  {
    if SelectFeatures(c, count, features).Ok? {
      SelectedAreIndexed(c, count, features);
    } else if (count == 0 || c.pos + 2 * count <= |c.data|) &&
              forall k :: 0 <= k < count ==> U16At(c.data, c.pos + 2 * k) < |features| {
      SelectSucceeds(c, count, features);
    }
  }

  lemma ShiftIndices(c: Cursor, count: nat, features: seq<Feature>)
    requires count > 0 && c.pos + 2 <= |c.data|
    ensures ((c.pos + 2 * count <= |c.data|) &&
             forall k :: 0 <= k < count ==> U16At(c.data, c.pos + 2 * k) < |features|) ==>
            ((count - 1 == 0 || c.pos + 2 + 2 * (count - 1) <= |c.data|) &&
             forall k :: 0 <= k < count - 1 ==> U16At(c.data, c.pos + 2 + 2 * k) < |features|)
  {
    if c.pos + 2 * count <= |c.data| && forall k :: 0 <= k < count ==> U16At(c.data, c.pos + 2 * k) < |features| {
      forall k | 0 <= k < count - 1 ensures U16At(c.data, c.pos + 2 + 2 * k) < |features| {
        assert c.pos + 2 + 2 * k == c.pos + 2 * (k + 1);
      }
    }
  }

  /** `parse_langsys`: lookup order, required feature index, feature count,
      then the feature indices. */
  function ParseLangSys(blob: seq<byte>, features: seq<Feature>): (r: Result<LangSys>)
    ensures |blob| < 6 ==> r == Fail(TruncatedInput)
    ensures r.Ok? ==> (|blob| >= 6 && r.value.lookupOrder == U16At(blob, 0) &&
      r.value.reqFeatureIndex == U16At(blob, 2) &&
      SelectFeatures(Cursor(blob, 6), U16At(blob, 4), features) == Ok(r.value.features))
    ensures r.Ok? <==> (|blob| >= 6 && 6 + 2 * U16At(blob, 4) <= |blob| &&
      forall k :: 0 <= k < U16At(blob, 4) ==> U16At(blob, 6 + 2 * k) < |features|)
  {
    var (order, c1) :- Word(Cursor(blob, 0));
    var (required, c2) :- Word(c1);
    var (count, c3) :- Word(c2);
    SelectFeaturesOk(c3, count, features);
    var selected :- SelectFeatures(c3, count, features);
    Ok(LangSys(order, required, selected))
  }

  /** The default language system of a script, present when its offset is
      not zero. */
  function DefaultLangSys(blob: seq<byte>, dflt: nat, features: seq<Feature>): (r: Result<map<Option<Tag>, LangSys>>)
    ensures r.Ok? ==> (None in r.value <==> dflt != 0) && r.value.Keys <= {None}
    ensures r.Ok? && dflt != 0 ==> ParseLangSys(Drop(blob, dflt), features) == Ok(r.value[None])
    ensures dflt == 0 ==> r == Ok(map[])
    ensures r.Ok? <==> dflt == 0 || ParseLangSys(Drop(blob, dflt), features).Ok?
  {
    if dflt == 0 then Ok(map[])
    else
      var ls :- ParseLangSys(Drop(blob, dflt), features);
      Ok(map[None := ls])
  }

  /** The language-system keys of a tag list. */
  function LangKeys(tags: seq<(nat, nat)>): (r: seq<Option<Tag>>)
    ensures |r| == |tags| && forall i :: 0 <= i < |tags| ==> r[i] == Some(tags[i].0)
  {
    seq(|tags|, i requires 0 <= i < |tags| => Some(tags[i].0))
  }

  /** The language systems of a script: the default one (key `None`) when
      its offset is not zero, then one per tag, in tag-list order, so a
      repeated tag keeps its last language system. */
  function Languages(blob: seq<byte>, dflt: nat, tags: seq<(nat, nat)>, features: seq<Feature>)
    : (r: Result<map<Option<Tag>, LangSys>>)
    ensures r.Ok? <==> ((dflt == 0 || ParseLangSys(Drop(blob, dflt), features).Ok?) &&
      forall i :: 0 <= i < |tags| ==> ParseLangSys(Drop(blob, tags[i].1), features).Ok?)
  {
    var base :- DefaultLangSys(blob, dflt, features);
    var f := (i: nat) requires i < |tags| => ParseLangSys(Drop(blob, tags[i].1), features);
    assert forall i :: 0 <= i < |tags| ==> f(i) == ParseLangSys(Drop(blob, tags[i].1), features);
    var parsed :- Each(|tags|, f);
    Ok(Assign(LangKeys(tags), parsed, base))
  }

  /** The keys of a script's language systems are the default one (when
      present) and the listed tags. */
  lemma LanguagesKeys(blob: seq<byte>, dflt: nat, tags: seq<(nat, nat)>, features: seq<Feature>)
    requires Languages(blob, dflt, tags, features).Ok?
    ensures var r := Languages(blob, dflt, tags, features).value;
      (None in r <==> dflt != 0) &&
      (dflt != 0 ==> ParseLangSys(Drop(blob, dflt), features) == Ok(r[None])) &&
      (forall t :: Some(t) in r <==> exists i :: 0 <= i < |tags| && tags[i].0 == t)
  {
    var base, parsed := LanguagesParts(blob, dflt, tags, features);
    TaggedKeys(tags, parsed, base);
  }

  /** `Languages` is the default language system with the parsed tagged
      ones assigned over it. */
  lemma LanguagesParts(blob: seq<byte>, dflt: nat, tags: seq<(nat, nat)>, features: seq<Feature>)
    returns (base: map<Option<Tag>, LangSys>, parsed: seq<LangSys>)
    requires Languages(blob, dflt, tags, features).Ok?
    ensures DefaultLangSys(blob, dflt, features) == Ok(base) && |parsed| == |tags|
    ensures forall j :: 0 <= j < |tags| ==> ParseLangSys(Drop(blob, tags[j].1), features) == Ok(parsed[j])
    ensures Languages(blob, dflt, tags, features) == Ok(Assign(LangKeys(tags), parsed, base))
  {
    base := DefaultLangSys(blob, dflt, features).value;
    parsed := Each(|tags|, (i: nat) requires i < |tags| => ParseLangSys(Drop(blob, tags[i].1), features)).value;
  }

  /** Assigning the tagged language systems over the default one adds
      exactly the listed tags and keeps the default entry. */
  lemma TaggedKeys(tags: seq<(nat, nat)>, parsed: seq<LangSys>, base: map<Option<Tag>, LangSys>)
    requires |parsed| == |tags| && base.Keys <= {None}
    ensures var r := Assign(LangKeys(tags), parsed, base);
      (None in r <==> None in base) &&
      (None in base ==> r[None] == base[None]) &&
      (forall t :: Some(t) in r <==> exists i :: 0 <= i < |tags| && tags[i].0 == t)
  {
    var keys := LangKeys(tags);
    var r := Assign(keys, parsed, base);
    assert None !in keys;
    if None in base {
      AssignKeeps(keys, parsed, base, None);
    }
    forall t | Some(t) in r ensures exists i :: 0 <= i < |tags| && tags[i].0 == t {
      assert Some(t) in keys;
      var i :| 0 <= i < |keys| && keys[i] == Some(t);
    }
    forall t | exists i :: 0 <= i < |tags| && tags[i].0 == t ensures Some(t) in r {
      var i :| 0 <= i < |tags| && tags[i].0 == t;
      assert keys[i] == Some(t);
    }
  }

  /** A tag maps to the language system at its last record's offset: a
      repeated tag overwrites the earlier one. */
  lemma LanguagesLast(blob: seq<byte>, dflt: nat, tags: seq<(nat, nat)>, features: seq<Feature>, i: nat)
    requires Languages(blob, dflt, tags, features).Ok?
    requires i < |tags| && forall j :: i < j < |tags| ==> tags[j].0 != tags[i].0
    ensures Some(tags[i].0) in Languages(blob, dflt, tags, features).value
    ensures Ok(Languages(blob, dflt, tags, features).value[Some(tags[i].0)]) ==
            ParseLangSys(Drop(blob, tags[i].1), features)
  {
    var base, parsed := LanguagesParts(blob, dflt, tags, features);
    LastKey(tags, i);
    AssignLast(LangKeys(tags), parsed, base, i);
  }

  /** A tag that does not recur later is the last key of its kind. */
  lemma LastKey(tags: seq<(nat, nat)>, i: nat)
    requires i < |tags| && forall j :: i < j < |tags| ==> tags[j].0 != tags[i].0
    ensures LangKeys(tags)[i] == Some(tags[i].0) && LangKeys(tags)[i] !in LangKeys(tags)[i + 1..]
  {
    var keys := LangKeys(tags);
    assert forall j :: i < j < |keys| ==> keys[j] != keys[i];
  }

  /** `parse_script`: the default language-system offset, the tag list,
      then the language systems. */
  function ParseScript(blob: seq<byte>, features: seq<Feature>): (r: Result<Script>)
    ensures |blob| < 2 ==> r == Fail(TruncatedInput)
    ensures r.Ok? ==> (|blob| >= 2 && r.value.defaultOffset == U16At(blob, 0) &&
      TagList(Cursor(blob, 2)).Ok? &&
      Languages(blob, U16At(blob, 0), TagList(Cursor(blob, 2)).value.0, features) == Ok(r.value.langs))
    ensures r.Ok? <==> (|blob| >= 2 && TagList(Cursor(blob, 2)).Ok? &&
      (U16At(blob, 0) == 0 || ParseLangSys(Drop(blob, U16At(blob, 0)), features).Ok?) &&
      var tags := TagList(Cursor(blob, 2)).value.0;
      forall i :: 0 <= i < |tags| ==> ParseLangSys(Drop(blob, tags[i].1), features).Ok?)
  {
    var (dflt, c1) :- Word(Cursor(blob, 0));
    var (tags, _) :- TagList(c1);
    var langs :- Languages(blob, dflt, tags, features);
    Ok(Script(dflt, langs))
  }

  /** The script tags of a tag list. */
  function ScriptKeys(tags: seq<(nat, nat)>): (r: seq<Tag>)
    ensures |r| == |tags| && forall i :: 0 <= i < |tags| ==> r[i] == tags[i].0
  {
    seq(|tags|, i requires 0 <= i < |tags| => tags[i].0)
  }

  /** The scripts of a tag list, in tag-list order, as a dictionary. */
  function Scripts(blob: seq<byte>, tags: seq<(nat, nat)>, features: seq<Feature>): (r: Result<map<Tag, Script>>)
    ensures r.Ok? <==> forall i :: 0 <= i < |tags| ==> ParseScript(Drop(blob, tags[i].1), features).Ok?
  {
    var f := (i: nat) requires i < |tags| => ParseScript(Drop(blob, tags[i].1), features);
    assert forall i :: 0 <= i < |tags| ==> f(i) == ParseScript(Drop(blob, tags[i].1), features);
    var scripts :- Each(|tags|, f);
    Ok(Assign(ScriptKeys(tags), scripts, map[]))
  }

  /** `parse_scriptlist`: the tag list, then the dictionary from script tag
      to script. */
  function ParseScriptList(blob: seq<byte>, features: seq<Feature>): (r: Result<map<Tag, Script>>)
    ensures |blob| < 2 ==> r == Fail(TruncatedInput)
    ensures r.Ok? ==> (TagList(Cursor(blob, 0)).Ok? &&
      Scripts(blob, TagList(Cursor(blob, 0)).value.0, features) == r)
    ensures r.Ok? <==> (TagList(Cursor(blob, 0)).Ok? &&
      var tags := TagList(Cursor(blob, 0)).value.0;
      forall i :: 0 <= i < |tags| ==> ParseScript(Drop(blob, tags[i].1), features).Ok?)
  {
    var (tags, _) :- TagList(Cursor(blob, 0));
    Scripts(blob, tags, features)
  }

  /** The script dictionary maps exactly the listed tags. */
  lemma ScriptsKeys(blob: seq<byte>, tags: seq<(nat, nat)>, features: seq<Feature>)
    requires Scripts(blob, tags, features).Ok?
    ensures forall t :: t in Scripts(blob, tags, features).value <==> exists i :: 0 <= i < |tags| && tags[i].0 == t
  {
    var scripts := ScriptsParts(blob, tags, features);
    ScriptKeysListed(tags);
  }

  /** `Scripts` assigns the parsed scripts to their tags over an empty
      dictionary. */
  lemma ScriptsParts(blob: seq<byte>, tags: seq<(nat, nat)>, features: seq<Feature>) returns (scripts: seq<Script>)
    requires Scripts(blob, tags, features).Ok?
    ensures |scripts| == |tags|
    ensures forall i :: 0 <= i < |tags| ==> ParseScript(Drop(blob, tags[i].1), features) == Ok(scripts[i])
    ensures Scripts(blob, tags, features) == Ok(Assign(ScriptKeys(tags), scripts, map[]))
  {
    scripts := Each(|tags|, (i: nat) requires i < |tags| => ParseScript(Drop(blob, tags[i].1), features)).value;
  }

  /** A tag is among the script keys exactly when some record carries it. */
  lemma ScriptKeysListed(tags: seq<(nat, nat)>)
    ensures forall t :: t in ScriptKeys(tags) <==> exists i :: 0 <= i < |tags| && tags[i].0 == t
  {
    var keys := ScriptKeys(tags);
    forall t | t in keys ensures exists i :: 0 <= i < |tags| && tags[i].0 == t {
      var i :| 0 <= i < |keys| && keys[i] == t;
    }
    forall t | exists i :: 0 <= i < |tags| && tags[i].0 == t ensures t in keys {
      var i :| 0 <= i < |tags| && tags[i].0 == t;
      assert keys[i] == t;
    }
  }

  /** When a script tag occurs more than once, its last record wins. */
  lemma ScriptsLast(blob: seq<byte>, tags: seq<(nat, nat)>, features: seq<Feature>, i: nat)
    requires Scripts(blob, tags, features).Ok?
    requires i < |tags| && forall j :: i < j < |tags| ==> tags[j].0 != tags[i].0
    ensures tags[i].0 in Scripts(blob, tags, features).value
    ensures Ok(Scripts(blob, tags, features).value[tags[i].0]) == ParseScript(Drop(blob, tags[i].1), features)
  {
    var scripts := ScriptsParts(blob, tags, features);
    LastScriptKey(tags, i);
    AssignLast(ScriptKeys(tags), scripts, map[], i);
  }

  /** A script tag that does not recur later is the last key of its kind. */
  lemma LastScriptKey(tags: seq<(nat, nat)>, i: nat)
    requires i < |tags| && forall j :: i < j < |tags| ==> tags[j].0 != tags[i].0
    ensures ScriptKeys(tags)[i] == tags[i].0 && ScriptKeys(tags)[i] !in ScriptKeys(tags)[i + 1..]
  {
    var keys := ScriptKeys(tags);
    assert forall j :: i < j < |keys| ==> keys[j] != keys[i];
  }

  // ---------------------------------------------------------------------------
  // The table.

  /** `OtfGsubTable.__init__`: a ten-byte header, version 1.0 only, then the
      lookup list, the feature list and the script list, in that order. */
  function ParseGsub(blob: seq<byte>): (r: Result<GsubTable>)
    ensures |blob| < 10 ==> r == Fail(TruncatedInput)
    ensures |blob| >= 10 && (U16At(blob, 0) != 1 || U16At(blob, 2) != 0) ==> r == Fail(UnsupportedVersion)
    ensures r.Ok? ==> (|blob| >= 10 &&
      ParseLookupList(Drop(blob, U16At(blob, 8))).Ok? &&
      var lookups := ParseLookupList(Drop(blob, U16At(blob, 8))).value;
      ParseFeatureList(Drop(blob, U16At(blob, 6)), lookups).Ok? &&
      var features := ParseFeatureList(Drop(blob, U16At(blob, 6)), lookups).value;
      ParseScriptList(Drop(blob, U16At(blob, 4)), features) == Ok(r.value.scripts))
    ensures r.Ok? <==> (|blob| >= 10 && U16At(blob, 0) == 1 && U16At(blob, 2) == 0 &&
      ParseLookupList(Drop(blob, U16At(blob, 8))).Ok? &&
      var lookups := ParseLookupList(Drop(blob, U16At(blob, 8))).value;
      ParseFeatureList(Drop(blob, U16At(blob, 6)), lookups).Ok? &&
      var features := ParseFeatureList(Drop(blob, U16At(blob, 6)), lookups).value;
      ParseScriptList(Drop(blob, U16At(blob, 4)), features).Ok?)
  {
    if |blob| < 10 then Fail(TruncatedInput)
    else if U16At(blob, 0) != 1 || U16At(blob, 2) != 0 then Fail(UnsupportedVersion)
    else
      var lookups :- ParseLookupList(Drop(blob, U16At(blob, 8)));
      var features :- ParseFeatureList(Drop(blob, U16At(blob, 6)), lookups);
      var scripts :- ParseScriptList(Drop(blob, U16At(blob, 4)), features);
      Ok(GsubTable(scripts))
  }
}

=== FILE: head.dfy ===
/** The `head` table: a fixed record of font-wide metadata.  The font
    writer changes one field of it, `checkSumAdjustment`, and writes the
    rest back as it was read. */
module Head {
  import opened Wrappers
  import opened Bytes
  import opened Struct2

  /** The `_OTF_head` record, as three runs of fields around
      `checkSumAdjustment`. */
  const HeadSchema: Schema := BeforeFields + AdjustmentFields + AfterFields

  const BeforeFields: Schema :=
    [Field(U16, "majorVersion"), Field(U16, "minorVersion"), Field(U32, "fontRevision")]
  const AdjustmentFields: Schema := [Field(U32, "checkSumAdjustment")]
  const AfterFields: Schema := DateFields + BoxFields + HintFields
  const DateFields: Schema :=
    [Field(U32, "magicNumber"), Field(U16, "flags"), Field(U16, "unitsPerEm"),
     Field(U64, "created"), Field(U64, "modified")]
  const BoxFields: Schema :=
    [Field(S16, "xMin"), Field(S16, "yMin"), Field(S16, "xMax"), Field(S16, "yMax")]
  const HintFields: Schema :=
    [Field(U16, "macStyle"), Field(U16, "lowestRecPPEM"), Field(S16, "fontDirectionHint"),
     Field(S16, "indexToLocFormat"), Field(S16, "glyphDataFormat")]

  /** Position of `checkSumAdjustment` among the head fields. */
  const AdjustmentField: nat := 3

  /** Byte offset of `checkSumAdjustment` inside the record. */
  const AdjustmentOffset: nat := 8

  /** `_OTF_head.size`. */
  const HeadSize: nat := 54

  /** The formats of the fields before and after `checkSumAdjustment`. */
  const Before: seq<Format> := [U16, U16, U32]
  const After: seq<Format> := [U32, U16, U16, U64, U64] + [S16, S16, S16, S16] + [U16, U16, S16, S16, S16]

  /** The head record is the eight bytes before the adjustment, the
      adjustment word, and 42 bytes after it. */
  lemma Layout()
    ensures |HeadSchema| == 18
    ensures Formats(HeadSchema) == Before + [U32] + After
    ensures Size(HeadSchema) == HeadSize
    ensures SizeOf(Before) == AdjustmentOffset && SizeOf(After) == 42 && SizeOf([U32]) == 4
  {
    FormatsAppend(BeforeFields, AdjustmentFields);
    FormatsAppend(BeforeFields + AdjustmentFields, AfterFields);
    FormatsAppend(DateFields, BoxFields);
    FormatsAppend(DateFields + BoxFields, HintFields);
    assert Formats(BeforeFields) == Before;
    assert Formats(AdjustmentFields) == [U32];
    assert Formats(DateFields) == [U32, U16, U16, U64, U64];
    assert Formats(BoxFields) == [S16, S16, S16, S16];
    assert Formats(HintFields) == [U16, U16, S16, S16, S16];
    assert SizeOf(Before) == 8;
    assert SizeOf([U32]) == 4;
    AfterSize();
    SizeOfAppend(Before, [U32]);
    SizeOfAppend(Before + [U32], After);
  }

  lemma AfterSize()
    ensures SizeOf(After) == 42
  {
    var a, b, c := [U32, U16, U16, U64, U64], [S16, S16, S16, S16], [U16, U16, S16, S16, S16];
    assert SizeOf(a) == 24 && SizeOf(b) == 8 && SizeOf(c) == 10;
    SizeOfAppend(a, b);
    SizeOfAppend(a + b, c);
  }

  /** `OtfHeadTable.__init__`: `parse_blob` of the table's bytes. */
  function ParseHead(blob: seq<byte>): (r: Result<seq<int>>)
    ensures r.Ok? <==> |blob| >= HeadSize
    ensures r.Ok? ==> |r.value| == |HeadSchema| && AllFit(Formats(HeadSchema), r.value)
  {
    Layout();
    ParseBlob(HeadSchema, blob)
  }

  /** `OtfHeadTable.pack(checksum)`: the record with its
      `checkSumAdjustment` set to `checksum`; `struct.pack` raises when a
      value does not fit its field. */
  function PackHead(values: seq<int>, checksum: int): Result<seq<byte>>
    requires |values| == |HeadSchema|
  {
    Pack(HeadSchema, Present(values[AdjustmentField := checksum]))
  }

  /** The encoding of a head record splits around the adjustment word. */
  lemma {:induction false} Encoding(vs: seq<int>)
    requires AllFit(Formats(HeadSchema), vs)
    ensures |vs| == 18
    ensures EncodeFields(Formats(HeadSchema), vs) ==
      EncodeFields(Before, vs[..3]) + EncodeValue(U32, vs[3]) + EncodeFields(After, vs[4..])
  {
    Layout();
    AllFitSplit(Before + [U32], After, vs);
    AllFitSplit(Before, [U32], vs[..4]);
    assert vs[..4][..3] == vs[..3] && vs[..4][3..] == [vs[3]];
    EncodeFieldsAppend(Before, [U32], vs[..3], [vs[3]]);
    EncodeFieldsAppend(Before + [U32], After, vs[..3] + [vs[3]], vs[4..]);
    assert vs[..3] + [vs[3]] + vs[4..] == vs;
    assert EncodeFields([U32], [vs[3]]) == EncodeValue(U32, vs[3]) by {
      assert [U32][1..] == [] && [vs[3]][1..] == [];
    }
  }

  /** Packing a head whose values fit succeeds for any 32-bit adjustment,
      and the bytes are the stored fields around the adjustment written as
      a big-endian word at byte 8. */
  lemma HeadSplit(values: seq<int>, checksum: int)
    requires AllFit(Formats(HeadSchema), values) && 0 <= checksum < 0x1_0000_0000
    ensures |values| == |HeadSchema|
    ensures AllFit(Before, values[..3]) && AllFit(After, values[4..])
    ensures PackHead(values, checksum).Ok?
    ensures var bs := PackHead(values, checksum).value;
      |bs| == HeadSize &&
      bs == EncodeFields(Before, values[..3]) + BeEncode(checksum, 4) + EncodeFields(After, values[4..])
  {
    Layout();
    var vs := values[AdjustmentField := checksum];
    assert Pow256(4) == 0x1_0000_0000;
    assert AllFit(Formats(HeadSchema), vs);
    PackPresent(HeadSchema, vs);
    Encoding(vs);
    AllFitSplit(Before + [U32], After, vs);
    AllFitSplit(Before, [U32], vs[..4]);
    assert vs[..4][..3] == vs[..3];
    assert vs[..3] == values[..3] && vs[4..] == values[4..];
  }

  /** A head whose values fit packs to 54 bytes with any 32-bit adjustment. */
  lemma PackHeadOk(values: seq<int>, checksum: int)
    requires AllFit(Formats(HeadSchema), values) && 0 <= checksum < 0x1_0000_0000
    ensures |values| == |HeadSchema|
    ensures PackHead(values, checksum).Ok? && |PackHead(values, checksum).value| == HeadSize
  {
    HeadSplit(values, checksum);
  }

  /** Two packings of one head differ only in the adjustment word. */
  lemma {:induction false} OnlyAdjustmentDiffers(values: seq<int>, a: nat, b: nat)
    requires AllFit(Formats(HeadSchema), values) && a < 0x1_0000_0000 && b < 0x1_0000_0000
    ensures |values| == |HeadSchema| && PackHead(values, a).Ok? && PackHead(values, b).Ok?
    ensures var x, y := PackHead(values, a).value, PackHead(values, b).value;
      |x| == |y| == HeadSize &&
      x[..AdjustmentOffset] == y[..AdjustmentOffset] &&
      x[AdjustmentOffset + 4..] == y[AdjustmentOffset + 4..] &&
      x[AdjustmentOffset..AdjustmentOffset + 4] == BeEncode(a, 4) &&
      y[AdjustmentOffset..AdjustmentOffset + 4] == BeEncode(b, 4)
  {
    Layout();
    HeadSplit(values, a);
    HeadSplit(values, b);
  }

  /** A head packs back to the bytes it was read from when it is given the
      adjustment it was read with. */
  lemma {:induction false} HeadRoundTrip(blob: seq<byte>)
    requires |blob| >= HeadSize
    ensures ParseHead(blob).Ok?
    ensures PackHead(ParseHead(blob).value, BeDecode(blob[8..12])) == Ok(blob[..HeadSize])
  {
    Layout();
    var v := ParseHead(blob).value;
    var fs := Formats(HeadSchema);
    var bs := blob[..HeadSize];
    PackOfParseBlob(HeadSchema, blob);
    FieldLayout(fs, bs, 3);
    assert fs[..3] == Before;
    assert bs[8..12] == blob[8..12];
    assert v[3] == BeDecode(blob[8..12]);
    assert v[AdjustmentField := BeDecode(blob[8..12])] == v;
  }
}

=== FILE: seqs.dfy ===
/** The Python list, slice and dictionary behaviour that `otf_tools`
    relies on, stated over Dafny sequences and maps. */
module Seqs {
  import opened Wrappers

  /** Python `s[lo:]` for `lo >= 0`: a start past the end gives the empty list. */
  function Drop<T>(s: seq<T>, lo: nat): (r: seq<T>)
    ensures |r| == if lo <= |s| then |s| - lo else 0
    ensures forall k :: 0 <= k < |r| ==> r[k] == s[lo + k]
  {
    if lo <= |s| then s[lo..] else []
  }

  /** Python `s[lo:hi]` for `0 <= lo`, `0 <= hi`: both ends clamp to the length. */
  function Slice<T>(s: seq<T>, lo: nat, hi: nat): (r: seq<T>)
    ensures lo <= hi <= |s| ==> r == s[lo..hi]
    ensures lo <= hi ==> |r| == if hi <= |s| then hi - lo else if lo <= |s| then |s| - lo else 0
    ensures |r| <= |s|
  {
    var h := if hi <= |s| then hi else |s|;
    if lo <= h then s[lo..h] else []
  }

  /** Python `s[k]`, including negative indices counted from the end; the
      IndexError case is `None`. */
  function PyIndex<T>(s: seq<T>, k: int): (r: Option<T>)
    ensures r.Some? <==> -|s| <= k < |s|
    ensures 0 <= k < |s| ==> r == Some(s[k])
    ensures -|s| <= k < 0 ==> r == Some(s[|s| + k])
  {
    if 0 <= k < |s| then Some(s[k])
    else if -|s| <= k < 0 then Some(s[|s| + k])
    else None
  }

  /** Python `s.index(x)`: the first position holding `x`, `None` for ValueError. */
  function IndexOf<T(==)>(s: seq<T>, x: T): (r: Option<nat>)
    ensures r.Some? ==> r.value < |s| && s[r.value] == x
    ensures r.Some? ==> forall k :: 0 <= k < r.value ==> s[k] != x
    ensures r.None? <==> x !in s
  {
    if |s| == 0 then None
    else if s[0] == x then Some(0)
    else
      match IndexOf(s[1..], x)
      case None => None
      case Some(k) => Some(k + 1)
  }

  /** Concatenation of a list of lists, in order. */
  function Flatten<T>(ss: seq<seq<T>>): seq<T>
  {
    if |ss| == 0 then [] else ss[0] + Flatten(ss[1..])
  }

  lemma {:induction false} FlattenAppend<T>(a: seq<seq<T>>, b: seq<seq<T>>)
    ensures Flatten(a + b) == Flatten(a) + Flatten(b)
  {
    if |a| == 0 {
      assert a + b == b;
    } else {
      assert (a + b)[1..] == a[1..] + b;
      FlattenAppend(a[1..], b);
    }
  }

  /** Index of the first element satisfying `p`. */
  function FirstWhere<T>(s: seq<T>, p: T -> bool): (r: Option<nat>)
    ensures r.Some? ==> r.value < |s| && p(s[r.value])
    ensures r.Some? ==> forall k :: 0 <= k < r.value ==> !p(s[k])
    ensures r.None? ==> forall k :: 0 <= k < |s| ==> !p(s[k])
  {
    if |s| == 0 then None
    else if p(s[0]) then Some(0)
    else
      match FirstWhere(s[1..], p)
      case None => None
      case Some(k) => Some(k + 1)
  }

  /** Index of the last element satisfying `p`. */
  function LastWhere<T>(s: seq<T>, p: T -> bool): (r: Option<nat>)
    ensures r.Some? ==> r.value < |s| && p(s[r.value])
    ensures r.Some? ==> forall k :: r.value < k < |s| ==> !p(s[k])
    ensures r.None? ==> forall k :: 0 <= k < |s| ==> !p(s[k])
  {
    if |s| == 0 then None
    else if p(s[|s| - 1]) then Some(|s| - 1)
    else LastWhere(s[..|s| - 1], p)
  }

  ghost predicate SortedBy<T>(s: seq<T>, key: T -> int)
  {
    forall i, j :: 0 <= i < j < |s| ==> key(s[i]) <= key(s[j])
  }

  /** The elements whose key is `v`, in their order in `s`. */
  function WithKey<T>(s: seq<T>, key: T -> int, v: int): seq<T>
  {
    if |s| == 0 then []
    else (if key(s[0]) == v then [s[0]] else []) + WithKey(s[1..], key, v)
  }

  /** Inserts `x` in front of the first element with a larger key: elements
      with equal keys keep `x` ahead of them. */
  function Insert<T>(x: T, s: seq<T>, key: T -> int): (r: seq<T>)
    requires SortedBy(s, key)
    ensures SortedBy(r, key)
    ensures multiset(r) == multiset(s) + multiset{x}
    ensures |r| == |s| + 1
    ensures |s| == 0 ==> r == [x]
    ensures |s| > 0 ==> r[0] == x || r[0] == s[0]
  {
    if |s| == 0 then [x]
    else if key(x) <= key(s[0]) then [x] + s
    else
      var t := Insert(x, s[1..], key);
      assert s == [s[0]] + s[1..];
      assert forall j :: 0 <= j < |t| ==> key(t[0]) <= key(t[j]);
      assert key(s[0]) <= key(t[0]);
      [s[0]] + t
  }

  /** Inserting `x` puts it ahead of the elements of `s` that share its key
      and leaves the others of each key in order. */
  lemma {:induction false} InsertWithKey<T>(x: T, s: seq<T>, key: T -> int, v: int)
    requires SortedBy(s, key)
    ensures WithKey(Insert(x, s, key), key, v) == (if key(x) == v then [x] else []) + WithKey(s, key, v)
  {
    if |s| > 0 {
      if key(x) <= key(s[0]) {
        assert ([x] + s)[1..] == s;
      } else {
        var t := Insert(x, s[1..], key);
        assert s == [s[0]] + s[1..];
        InsertWithKey(x, s[1..], key, v);
        assert ([s[0]] + t)[1..] == t;
        assert key(x) == v ==> key(s[0]) != v;
      }
    }
  }

  /** Python's `list.sort(key=...)`, as an insertion sort: the result is a
      sorted rearrangement, and elements with equal keys keep their original
      order. */
  function SortBy<T>(s: seq<T>, key: T -> int): (r: seq<T>)
    ensures SortedBy(r, key)
    ensures multiset(r) == multiset(s)
    ensures |r| == |s|
    ensures forall v :: WithKey(r, key, v) == WithKey(s, key, v)
  {
    if |s| == 0 then []
    else
      assert s == [s[0]] + s[1..];
      var t := SortBy(s[1..], key);
      assert forall v :: WithKey(Insert(s[0], t, key), key, v) == WithKey(s, key, v) by {
        forall v ensures WithKey(Insert(s[0], t, key), key, v) == WithKey(s, key, v) {
          InsertWithKey(s[0], t, key, v);
        }
      }
      Insert(s[0], t, key)
  }

  /** Python's `for k, v in zip(keys, vals): m[k] = v`: entries are stored
      in order. */
  function Assign<K(!new), V>(keys: seq<K>, vals: seq<V>, m: map<K, V>): (r: map<K, V>)
    requires |keys| == |vals|
    ensures forall k :: k in r <==> k in m || k in keys
  {
    if |keys| == 0 then m
    else Assign(keys[1..], vals[1..], m[keys[0] := vals[0]])
  }

  /** A key's value is the one of its last occurrence: a later duplicate
      overwrites an earlier one. */
  lemma {:induction false} AssignLast<K(!new), V>(keys: seq<K>, vals: seq<V>, m: map<K, V>, i: nat)
    requires |keys| == |vals| && i < |keys|
    requires keys[i] !in keys[i + 1..]
    ensures keys[i] in Assign(keys, vals, m) && Assign(keys, vals, m)[keys[i]] == vals[i]
  {
    if i == 0 {
      AssignKeeps(keys[1..], vals[1..], m[keys[0] := vals[0]], keys[0]);
    } else {
      assert keys[1..][i - 1] == keys[i] && keys[1..][i..] == keys[i + 1..];
      AssignLast(keys[1..], vals[1..], m[keys[0] := vals[0]], i - 1);
    }
  }

  /** Keys not assigned keep their old values. */
  lemma {:induction false} AssignKeeps<K(!new), V>(keys: seq<K>, vals: seq<V>, m: map<K, V>, k: K)
    requires |keys| == |vals| && k in m && k !in keys
    ensures Assign(keys, vals, m)[k] == m[k]
  {
    if |keys| > 0 {
      assert k != keys[0];
      assert k !in keys[1..];
      AssignKeeps(keys[1..], vals[1..], m[keys[0] := vals[0]], k);
    }
  }

  /** Two rearrangements of one sequence have images that are
      rearrangements of each other. */
  lemma {:induction false} SameImage<A, B>(a: seq<A>, b: seq<A>, fa: seq<B>, fb: seq<B>, f: A -> B)
    requires multiset(a) == multiset(b) && |fa| == |a| && |fb| == |b|
    requires forall i :: 0 <= i < |a| ==> fa[i] == f(a[i])
    requires forall i :: 0 <= i < |b| ==> fb[i] == f(b[i])
    ensures multiset(fa) == multiset(fb)
    decreases |a|
  {
    if |a| == 0 {
      assert |multiset(b)| == 0;
    } else {
      var x := a[0];
      assert x in multiset(a);
      var i :| 0 <= i < |b| && b[i] == x;
      var b', fb' := Without(b, i), Without(fb, i);
      WithoutImage(b, fb, f, i);
      WithoutFirst(a);
      WithoutFirst(fa);
      SameImage(a[1..], b', fa[1..], fb', f);
    }
  }

  /** `s` with the element at `i` removed. */
  function Without<T>(s: seq<T>, i: nat): (r: seq<T>)
    requires i < |s|
    ensures |r| == |s| - 1
    ensures multiset(r) == multiset(s) - multiset{s[i]}
    ensures multiset(s) == multiset(r) + multiset{s[i]}
  {
    assert s == s[..i] + [s[i]] + s[i + 1..];
    s[..i] + s[i + 1..]
  }

  lemma WithoutFirst<T>(s: seq<T>)
    requires |s| > 0
    ensures Without(s, 0) == s[1..]
  {
  }

  lemma WithoutImage<A, B>(b: seq<A>, fb: seq<B>, f: A -> B, i: nat)
    requires |fb| == |b| && i < |b|
    requires forall j :: 0 <= j < |b| ==> fb[j] == f(b[j])
    ensures forall j :: 0 <= j < |b| - 1 ==> Without(fb, i)[j] == f(Without(b, i)[j])
  {
    forall j | 0 <= j < |b| - 1
      ensures Without(fb, i)[j] == f(Without(b, i)[j])
    {
      if j < i {
        assert Without(fb, i)[j] == fb[j] && Without(b, i)[j] == b[j];
      } else {
        assert Without(fb, i)[j] == fb[j + 1] && Without(b, i)[j] == b[j + 1];
      }
    }
  }
}

=== FILE: struct2.dfy ===
/** The big-endian fixed-layout record codec (`struct_be` records).

    A schema is an ordered list of `format:name` fields.  With the `>`
    prefix Python's `struct` inserts no alignment padding, so a record
    occupies exactly the sum of its field widths and field `i` starts at
    the sum of the widths before it.  A decoded record is the list of its
    field values in schema order; a constructed record may leave fields
    unset (`None`).  A `4s` field is carried as the unsigned big-endian
    value of its four bytes, which loses nothing and orders tags the way
    Python orders 4-byte strings. */
module Struct2 {
  import opened Wrappers
  import opened Bytes
  import opened Seqs

  /** The struct format letters used by the font code: `H`, `h`, `I`, `Q`, `4s`. */
  datatype Format = U16 | S16 | U32 | U64 | Tag4

  function Width(f: Format): nat
  {
    match f
    case U16 => 2
    case S16 => 2
    case U32 => 4
    case U64 => 8
    case Tag4 => 4
  }

  /** The values `struct.pack` accepts for a format. */
  predicate Fits(f: Format, v: int)
  {
    if f == S16 then -0x8000 <= v < 0x8000 else 0 <= v < Pow256(Width(f))
  }

  datatype Field = Field(fmt: Format, name: string)

  type Schema = seq<Field>

  function Formats(schema: Schema): (fs: seq<Format>)
    ensures |fs| == |schema|
    ensures forall i :: 0 <= i < |schema| ==> fs[i] == schema[i].fmt
  {
    seq(|schema|, i requires 0 <= i < |schema| => schema[i].fmt)
  }

  lemma FormatsAppend(a: Schema, b: Schema)
    ensures Formats(a + b) == Formats(a) + Formats(b)
  {
  }

  function Names(schema: Schema): set<string>
  {
    set i | 0 <= i < |schema| :: schema[i].name
  }

  /** `struct.calcsize` of a format list. */
  function SizeOf(fs: seq<Format>): nat
  {
    if |fs| == 0 then 0 else Width(fs[0]) + SizeOf(fs[1..])
  }

  /** Byte offset of field `i`: the widths of the fields before it. */
  function OffsetOf(fs: seq<Format>, i: nat): nat
    requires i <= |fs|
  {
    SizeOf(fs[..i])
  }

  predicate AllFit(fs: seq<Format>, vs: seq<int>)
  {
    |vs| == |fs| && forall i :: 0 <= i < |fs| ==> Fits(fs[i], vs[i])
  }

  function DecodeValue(f: Format, bs: seq<byte>): (v: int)
    requires |bs| == Width(f)
    ensures Fits(f, v)
  {
    if f == S16 then ToSigned16(BeDecode(bs)) else BeDecode(bs)
  }

  function EncodeValue(f: Format, v: int): (bs: seq<byte>)
    requires Fits(f, v)
    ensures |bs| == Width(f)
    ensures DecodeValue(f, bs) == v
  {
    if f == S16 then BeEncode(FromSigned16(v), 2) else BeEncode(v, Width(f))
  }

  lemma ValueOfBytes(f: Format, bs: seq<byte>)
    requires |bs| == Width(f)
    ensures EncodeValue(f, DecodeValue(f, bs)) == bs
  {
    EncodeOfDecode(bs);
  }

  /** `struct.unpack` on exactly the bytes of the record. */
  function DecodeFields(fs: seq<Format>, bs: seq<byte>): (vs: seq<int>)
    requires |bs| == SizeOf(fs)
    ensures AllFit(fs, vs)
  {
    if |fs| == 0 then []
    else [DecodeValue(fs[0], bs[..Width(fs[0])])] + DecodeFields(fs[1..], bs[Width(fs[0])..])
  }

  /** `struct.pack` of values that all fit their formats. */
  function EncodeFields(fs: seq<Format>, vs: seq<int>): (bs: seq<byte>)
    requires AllFit(fs, vs)
    ensures |bs| == SizeOf(fs)
  {
    if |fs| == 0 then []
    else EncodeValue(fs[0], vs[0]) + EncodeFields(fs[1..], vs[1..])
  }

  /** Decoding what was encoded gives the values back. */
  lemma {:induction false} DecodeOfEncode(fs: seq<Format>, vs: seq<int>)
    requires AllFit(fs, vs)
    ensures DecodeFields(fs, EncodeFields(fs, vs)) == vs
  {
    if |fs| > 0 {
      var bs := EncodeFields(fs, vs);
      assert bs[..Width(fs[0])] == EncodeValue(fs[0], vs[0]);
      assert bs[Width(fs[0])..] == EncodeFields(fs[1..], vs[1..]);
      DecodeOfEncode(fs[1..], vs[1..]);
    }
  }

  /** Encoding what was decoded gives the bytes back. */
  lemma {:induction false} EncodeOfDecodeFields(fs: seq<Format>, bs: seq<byte>)
    requires |bs| == SizeOf(fs)
    ensures EncodeFields(fs, DecodeFields(fs, bs)) == bs
  {
    if |fs| > 0 {
      var w := Width(fs[0]);
      ValueOfBytes(fs[0], bs[..w]);
      EncodeOfDecodeFields(fs[1..], bs[w..]);
      DecodeCons(fs, bs);
      assert bs == bs[..w] + bs[w..];
    }
  }

  /** A decoded record is its first field followed by the rest. */
  lemma DecodeCons(fs: seq<Format>, bs: seq<byte>)
    requires |fs| > 0 && |bs| == SizeOf(fs)
    ensures var vs := DecodeFields(fs, bs);
      |vs| == |fs| && vs[0] == DecodeValue(fs[0], bs[..Width(fs[0])]) &&
      vs[1..] == DecodeFields(fs[1..], bs[Width(fs[0])..])
  {
    var vs := DecodeFields(fs, bs);
    assert vs == [vs[0]] + vs[1..];
  }

  /** Field `i` of a decoded record is read from bytes
      `[OffsetOf(i), OffsetOf(i) + Width)`: fields sit in schema order with
      no padding between them. */
  lemma {:induction false} FieldLayout(fs: seq<Format>, bs: seq<byte>, i: nat)
    requires |bs| == SizeOf(fs)
    requires i < |fs|
    ensures OffsetOf(fs, i) + Width(fs[i]) <= |bs|
    ensures DecodeFields(fs, bs)[i] == DecodeValue(fs[i], bs[OffsetOf(fs, i)..OffsetOf(fs, i) + Width(fs[i])])
  {
    if i == 0 {
      FirstField(fs, bs);
    } else {
      var w := Width(fs[0]);
      SizeStep(fs, bs, w);
      FieldLayout(fs[1..], bs[w..], i - 1);
      LaterField(fs, bs, i, w, OffsetOf(fs[1..], i - 1), Width(fs[i]));
    }
  }

  /** The first field of a record sits at byte 0. */
  lemma FirstField(fs: seq<Format>, bs: seq<byte>)
    requires |bs| == SizeOf(fs) && 0 < |fs|
    ensures OffsetOf(fs, 0) + Width(fs[0]) <= |bs|
    ensures DecodeFields(fs, bs)[0] == DecodeValue(fs[0], bs[OffsetOf(fs, 0)..OffsetOf(fs, 0) + Width(fs[0])])
  {
    assert fs[..0] == [];
  }

  /** The bytes after the first field hold the remaining fields. */
  lemma SizeStep(fs: seq<Format>, bs: seq<byte>, w: nat)
    requires |bs| == SizeOf(fs) && 0 < |fs| && w == Width(fs[0])
    ensures w <= |bs| && |bs[w..]| == SizeOf(fs[1..])
  {
  }

  /** The inductive step of `FieldLayout`: field `i` is field `i - 1` of
      the record that starts after the first field. */
  lemma LaterField(fs: seq<Format>, bs: seq<byte>, i: nat, w: nat, o: nat, wi: nat)
    requires |bs| == SizeOf(fs) && 0 < i < |fs|
    requires w == Width(fs[0]) && wi == Width(fs[i]) && o == OffsetOf(fs[1..], i - 1)
    requires o + wi <= |bs| - w
    requires DecodeFields(fs[1..], bs[w..])[i - 1] == DecodeValue(fs[1..][i - 1], bs[w..][o..o + wi])
    ensures OffsetOf(fs, i) == w + o
    ensures OffsetOf(fs, i) + Width(fs[i]) <= |bs|
    ensures DecodeFields(fs, bs)[i] == DecodeValue(fs[i], bs[OffsetOf(fs, i)..OffsetOf(fs, i) + Width(fs[i])])
  {
    OffsetStep(fs, i);
    DecodeCons(fs, bs);
    DropThenSlice(bs, w, o, wi);
  }

  lemma DropThenSlice<T>(s: seq<T>, w: nat, o: nat, n: nat)
    requires w + o + n <= |s|
    ensures s[w..][o..o + n] == s[w + o..w + o + n]
  {
  }

  /** Past the first field, offsets are those of the remaining fields
      moved by its width. */
  lemma OffsetStep(fs: seq<Format>, i: nat)
    requires 0 < i <= |fs|
    ensures OffsetOf(fs, i) == Width(fs[0]) + OffsetOf(fs[1..], i - 1)
  {
    var pre := fs[..i];
    assert pre[0] == fs[0];
    assert pre[1..] == fs[1..][..i - 1];
  }

  // ---------------------------------------------------------------------------
  // Schema-level operations: `parse_blob`, `pack`, keyword construction.

  function Size(schema: Schema): nat
  {
    SizeOf(Formats(schema))
  }

  /** `parse_blob`: decode the first `Size` bytes; `struct.unpack` raises when
      fewer are present. */
  function ParseBlob(schema: Schema, blob: seq<byte>): (r: Result<seq<int>>)
    ensures r.Ok? <==> |blob| >= Size(schema)
    ensures r.Fail? ==> r.error == TruncatedInput
    ensures r.Ok? ==> AllFit(Formats(schema), r.value)
  {
    if |blob| < Size(schema) then Fail(TruncatedInput)
    else Ok(DecodeFields(Formats(schema), blob[..Size(schema)]))
  }

  /** Trailing bytes past the record never influence `parse_blob`. */
  lemma ParseBlobIgnoresTail(schema: Schema, blob: seq<byte>, tail: seq<byte>)
    requires |blob| >= Size(schema)
    ensures ParseBlob(schema, blob + tail) == ParseBlob(schema, blob)
  {
    assert (blob + tail)[..Size(schema)] == blob[..Size(schema)];
  }

  /** The values of a constructed record, or the first field that
      `struct.pack` would reject. */
  function Values(fs: seq<Format>, rec: seq<Option<int>>): (r: Result<seq<int>>)
    requires |rec| == |fs|
    ensures r.Ok? ==> AllFit(fs, r.value)
    ensures r.Ok? ==> forall i :: 0 <= i < |fs| ==> rec[i] == Some(r.value[i])
    ensures r.Ok? <==> forall i :: 0 <= i < |fs| ==> rec[i].Some? && Fits(fs[i], rec[i].value)
    ensures r.Fail? && (forall i :: 0 <= i < |fs| ==> rec[i].Some?) ==> r.error == ValueOutOfRange
  {
    if |fs| == 0 then Ok([])
    else if rec[0].None? then Fail(UnsetField)
    else if !Fits(fs[0], rec[0].value) then Fail(ValueOutOfRange)
    else
      match Values(fs[1..], rec[1..])
      case Fail(e) => Fail(e)
      case Ok(vs) =>
        assert forall i :: 1 <= i < |fs| ==> rec[i] == rec[1..][i - 1];
        Ok([rec[0].value] + vs)
  }

  /** `pack`: every field must be set and fit its format. */
  function Pack(schema: Schema, rec: seq<Option<int>>): (r: Result<seq<byte>>)
    requires |rec| == |schema|
    ensures r.Ok? ==> |r.value| == Size(schema)
  {
    var vs :- Values(Formats(schema), rec);
    Ok(EncodeFields(Formats(schema), vs))
  }

  function Present(vs: seq<int>): (rec: seq<Option<int>>)
    ensures |rec| == |vs|
    ensures forall i :: 0 <= i < |vs| ==> rec[i] == Some(vs[i])
  {
    seq(|vs|, i requires 0 <= i < |vs| => Some(vs[i]))
  }

  /** `pack(parse_blob(b)) == b[:size]`. */
  lemma PackOfParseBlob(schema: Schema, blob: seq<byte>)
    requires |blob| >= Size(schema)
    ensures ParseBlob(schema, blob).Ok?
    ensures Pack(schema, Present(ParseBlob(schema, blob).value)) == Ok(blob[..Size(schema)])
  {
    var fs := Formats(schema);
    var vs := ParseBlob(schema, blob).value;
    assert AllFit(fs, vs);
    var rec := Present(vs);
    assert forall i :: 0 <= i < |fs| ==> rec[i].Some? && Fits(fs[i], rec[i].value);
    var r := Values(fs, rec);
    assert r.Ok?;
    assert |r.value| == |vs|;
    assert forall i :: 0 <= i < |fs| ==> r.value[i] == vs[i] by {
      forall i | 0 <= i < |fs| ensures r.value[i] == vs[i] {
        assert rec[i] == Some(r.value[i]);
      }
    }
    assert r.value == vs;
    EncodeOfDecodeFields(fs, blob[..Size(schema)]);
  }

  /** Packing then `parse_blob` gives back the values that were set. */
  lemma ParseBlobOfPack(schema: Schema, rec: seq<Option<int>>)
    requires |rec| == |schema|
    requires Pack(schema, rec).Ok?
    ensures ParseBlob(schema, Pack(schema, rec).value).Ok?
    ensures Present(ParseBlob(schema, Pack(schema, rec).value).value) == rec
  {
    var fs := Formats(schema);
    var vs := Values(fs, rec).value;
    var bs := Pack(schema, rec).value;
    assert bs[..Size(schema)] == bs;
    DecodeOfEncode(fs, vs);
  }

  /** The keyword constructor: any keyword outside the schema raises;
      otherwise supplied fields keep their values and the rest are unset. */
  function Construct(schema: Schema, kw: map<string, int>): (r: Result<seq<Option<int>>>)
    ensures r.Ok? <==> kw.Keys <= Names(schema)
    ensures r.Fail? ==> r.error == UnknownField
    ensures r.Ok? ==> |r.value| == |schema|
    ensures r.Ok? ==> forall i :: 0 <= i < |schema| ==>
              r.value[i] == (if schema[i].name in kw then Some(kw[schema[i].name]) else None)
  {
    if exists k :: k in kw && k !in Names(schema) then Fail(UnknownField)
    else Ok(seq(|schema|, i requires 0 <= i < |schema| =>
                  if schema[i].name in kw then Some(kw[schema[i].name]) else None))
  }

  /** A record built with a value for every field packs; one with an omitted
      field cannot be packed until the field is set. */
  lemma ConstructThenPack(schema: Schema, kw: map<string, int>)
    requires kw.Keys <= Names(schema)
    ensures (forall i :: 0 <= i < |schema| ==> schema[i].name in kw && Fits(schema[i].fmt, kw[schema[i].name]))
            <==> Pack(schema, Construct(schema, kw).value).Ok?
    ensures (exists i :: 0 <= i < |schema| && schema[i].name !in kw) ==>
            Pack(schema, Construct(schema, kw).value).Fail?
  {
    var rec := Construct(schema, kw).value;
    var fs := Formats(schema);
    assert Values(fs, rec).Ok? <==> forall i :: 0 <= i < |fs| ==> rec[i].Some? && Fits(fs[i], rec[i].value);
  }

  // ---------------------------------------------------------------------------
  // Reading from a stream (`parse`) and from an in-memory blob (`BlobIO`).

  /** A readable file object.  The pending data arrives as `chunks`: a
      `read(k)` returns at most `k` bytes, and never more than what is left
      of the next chunk; an empty result means end of file. */
  datatype Source = Source(chunks: seq<seq<byte>>)
  {
    ghost predicate Valid()
    {
      forall i :: 0 <= i < |chunks| ==> |chunks[i]| > 0
    }

    function Pending(): seq<byte>
    {
      Flatten(chunks)
    }
  }

  /** One `fin.read(k)` call. */
  function ReadSome(src: Source, k: nat): (r: (seq<byte>, Source))
    requires src.Valid()
    requires k > 0
    ensures r.1.Valid()
    ensures r.0 + r.1.Pending() == src.Pending()
    ensures |r.0| <= k
    ensures |r.0| == 0 <==> |src.chunks| == 0
  {
    if |src.chunks| == 0 then ([], src)
    else
      var c := src.chunks[0];
      if |c| <= k then
        (c, Source(src.chunks[1..]))
      else
        var rest := Source([c[k..]] + src.chunks[1..]);
        assert rest.Pending() == c[k..] + Flatten(src.chunks[1..]);
        assert c == c[..k] + c[k..];
        (c[..k], rest)
  }

  /** The loop of `parse`: gather short reads until `n` bytes arrived, or
      fail with "premature end of file" when the source ends first. */
  method ReadExact(src: Source, n: nat) returns (r: Result<(seq<byte>, Source)>)
    requires src.Valid()
    ensures r.Ok? <==> |src.Pending()| >= n
    ensures r.Fail? ==> r.error == TruncatedInput
    ensures r.Ok? ==> r.value.0 == src.Pending()[..n]
    ensures r.Ok? ==> r.value.1.Valid() && r.value.1.Pending() == src.Pending()[n..]
  {
    var got: seq<byte> := [];
    var cur := src;
    var toRead: nat := n;
    while toRead > 0
      invariant cur.Valid()
      invariant |got| + toRead == n
      invariant got + cur.Pending() == src.Pending()
      decreases toRead
    {
      var step := ReadSome(cur, toRead);
      if |step.0| == 0 {
        assert |cur.Pending()| == 0;
        return Fail(TruncatedInput);
      }
      got := got + step.0;
      cur := step.1;
      toRead := toRead - |step.0|;
    }
    assert |got| == n;
    assert (got + cur.Pending())[..|got|] == got;
    r := Ok((got, cur));
  }

  /** `parse`: read `Size` bytes from the stream and decode them. */
  method Parse(schema: Schema, src: Source) returns (r: Result<(seq<int>, Source)>)
    requires src.Valid()
    ensures r.Ok? <==> |src.Pending()| >= Size(schema)
    ensures r.Fail? ==> r.error == TruncatedInput
    ensures r.Ok? ==> Ok(r.value.0) == ParseBlob(schema, src.Pending())
    ensures r.Ok? ==> r.value.1.Valid() && r.value.1.Pending() == src.Pending()[Size(schema)..]
  {
    var read := ReadExact(src, Size(schema));
    if read.Fail? {
      return Fail(read.error);
    }
    r := Ok((DecodeFields(Formats(schema), read.value.0), read.value.1));
  }

  /** A `BlobIO` over an in-memory byte range, positioned at `pos`. */
  datatype Cursor = Cursor(data: seq<byte>, pos: nat)

  /** Read exactly `n` bytes at the cursor; short reads fail.  Reading
      nothing always succeeds, even from a cursor moved past the end. */
  function Take(c: Cursor, n: nat): (r: Result<(seq<byte>, Cursor)>)
    ensures r.Ok? <==> n == 0 || c.pos + n <= |c.data|
    ensures r.Fail? ==> r.error == TruncatedInput
    ensures r.Ok? ==> |r.value.0| == n && r.value.1 == Cursor(c.data, c.pos + n)
    ensures r.Ok? && n > 0 ==> r.value.0 == c.data[c.pos..c.pos + n]
  {
    if n == 0 then Ok(([], c))
    else if c.pos + n <= |c.data| then Ok((c.data[c.pos..c.pos + n], Cursor(c.data, c.pos + n)))
    else Fail(TruncatedInput)
  }

  /** `parse(fin, fmt)` / `Record.parse(fin)` on a blob: one fixed tuple. */
  function ParseTuple(c: Cursor, fs: seq<Format>): (r: Result<(seq<int>, Cursor)>)
    ensures r.Ok? <==> SizeOf(fs) == 0 || c.pos + SizeOf(fs) <= |c.data|
    ensures r.Ok? ==> AllFit(fs, r.value.0)
    ensures r.Ok? ==> r.value.1 == Cursor(c.data, c.pos + SizeOf(fs))
    ensures r.Fail? ==> r.error == TruncatedInput
  {
    var (bs, c') :- Take(c, SizeOf(fs));
    Ok((DecodeFields(fs, bs), c'))
  }

  function Repeat(f: Format, n: nat): (fs: seq<Format>)
    ensures |fs| == n
    ensures forall i :: 0 <= i < n ==> fs[i] == f
  {
    seq(n, _ => f)
  }

  /** `parse_array(fin, fmt, count)` / `_load_array`: `count` elements read
      into a list.  A negative count has no meaning and fails. */
  function ParseArray(c: Cursor, f: Format, count: int): (r: Result<(seq<int>, Cursor)>)
    ensures count < 0 ==> r == Fail(CorruptSubtable)
    ensures count >= 0 ==> r == ParseTuple(c, Repeat(f, count))
    ensures r.Ok? ==> |r.value.0| == count
  {
    if count < 0 then Fail(CorruptSubtable) else ParseTuple(c, Repeat(f, count))
  }

  lemma {:induction false} SizeOfAppend(a: seq<Format>, b: seq<Format>)
    ensures SizeOf(a + b) == SizeOf(a) + SizeOf(b)
  {
    if |a| > 0 {
      assert (a + b)[0] == a[0];
      assert (a + b)[1..] == a[1..] + b;
      SizeOfAppend(a[1..], b);
    } else {
      assert a + b == b;
    }
  }


  lemma {:induction false} DecodeFieldsAppend(a: seq<Format>, b: seq<Format>, bs: seq<byte>)
    requires |bs| == SizeOf(a) + SizeOf(b)
    ensures SizeOf(a + b) == |bs|
    ensures DecodeFields(a + b, bs) == DecodeFields(a, bs[..SizeOf(a)]) + DecodeFields(b, bs[SizeOf(a)..])
  {
    SizeOfAppend(a, b);
    if |a| == 0 {
      assert a + b == b;
      assert bs[SizeOf(a)..] == bs;
    } else {
      var w, sa, a1 := Width(a[0]), SizeOf(a), a[1..];
      var head := DecodeValue(a[0], bs[..w]);
      DecodeFieldsAppend(a1, b, bs[w..]);
      var x, y := DecodeFields(a1, bs[w..][..SizeOf(a1)]), DecodeFields(b, bs[w..][SizeOf(a1)..]);
      DecodeFront(a, b, bs);
      DecodeSplit(a, bs, sa);
      ShiftedSlices(bs, w, sa);
      ConsAppend(head, x, y);
    }
  }

  /** The first field of `a + b` is decoded like the first field of `a`. */
  lemma DecodeFront(a: seq<Format>, b: seq<Format>, bs: seq<byte>)
    requires |a| > 0 && |bs| == SizeOf(a + b)
    ensures SizeOf(a + b) == Width(a[0]) + SizeOf(a[1..] + b)
    ensures DecodeFields(a + b, bs) ==
      [DecodeValue(a[0], bs[..Width(a[0])])] + DecodeFields(a[1..] + b, bs[Width(a[0])..])
  {
    var ab := a + b;
    assert ab[0] == a[0] && ab[1..] == a[1..] + b;
  }

  /** Decoding the first `sa` bytes of `bs` as the record `a`. */
  lemma DecodeSplit(a: seq<Format>, bs: seq<byte>, sa: nat)
    requires |a| > 0 && sa == SizeOf(a) <= |bs|
    ensures sa == Width(a[0]) + SizeOf(a[1..])
    ensures DecodeFields(a, bs[..sa]) ==
      [DecodeValue(a[0], bs[..Width(a[0])])] + DecodeFields(a[1..], bs[..sa][Width(a[0])..])
  {
    assert bs[..sa][..Width(a[0])] == bs[..Width(a[0])];
  }

  lemma ShiftedSlices<T>(s: seq<T>, w: nat, n: nat)
    requires w <= n <= |s|
    ensures s[w..][..n - w] == s[..n][w..] && s[w..][n - w..] == s[n..]
  {
  }

  lemma ConsAppend<T>(h: T, x: seq<T>, y: seq<T>)
    ensures [h] + (x + y) == ([h] + x) + y
  {
  }

  /** Encoding two records one after the other is encoding their
      concatenation. */
  lemma {:induction false} EncodeFieldsAppend(a: seq<Format>, b: seq<Format>, va: seq<int>, vb: seq<int>)
    requires AllFit(a, va) && AllFit(b, vb)
    ensures AllFit(a + b, va + vb)
    ensures EncodeFields(a + b, va + vb) == EncodeFields(a, va) + EncodeFields(b, vb)
  {
    assert AllFit(a + b, va + vb) by {
      forall i | 0 <= i < |a + b|
        ensures Fits((a + b)[i], (va + vb)[i])
      {
        if i >= |a| {
          assert (a + b)[i] == b[i - |a|] && (va + vb)[i] == vb[i - |a|];
        }
      }
    }
    if |a| == 0 {
      assert a + b == b && va + vb == vb;
    } else {
      assert (a + b)[1..] == a[1..] + b && (va + vb)[1..] == va[1..] + vb;
      assert AllFit(a[1..], va[1..]);
      EncodeFieldsAppend(a[1..], b, va[1..], vb);
    }
  }

  /** Decoding peels off the first field. */
  lemma DecodeFieldsCons(f: Format, fs: seq<Format>, bs: seq<byte>)
    requires |bs| == Width(f) + SizeOf(fs)
    ensures SizeOf([f] + fs) == |bs|
    ensures DecodeFields([f] + fs, bs) == [DecodeValue(f, bs[..Width(f)])] + DecodeFields(fs, bs[Width(f)..])
  {
    assert ([f] + fs)[1..] == fs;
  }

  /** Values that fit a concatenation of formats split into values that fit
      each part. */
  lemma AllFitSplit(a: seq<Format>, b: seq<Format>, vs: seq<int>)
    requires AllFit(a + b, vs)
    ensures AllFit(a, vs[..|a|]) && AllFit(b, vs[|a|..])
    ensures vs == vs[..|a|] + vs[|a|..]
  {
    assert forall i :: 0 <= i < |b| ==> (a + b)[|a| + i] == b[i] && vs[|a|..][i] == vs[|a| + i];
  }

  /** A record whose every value fits packs to its encoding. */
  lemma PackPresent(schema: Schema, vs: seq<int>)
    requires |vs| == |schema| && AllFit(Formats(schema), vs)
    ensures Pack(schema, Present(vs)) == Ok(EncodeFields(Formats(schema), vs))
  {
    var r := Values(Formats(schema), Present(vs));
    assert r.Ok?;
    assert r.value == vs by {
      forall i | 0 <= i < |vs|
        ensures r.value[i] == vs[i]
      {
        assert Present(vs)[i] == Some(r.value[i]);
      }
    }
  }

  lemma RepeatAppend(f: Format, m: nat, n: nat)
    ensures Repeat(f, m + n) == Repeat(f, m) + Repeat(f, n)
  {
  }

  lemma ParseTupleValue(c: Cursor, fs: seq<Format>)
    requires c.pos + SizeOf(fs) <= |c.data|
    ensures ParseTuple(c, fs) ==
      Ok((DecodeFields(fs, c.data[c.pos..c.pos + SizeOf(fs)]), Cursor(c.data, c.pos + SizeOf(fs))))
  {
  }

  /** Reading an array in batches (8 KiB elements at a time in
      `_load_array`) gives the same list as reading it in one pass: the
      elements of `m + n` words are those of the first `m` followed by
      those of the next `n`. */
  lemma BatchedArray(f: Format, m: nat, n: nat, bs: seq<byte>)
    requires |bs| == SizeOf(Repeat(f, m + n))
    ensures SizeOf(Repeat(f, m)) + SizeOf(Repeat(f, n)) == |bs|
    ensures DecodeFields(Repeat(f, m + n), bs) ==
      DecodeFields(Repeat(f, m), bs[..SizeOf(Repeat(f, m))]) + DecodeFields(Repeat(f, n), bs[SizeOf(Repeat(f, m))..])
  {
    RepeatAppend(f, m, n);
    SizeOfAppend(Repeat(f, m), Repeat(f, n));
    DecodeFieldsAppend(Repeat(f, m), Repeat(f, n), bs);
  }

  /** The unsigned 16-bit word at byte `off` of a blob. */
  function U16At(blob: seq<byte>, off: nat): (v: nat)
    requires off + 2 <= |blob|
    ensures v < 0x1_0000
  {
    BeDecode(blob[off..off + 2])
  }

  lemma {:induction false} SizeOfRepeat(f: Format, n: nat)
    ensures SizeOf(Repeat(f, n)) == n * Width(f)
  {
    if n > 0 {
      assert Repeat(f, n)[1..] == Repeat(f, n - 1);
      SizeOfRepeat(f, n - 1);
    }
  }

  /** Element `k` of a decoded array sits at byte `k * Width`. */
  lemma {:induction false} RepeatElement(f: Format, n: nat, bs: seq<byte>, k: nat)
    requires |bs| == SizeOf(Repeat(f, n))
    requires k < n
    ensures SizeOf(Repeat(f, n)) == n * Width(f)
    ensures k * Width(f) + Width(f) <= |bs|
    ensures DecodeFields(Repeat(f, n), bs)[k] == DecodeValue(f, bs[k * Width(f)..k * Width(f) + Width(f)])
  {
    FieldLayout(Repeat(f, n), bs, k);
    assert Repeat(f, n)[..k] == Repeat(f, k);
    SizeOfRepeat(f, k);
    SizeOfRepeat(f, n);
    MulStep(k, n, Width(f));
  }

  lemma MulStep(k: nat, n: nat, w: nat)
    requires k < n
    ensures 0 <= k * w && k * w + w <= n * w
  {
    assert k * w + w == (k + 1) * w;
  }

  /** Element `k` of an array read at a cursor is the value stored at
      `pos + k * Width`. */
  lemma {:induction false} ArrayElement(c: Cursor, f: Format, count: int, k: nat)
    requires ParseArray(c, f, count).Ok?
    requires k < count
    ensures c.pos + ElementOffset(f, k) + Width(f) <= |c.data|
    ensures ParseArray(c, f, count).value.0[k] ==
            DecodeValue(f, c.data[c.pos + ElementOffset(f, k)..c.pos + ElementOffset(f, k) + Width(f)])
  {
    ArrayBytes(c, f, count);
    StoredElement(ParseArray(c, f, count).value.0, c.data, c.pos, f, count, k);
  }

  /** Byte offset of element `k` of an array of `f` fields. */
  function ElementOffset(f: Format, k: nat): (o: nat)
    ensures o == k * Width(f)
  {
    k * Width(f)
  }

  /** A non-empty array that was read whole is the record of `count`
      equal fields decoded from the bytes at the cursor. */
  lemma ArrayBytes(c: Cursor, f: Format, count: int)
    requires ParseArray(c, f, count).Ok? && count > 0
    ensures c.pos + SizeOf(Repeat(f, count)) <= |c.data|
    ensures ParseArray(c, f, count).value.0 ==
            DecodeFields(Repeat(f, count), c.data[c.pos..c.pos + SizeOf(Repeat(f, count))])
  {
    var fs := Repeat(f, count);
    assert fs[0] == f;
    ParseTupleValue(c, fs);
  }

  lemma {:induction false} StoredElement(vs: seq<int>, data: seq<byte>, pos: nat, f: Format, n: nat, k: nat)
    requires pos + SizeOf(Repeat(f, n)) <= |data|
    requires vs == DecodeFields(Repeat(f, n), data[pos..pos + SizeOf(Repeat(f, n))])
    requires k < n
    ensures pos + ElementOffset(f, k) + Width(f) <= |data|
    ensures k < |vs| && vs[k] == DecodeValue(f, data[pos + ElementOffset(f, k)..pos + ElementOffset(f, k) + Width(f)])
  {
    var size := SizeOf(Repeat(f, n));
    var bs := data[pos..pos + size];
    RepeatElement(f, n, bs, k);
    MulStep(k, n, Width(f));
    StoredAt(vs, bs, data, pos, size, f, k, ElementOffset(f, k), Width(f));
  }

  /** A field read from the slice `data[pos..pos + size]` is the field
      stored at `pos` plus its offset in `data`. */
  lemma StoredAt(vs: seq<int>, bs: seq<byte>, data: seq<byte>, pos: nat, size: nat, f: Format, k: nat, o: nat, w: nat)
    requires pos + size <= |data| && bs == data[pos..pos + size]
    requires w == Width(f) && o + w <= size && k < |vs|
    requires vs[k] == DecodeValue(f, bs[o..o + w])
    ensures pos + o + w <= |data| && vs[k] == DecodeValue(f, data[pos + o..pos + o + w])
  {
    SliceOfSlice(data, pos, pos + size, o, o + w);
  }

  lemma SliceOfSlice<T>(s: seq<T>, lo: nat, hi: nat, a: nat, b: nat)
    requires lo <= hi <= |s|
    requires a <= b <= hi - lo
    ensures s[lo..hi][a..b] == s[lo + a..lo + b]
  {
    var l, r := s[lo..hi][a..b], s[lo + a..lo + b];
    assert |l| == |r|;
    forall i | 0 <= i < |l|
      ensures l[i] == r[i]
    {
      assert l[i] == s[lo..hi][a + i] == s[lo + a + i];
    }
  }

  // ---------------------------------------------------------------------------
  // Words and tags: the reads the table parsers are made of.

  lemma OneWord(c: Cursor)
    requires c.pos + 2 <= |c.data|
    ensures ParseTuple(c, [U16]).Ok?
    ensures ParseTuple(c, [U16]).value.0 == [U16At(c.data, c.pos)]
    ensures ParseTuple(c, [U16]).value.1 == Cursor(c.data, c.pos + 2)
  {
    assert SizeOf([U16]) == 2;
    assert c.data[c.pos..c.pos + 2][..2] == c.data[c.pos..c.pos + 2];
  }

  /** `parse(fin, '>H')`: one unsigned word. */
  function Word(c: Cursor): (r: Result<(nat, Cursor)>)
    ensures r.Ok? <==> c.pos + 2 <= |c.data|
    ensures r.Ok? ==> r.value == (U16At(c.data, c.pos), Cursor(c.data, c.pos + 2))
    ensures r.Fail? ==> r.error == TruncatedInput
  {
    if c.pos + 2 <= |c.data| then
      OneWord(c);
      Ok((U16At(c.data, c.pos), Cursor(c.data, c.pos + 2)))
    else
      Fail(TruncatedInput)
  }

  /** `parse_array(fin, '>H', count)`: `count` unsigned words; a negative
      count is refused. */
  function Words(c: Cursor, count: int): (r: Result<(seq<nat>, Cursor)>)
    ensures count < 0 ==> r == Fail(CorruptSubtable)
    ensures count >= 0 ==> (r.Ok? <==> count == 0 || c.pos + 2 * count <= |c.data|)
    ensures count >= 0 && r.Fail? ==> r.error == TruncatedInput
    ensures r.Ok? ==> |r.value.0| == count && r.value.1 == Cursor(c.data, c.pos + 2 * count)
    ensures r.Ok? ==> forall k :: 0 <= k < count ==> r.value.0[k] == U16At(c.data, c.pos + 2 * k)
    decreases if count < 0 then 0 else count
  {
    if count < 0 then Fail(CorruptSubtable)
    else if count == 0 then Ok(([], c))
    else
      var (w, c') :- Word(c);
      var (ws, c'') :- Words(c', count - 1);
      assert forall k :: 1 <= k < count ==> ([w] + ws)[k] == ws[k - 1];
      Ok(([w] + ws, c''))
  }

  /** Element `k` of an array of unsigned words is the word at
      `pos + 2 * k`. */
  lemma WordElement(c: Cursor, count: int, k: nat)
    requires ParseArray(c, U16, count).Ok? && k < count
    ensures c.pos + 2 * k + 2 <= |c.data|
    ensures ParseArray(c, U16, count).value.0[k] == U16At(c.data, c.pos + 2 * k)
  {
    ArrayElement(c, U16, count, k);
  }

  /** Reading the words one at a time gives the array the record codec
      decodes in one `struct.unpack`. */
  lemma WordsAreArray(c: Cursor, count: int)
    ensures Words(c, count).Ok? <==> ParseArray(c, U16, count).Ok?
    ensures Words(c, count).Ok? ==> Words(c, count).value.0 == ParseArray(c, U16, count).value.0
  {
    if count >= 0 {
      SizeOfRepeat(U16, count);
      if ParseArray(c, U16, count).Ok? {
        var ws := Words(c, count).value.0;
        var vs := ParseArray(c, U16, count).value.0;
        forall k | 0 <= k < count
          ensures ws[k] == vs[k]
        {
          WordElement(c, count, k);
        }
      }
    }
  }

  /** One `4s:tag H:offset` record of a tag list. */
  function TagOffset(c: Cursor): (r: Result<((nat, nat), Cursor)>)
    ensures r.Ok? <==> c.pos + 6 <= |c.data|
    ensures r.Ok? ==> r.value == ((U32At(c.data, c.pos), U16At(c.data, c.pos + 4)), Cursor(c.data, c.pos + 6))
    ensures r.Fail? ==> r.error == TruncatedInput
  {
    var fs := [Tag4, U16];
    assert SizeOf(fs) == 6 by {
      assert fs[1..] == [U16];
    }
    if c.pos + 6 <= |c.data| then
      TagOffsetFields(c);
      Ok(((U32At(c.data, c.pos), U16At(c.data, c.pos + 4)), Cursor(c.data, c.pos + 6)))
    else
      Fail(TruncatedInput)
  }

  lemma TagOffsetFields(c: Cursor)
    requires c.pos + 6 <= |c.data|
    ensures ParseTuple(c, [Tag4, U16]).Ok?
    ensures ParseTuple(c, [Tag4, U16]).value.0 == [U32At(c.data, c.pos), U16At(c.data, c.pos + 4)]
  {
    var bs := c.data[c.pos..c.pos + 6];
    TwoFields(Tag4, U16, bs);
    ParseTupleValue(c, [Tag4, U16]);
    assert bs[..4] == c.data[c.pos..c.pos + 4];
    assert bs[4..] == c.data[c.pos + 4..c.pos + 6];
  }

  /** A two-field record is its first field followed by its second. */
  lemma TwoFields(f: Format, g: Format, bs: seq<byte>)
    requires |bs| == Width(f) + Width(g)
    ensures SizeOf([f, g]) == |bs|
    ensures DecodeFields([f, g], bs) == [DecodeValue(f, bs[..Width(f)]), DecodeValue(g, bs[Width(f)..])]
  {
    var fs := [f, g];
    assert fs[1..] == [g] && [g][1..] == [];
    var rest := bs[Width(f)..];
    assert rest[..Width(g)] == rest;
    assert DecodeFields([g], rest) == [DecodeValue(g, rest)];
    assert DecodeFields(fs, bs) == [DecodeValue(f, bs[..Width(f)])] + DecodeFields([g], rest);
  }

  /** The unsigned 32-bit word at byte `off` of a blob; a `4s` tag is read
      as this value too. */
  function U32At(blob: seq<byte>, off: nat): (v: nat)
    requires off + 4 <= |blob|
    ensures v < 0x1_0000_0000
  {
    assert Pow256(4) == 0x1_0000_0000;
    BeDecode(blob[off..off + 4])
  }

  /** A word is its high byte times 256 plus its low byte. */
  lemma U16AtBytes(blob: seq<byte>, off: nat)
    requires off + 2 <= |blob|
    ensures U16At(blob, off) == blob[off] as int * 256 + blob[off + 1] as int
  {
    var w := blob[off..off + 2];
    assert w[..1] == [blob[off]] && w[..1][..0] == [];
    assert BeDecode(w[..1][..0]) == 0;
    assert BeDecode(w[..1]) == blob[off] as int;
    assert BeDecode(w) == BeDecode(w[..1]) * 256 + w[1];
  }

  /** A four-byte value is its bytes read most significant first. */
  lemma U32AtBytes(blob: seq<byte>, off: nat)
    requires off + 4 <= |blob|
    ensures U32At(blob, off) == ((blob[off] as int * 256 + blob[off + 1] as int) * 256 + blob[off + 2] as int) * 256 + blob[off + 3] as int
  {
    var w := blob[off..off + 4];
    U16AtBytes(blob, off);
    assert w[..3] == blob[off..off + 3] && w[..3][..2] == blob[off..off + 2];
    assert BeDecode(w[..3]) == BeDecode(w[..3][..2]) * 256 + w[2];
    assert BeDecode(w) == BeDecode(w[..3]) * 256 + w[3];
  }
}

=== FILE: wrappers.dfy ===
/** Failure-compatible wrappers shared by every layer of the font model.
    The Python exceptions of `otf_tools` become `Fail(e)` values; the error
    kinds follow the failures the code can raise. */
module Wrappers {

  datatype Option<+T> = None | Some(value: T)

  /** Why an operation of the font pipeline aborted. */
  datatype Error =
    | TruncatedInput        // a fixed record or array ran past the end of its bytes
    | UnknownField          // keyword construction with a name outside the schema
    | UnsetField            // packing a record whose field was never given a value
    | ValueOutOfRange       // packing a value that does not fit its field format
    | UnsupportedVersion    // cmap version other than 0, GSUB version other than 1.0
    | UnsupportedFormat     // coverage, subtable or cmap format not implemented
    | UnsupportedLookupType // GSUB lookup type outside 1, 3, 4, 6
    | CorruptSubtable       // inconsistent length or count fields
    | IndexOutOfRange       // a list index past the end of the list it selects from
    | UnknownScript         // make_subber with a script tag the table lacks
    | UnknownLangSys        // make_subber with a langsys tag (or default) the script lacks
    | MissingTable          // an operation needs a table the font does not hold
    | NotPackable           // a decoded table kind that has no pack operation
    | NoMapping             // a cmap table whose (3,1) subtable was never found
    | NoTables              // saving a font without tables (`log2(0)`)

  datatype Result<+T> = Ok(value: T) | Fail(error: Error) {

    predicate IsFailure() {
      Fail?
    }

    function PropagateFailure<U>(): Result<U>
      requires Fail?
    {
      Fail(error)
    }

    function Extract(): T
      requires Ok?
    {
      value
    }
  }
}
